=== FILE: README.md ===
# 67 Hub core, modelled in Dafny

67 Hub is the staff and artist app of the 67 Entertainment label. It is a
React client over Supabase with two serverless handlers. This project
models its decision logic as immutable datatypes and pure functions, and
proves what each rule promises:

- the client data layer (`query`, the post workflow writes, the artist and
  calendar reads, the two AI error tables);
- the error classifier and the `AppError` predicates;
- the form schemas;
- the enumerations and their display tables;
- the post action buttons and their writes;
- the `ai-chat` handler, as a function of request, stored tables and an
  oracle of outcomes;
- the `admin-artists` handler, in the same style;
- the string utilities (duration, relative time, filename sanitising,
  file checks, class joiner);
- the section slug form, the auth store, the chat page reducer, the
  toolkit section page, the media gallery, the media uploader, the
  calendar filter panel, and the route builders against the route
  patterns.

I/O is never performed. Every result the code would await is an input:

- a database reply;
- a provider outcome;
- the current instant;
- a fresh id;
- whether the browser is offline;
- whether a query builder offers `.catch`. The edge functions call
  `.catch` on a builder in two places. A builder that is only a thenable
  makes that call throw before the query is sent. That branch is modelled
  too: `NoCatch` in `ai-chat`, `builderCatch` in `admin-artists`. Both
  functions import supabase-js 2.39.0 (line 8 of each `index.ts`), whose
  query builders are thenables without `.catch`. "## Findings" records
  the `ai-chat` site; in `admin-artists` the branch is part of
  `AdminArtists.CreateOutcomes`.

Instants are integer milliseconds since the epoch, and the UTC day of an
instant is its floor division by 86 400 000. Strings are `seq<char>`.

One file per source module: `wrappers`, `strings`, `seqs` (filter and
verified insertion sorts) and `models` are shared; `enums`, `errors`,
`validation`, `api`, `post_actions`, `ai_chat`, `admin_artists`, `utils`,
`slug`, `auth_store`, `chat_page`, `toolkit`, `gallery`, `uploader`,
`calendar_filters` and `routes` follow the source files of the same names.

## Model

| member | source | states |
|---|---|---|
| Enums.EnumerationsComplete | src/types/enums.ts:5-16 | Exactly five distinct statuses, three roles and nine platforms, each list covering its whole type |
| Enums.NamesRoundTrip | src/types/enums.ts:5-16 | Reading back the stored name of a role, status or platform gives the same value |
| Enums.ParsePlatform | src/types/enums.ts:11-15 | A string read as a platform is that platform's stored name |
| Enums.ParseRole | src/types/enums.ts:5 | A string read as a role is that role's stored name |
| Enums.ParseStatus | src/types/enums.ts:8 | A string read as a status is that status's stored name |
| Enums.DisplayTablesTotal | src/types/enums.ts:37-61 | Every status and platform has a non-empty label, the labels are pairwise distinct, and the priority table is keyed by exactly the guideline priorities |
| Errors.UserMessage | src/lib/errors.ts:46-48 | Every error code has a non-empty user message |
| Errors.AuthErrorsExactly | src/lib/errors.ts:54-56 | An error is an auth error exactly when its code is one of the four `AUTH_` codes |
| Errors.RetryableNeverAuth | src/lib/errors.ts:50-56 | No error is both retryable and an auth error |
| Errors.MapSupabaseError | src/lib/errors.ts:92-149 | An `AppError` passes unchanged; a raw error goes through the ordered rules: credentials, 401/PGRST301, 403, 404/PGRST116, 409/23505, the three workflow messages, network, timeout, then `UNKNOWN_ERROR` with the status when it is non-zero |
| Errors.ClassifierRange | src/lib/errors.ts:92-149 | A raw error is classified into one of the eleven codes the rules name |
| Errors.RawRetryableOnlyNetworkOrTimeout | src/lib/errors.ts:83-89 | A classified raw error is retryable exactly when it is a network or timeout error |
| Errors.CredentialsWinOverStatus | src/lib/errors.ts:101-103 | A message containing "Invalid login credentials" classifies as invalid credentials whatever its code and status |
| Errors.WorkflowRefusalClassified | src/lib/errors.ts:122-130 | A backend "Invalid status transition" refusal with no status rule hit becomes the 400 transition error and is not retryable |
| Errors.FailedToFetchRedundant | src/lib/errors.ts:133-140 | The network rule holds exactly when the message contains "fetch" or "network" or the browser is offline |
| Validation.PostIssues | src/lib/validation.ts:15-25 | A post field fails exactly when its bound fails: title 1..200, caption up to 2200, hashtags up to 500, a known platform, a UUID artist, a schedule strictly after now |
| Validation.PastScheduleRefused | src/lib/validation.ts:21-24 | A post scheduled at or before now is refused |
| Validation.GuidelineIssues | src/lib/validation.ts:38-54 | A guideline field fails exactly when its bound fails; priority 0..2 with default 0; the date order is checked only when both dates are set and the item type is known, since an unknown type aborts the object before its refinement |
| Validation.UnknownTypeHidesDateOrder | src/lib/validation.ts:41-54 | An unknown item type is the only issue of a form whose other members are valid, whatever its dates |
| Validation.SingleDateNeverRefused | src/lib/validation.ts:46-53 | A guideline with at most one of the two dates never fails the date check |
| Validation.AgentConfigIssues | src/lib/validation.ts:64-76 | Max tokens 100..4096 and daily limit 1..100, absent values taking their defaults, and each prompt fragment up to 3000 characters |
| Api.Query | src/lib/api.ts:20-31 | The wrapper is ok exactly when there is no error and the data is non-null; null data is `NOT_FOUND`; errors and exceptions go through the classifier |
| Api.QueryPassesAppErrors | src/lib/api.ts:20-31 | An `AppError` reported or thrown by the call comes back unchanged |
| Api.GetAllArtists | src/lib/api.ts:38-40 | The listed artists are exactly the non-label rows, as a multiset, ordered by name |
| Api.LabelNeverListed | src/lib/api.ts:38-40 | No listed artist is a label |
| Api.GetEvents | src/lib/api.ts:45-62 | The events are exactly the rows in the month range that meet each filter that is set, as a multiset, ordered by time |
| Api.UnfilteredMonthShowsRange | src/lib/api.ts:45-62 | With no filter set, a row is shown exactly when it lies in the range |
| Api.TransitionWrites | src/lib/api.ts:82-104 | Each of the four transitions changes only its own columns: status, plus the reason on reject and the publication instant on publish |
| Api.Transition | src/lib/api.ts:82-104 | A transition is ok exactly when the write is stored, returns the updated row, and classifies a refusal |
| Api.ApplyUpdate | src/lib/api.ts:82-104 | The written row takes the update's status, and its reason and publication instant when the update carries them; every other column of the stored row is unchanged |
| Api.NoFromStateCheck | src/lib/api.ts:82-104 | A transition's result does not depend on the post's current status |
| Api.SendError | src/lib/api.ts:219-231 | Each of the seven known keys maps to its code and status; any other key becomes `UNKNOWN_ERROR` carrying the key |
| Api.SendErrorClasses | src/lib/api.ts:219-231 | Only `ai_error` gives a retryable error; only `unauthorized` and `not_an_artist` give auth errors |
| Api.SendMessage | src/lib/api.ts:210-238 | A transport error or exception is classified; a non-empty `error` member goes through the key table; otherwise the body is the response |
| Api.UsageErrorCode | src/lib/api.ts:245-247 | `agent_disabled` and `not_an_artist` map to their codes, and any other key to `UNKNOWN_ERROR` |
| Api.GetRemainingMessages | src/lib/api.ts:240-254 | The same shape as the send path, with the three-way code table |
| Api.ErrorTablesCompared | src/lib/api.ts:219-249 | The two tables disagree: the disabled-agent key of one is unknown to the other |
| PostActions.Offered | src/components/posts/PostActions.tsx:25-30 | Send is offered exactly to staff on a draft; approve and reject exactly to the owning artist on a post in review; publish exactly to staff on an approved post |
| PostActions.CanSendForReview | src/components/posts/PostActions.tsx:28 | Send is allowed exactly to staff on a post with a workflow edge into review |
| PostActions.CanApproveReject | src/components/posts/PostActions.tsx:29 | Approve and reject are allowed exactly to the owning artist on a post with a workflow edge to approved, equally to rejected |
| PostActions.CanPublish | src/components/posts/PostActions.tsx:30 | Publish is allowed exactly to staff on a post with a workflow edge into publication |
| PostActions.GatingFollowsWorkflow | src/components/posts/PostActions.tsx:25-30 | Every offered action follows an edge of the workflow draft, in review, approved or rejected, published |
| PostActions.EveryEdgeOffered | src/components/posts/PostActions.tsx:25-30 | Every workflow edge is offered to staff or to the owning artist |
| PostActions.AtMostOneGroup | src/components/posts/PostActions.tsx:28-30 | No viewer is offered two action groups at once |
| PostActions.TerminalStatesOfferNothing | src/components/posts/PostActions.tsx:49 | Rejected and published posts offer nothing |
| PostActions.NoArtistNoApproval | src/components/posts/PostActions.tsx:25 | A viewer without an artist profile can never approve or reject |
| PostActions.Merge | src/components/posts/PostActions.tsx:42 | The row's columns replace the post's and the joined artist and media stay |
| PostActions.MergeLaws | src/components/posts/PostActions.tsx:42 | Merging a second row overrides the first, and merging the shown row changes nothing |
| PostActions.DoAction | src/components/posts/PostActions.tsx:32-47 | An action updates the shown post exactly when the write is stored, and then the post part is the database's row with the update applied; a refused write reports the classified message |
| PostActions.ActionChangesOnlyItsColumns | src/components/posts/PostActions.tsx:32-47 | A stored action keeps the artist and the media shown, sets the action's status, and takes every other post column from the database's row; when that row is the one shown, exactly the action's own columns change |
| PostActions.SubmitReject | src/components/posts/PostActions.tsx:165-176 | A rejection is sent exactly when the reason is 1..500 characters, and then carries that reason |
| AiChat.AdmissionGates | supabase/functions/ai-chat/index.ts:23-65 | A preflight, a missing header or key, an invalid token or a missing artist is answered with no write and no provider call, each with its status |
| AiChat.Single | supabase/functions/ai-chat/index.ts:56-60 | `.single()` gives a row exactly when the query matched one row, and then that row |
| AiChat.FindArtist | supabase/functions/ai-chat/index.ts:56-64 | The caller's artist profile is found exactly when one row has the caller's user id, and it is that row |
| AiChat.FindConfig | supabase/functions/ai-chat/index.ts:80-84 | The agent configuration is found exactly when one row has the artist's id, and it is that row |
| AiChat.UsedToday | supabase/functions/ai-chat/index.ts:93-100 | The used count is the messages of the one usage row for the artist and day, and 0 when there is no such row or more than one |
| AiChat.Latest | supabase/functions/ai-chat/index.ts:108-116 | The newest of the sessions, none exactly for none, no session being newer than the one picked |
| AiChat.MessageChecks | supabase/functions/ai-chat/index.ts:68-77 | The trimmed message is refused with 400 exactly when it is empty or longer than 2000, with no write |
| Strings.Trim | supabase/functions/ai-chat/index.ts:69 | `trim()`: no longer than the input, no whitespace at either end, and empty exactly when the input is all whitespace |
| Strings.TrimIdempotent | supabase/functions/ai-chat/index.ts:69 | Trimming a trimmed string changes nothing |
| AiChat.DisabledAgentGate | supabase/functions/ai-chat/index.ts:80-88 | A missing or disabled config answers 403 `AI_AGENT_DISABLED` with no write and no call |
| AiChat.QuotaGate | supabase/functions/ai-chat/index.ts:91-105 | Usage at or above the limit (default 20) answers 429 `AI_DAILY_LIMIT` with no write and no call |
| AiChat.NoUsageRowCountsZero | supabase/functions/ai-chat/index.ts:100 | With no usage row for the day, the used count is zero |
| AiChat.FindSession | supabase/functions/ai-chat/index.ts:108-116 | The found session is the artist's latest in the window [today 00:00:00Z, today 23:59:59Z), and none is found exactly when none lies there |
| AiChat.PickSession | supabase/functions/ai-chat/index.ts:108-132 | An existing session is reused with no write; otherwise exactly one session dated today is inserted, or the handler fails when it cannot be |
| AiChat.SessionChoice | supabase/functions/ai-chat/index.ts:108-132 | A failed creation answers 500 with no write; otherwise the session writes come first, no later write creates a session, and a reply names the chosen session |
| AiChat.CreatedSessionFound | supabase/functions/ai-chat/index.ts:112-113 | A session created earlier the same day, before 23:59:59Z, is found |
| AiChat.LastSecondSessionMissed | supabase/functions/ai-chat/index.ts:112-113 | A session created in the day's last second is not found, so the next message opens another |
| AiChat.History | supabase/functions/ai-chat/index.ts:135-141 | The history is the first 40 of the session's messages in ascending time order |
| AiChat.HistoryIsOldest | supabase/functions/ai-chat/index.ts:135-141 | No message in the history is newer than a message left out of it |
| AiChat.SessionMessages | supabase/functions/ai-chat/index.ts:135-141 | The session's messages, as a multiset, sorted by time |
| AiChat.SystemPrompt | supabase/functions/ai-chat/index.ts:260-283 | The prompt is the configured one or the default, followed by the notes header and notes exactly when the notes are non-empty |
| AiChat.SystemPromptSources | supabase/functions/ai-chat/index.ts:260-283 | The default prompt names the artist, and the `prompt_*` fragments never affect the prompt |
| AiChat.Context | supabase/functions/ai-chat/index.ts:143-155 | The provider turns are the system prompt, the history in order, then the user's message |
| AiChat.Turns | supabase/functions/ai-chat/index.ts:143-155 | One turn per history row, in order, with that row's role and content |
| AiChat.ProviderContext | supabase/functions/ai-chat/index.ts:143-165 | Once a session is chosen, a request is sent holding 2 to 42 turns, first the system prompt, last the trimmed message |
| AiChat.ProviderFailureWritesNothing | supabase/functions/ai-chat/index.ts:158-185 | When the provider call fails or answers non-OK, nothing but the session creation is written and no quota is used; a non-OK answer gives 502 `AI_SERVICE_ERROR` |
| AiChat.UsageWrites | supabase/functions/ai-chat/index.ts:205-220 | One increment per success, followed by the fallback upsert of used + 1 only when the call is rejected; nothing when the builder has no `.catch`, since the call is then never sent |
| AiChat.Generate | supabase/functions/ai-chat/index.ts:158-251 | After a provider answer: one message pair, the usage writes, and the session update with the history length + 2 and the last call's tokens, in that order; with no `.catch` on the builder, the message pair and then 500 |
| AiChat.SuccessWrites | supabase/functions/ai-chat/index.ts:188-230 | A reply comes exactly when a session is chosen, the provider answers and the builder has `.catch`, and then the writes are exactly the session, the message pair, the usage writes and the session update |
| AiChat.MissingCatchAfterInsert | supabase/functions/ai-chat/index.ts:188-220 | With no `.catch` on the builder, an answered request stores the message pair, then answers 500 with no usage counted and no session update |
| AiChat.UsageSnapshot | supabase/functions/ai-chat/index.ts:233-241 | On a reply, used + remaining equals the daily limit and remaining is not negative |
| AiChat.ConverseStatuses | supabase/functions/ai-chat/index.ts:108-255 | Past the gates the answer is a reply or a 500 or 502 error |
| AiChat.Converse | supabase/functions/ai-chat/index.ts:108-255 | Past the gates: never a preflight; a reply or a 500 or 502 error; when no session can be created, 500 with no write and no provider call; a reply only after a provider call and a write, reporting one more message used against the limit |
| AiChat.Handle | supabase/functions/ai-chat/index.ts:21-256 | Only OPTIONS gets the preflight answer; no write, provider call or reply happens unless the request passes authentication, the artist lookup, the message checks, the agent check and the quota |
| AiChat.Chat | supabase/functions/ai-chat/index.ts:68-105 | Nothing is written, sent or answered with a reply unless the message is 1..2000 characters, the agent is enabled and quota is left |
| AiChat.ReachesConverse | supabase/functions/ai-chat/index.ts:21-105 | A request that passes every gate is handled by the conversation step with the caller's artist, config, used count and limit |
| AdminArtists.Handle | supabase/functions/admin-artists/index.ts:73-136 | Only OPTIONS gets the preflight answer; only a staff caller with a parsed body can cause a write; a body with no string action answers 400 |
| AdminArtists.HandleCreate | supabase/functions/admin-artists/index.ts:140-225 | An artist is created exactly when the checks pass and every step succeeds, answering the new ids and the credentials; a new auth user that does not end in an artist is deleted last; a refused body writes nothing |
| AdminArtists.HandleUpdate | supabase/functions/admin-artists/index.ts:229-260 | One write to the body's artist exactly when `artist_id` is truthy; success exactly when it is stored |
| AdminArtists.HandleResetPassword | supabase/functions/admin-artists/index.ts:262-282 | One write of the new password for the body's user exactly when both are given and the password has 6 characters or more; success exactly when it is stored |
| AdminArtists.HandleDelete | supabase/functions/admin-artists/index.ts:284-301 | With both ids, the artist `artist_id` is deactivated, then the auth user `user_id` and its users row are deleted, and success is reported whatever those writes return; otherwise nothing is written |
| AdminArtists.HandleToggleAi | supabase/functions/admin-artists/index.ts:303-328 | One upsert exactly when `artist_id` is truthy; success exactly when the upsert reports no error |
| AdminArtists.HandleList | supabase/functions/admin-artists/index.ts:331-368 | No write; a list exactly when the query succeeds, one entry per row |
| AdminArtists.AuthenticationGates | supabase/functions/admin-artists/index.ts:74-97 | Preflight is answered at once, a missing header or invalid token gets 401, and only a staff caller can cause a write |
| AdminArtists.StaffGate | supabase/functions/admin-artists/index.ts:109-128 | A signed-in non-staff caller gets 403 with no write; a staff caller's body is dispatched |
| AdminArtists.UnknownActionRefused | supabase/functions/admin-artists/index.ts:129-130 | An action outside the six gets 400 with no write |
| AdminArtists.CreateValidation | supabase/functions/admin-artists/index.ts:143-149 | Create answers 400 exactly when a required field is falsy or the password is shorter than 6, and then writes nothing |
| AdminArtists.CreateOutcomes | supabase/functions/admin-artists/index.ts:152-224 | A registered email gives 409; a failed profile insert, or a builder with no `.catch`, deletes the new auth user and gives 500, the latter leaving the artist row behind; success writes the user, the artist row with role `artist` and active, and the default AI config |
| AdminArtists.ProfileOf | supabase/functions/admin-artists/index.ts:186-190 | The optional profile members are copied, null when absent |
| AdminArtists.UpdateProjection | supabase/functions/admin-artists/index.ts:229-258 | Update needs `artist_id` and writes exactly the members present, `artist_name` renamed to `name`, never the ids or the action |
| AdminArtists.ResetAndDeleteChecks | supabase/functions/admin-artists/index.ts:262-299 | Reset needs both fields and a 6-character password; delete needs both ids and then issues three writes |
| AdminArtists.ToggleAiOutcomes | supabase/functions/admin-artists/index.ts:303-326 | Toggle needs `artist_id`, issues one upsert of `enabled`, reports a database error as 500, and names the state by `enabled` |
| AdminArtists.AiEnabled | supabase/functions/admin-artists/index.ts:363 | AI is enabled exactly when the first related config is enabled |
| AdminArtists.FlattenAll | supabase/functions/admin-artists/index.ts:361-365 | One flat entry per row: every selected column and the `users` relation carried over, the config relation replaced by the AI flag |
| AdminArtists.Flatten | supabase/functions/admin-artists/index.ts:361-365 | One row flattened: every column and the `users` relation kept, the AI flag read from the first config, false without one |
| AdminArtists.ListFlattening | supabase/functions/admin-artists/index.ts:331-368 | The list has one entry per row, newest first, each with the AI flag, the columns and the `users` relation of its row |
| Utils.FormatDuration | src/lib/utils.ts:42-46 | Minutes, a colon and two seconds digits |
| Utils.DurationRoundTrip | src/lib/utils.ts:42-46 | Parsing a formatted duration gives back the seconds |
| Utils.RelativeBucket | src/lib/utils.ts:26-39 | "now" exactly under a minute, and every count shown is at least one and below the next unit |
| Utils.RelativeBuckets | src/lib/utils.ts:26-39 | Under a minute is "now", then minutes under an hour, hours under a day and days under a week, each the floored count, and a date beyond |
| Utils.SanitizeFilename | src/lib/utils.ts:56-62 | After the marks are dropped, the length is kept and every character is in `[a-z0-9._-]` |
| Utils.SanitizeIdempotent | src/lib/utils.ts:56-62 | Sanitising twice is sanitising once |
| Utils.SanitizeFixesSafeNames | src/lib/utils.ts:56-62 | A name already in `[a-z0-9._-]` is unchanged |
| Utils.SanitizePositions | src/lib/utils.ts:56-62 | Without marks, position i becomes `_` exactly when its character is outside `[a-zA-Z0-9._-]` or is `_` |
| Utils.ValidateFile | src/lib/utils.ts:65-73 | No problem exactly when the size is at most 50 MiB and the type is accepted; size is checked before type |
| Utils.IsVideo | src/lib/utils.ts:76-79 | Among accepted types, the video check holds exactly for the two video types |
| Utils.KeptClasses | src/lib/utils.ts:109-111 | The kept classes are the non-empty given ones |
| Utils.KeptAppend | src/lib/utils.ts:109-111 | Joining lists of classes keeps the kept classes in order |
| Utils.ClassNames | src/lib/utils.ts:109-111 | The joined string is empty exactly when no class is kept |
| Utils.ClassNamesSplit | src/lib/utils.ts:109-111 | Splitting the joined string on spaces gives back exactly the kept classes |
| SectionForm.Slug | src/components/guidelines/CreateSectionModal.tsx:46-56 | A slug holds only `[a-z0-9-]`, never `--`, and no dash at either end, and it keeps every letter and digit of the folded title, in order |
| SectionForm.Dashify | src/components/guidelines/CreateSectionModal.tsx:54 | The result holds only slug characters, never `--`, is empty only for an empty input, and starts or ends with a dash exactly when the input starts or ends with a character outside `[a-z0-9]` |
| SectionForm.TrimDashes | src/components/guidelines/CreateSectionModal.tsx:55 | The input with at most one character dropped at each end, leaving no dash at either end; empty exactly when the input was only dashes |
| SectionForm.DashifyKeepsAlnums | src/components/guidelines/CreateSectionModal.tsx:54 | Dashifying keeps the input's letters and digits, in order, and adds none |
| SectionForm.DashifyKeepsAlnumRun | src/components/guidelines/CreateSectionModal.tsx:54 | A leading run of letters and digits passes through unchanged |
| SectionForm.DashifyRunToDash | src/components/guidelines/CreateSectionModal.tsx:54 | A maximal run of other characters, followed by the end or a letter or digit, becomes exactly one dash |
| SectionForm.TrimDashesKeepsAlnums | src/components/guidelines/CreateSectionModal.tsx:55 | Trimming the edge dashes keeps every letter and digit, in order |
| SectionForm.SlugIdempotent | src/components/guidelines/CreateSectionModal.tsx:46-56 | A slug is its own slug |
| SectionForm.EmptySlug | src/components/guidelines/CreateSectionModal.tsx:46-56 | The slug is empty exactly when no character folds to a letter or digit |
| SectionForm.AccentedVowels | src/components/guidelines/CreateSectionModal.tsx:49-53 | Each listed accented vowel slugs to its base vowel, and the empty title to the empty slug |
| SectionForm.TitleChanged | src/components/guidelines/CreateSectionModal.tsx:58-64 | A title change sets the slug to the title's slug and nothing else |
| SectionForm.Submit | src/components/guidelines/CreateSectionModal.tsx:66-77 | A section is inserted exactly when signed in and the trimmed title and slug are non-empty |
| SectionForm.GeneratedSlugSubmits | src/components/guidelines/CreateSectionModal.tsx:58-77 | A title with a letter or digit always yields a submittable form |
| AuthStore.SetUser | src/stores/authStore.ts:25-30 | The user is set, loading ends, the artist is kept, and the staff flag holds exactly for an admin or manager |
| AuthStore.SetArtist | src/stores/authStore.ts:32 | Only the artist changes |
| AuthStore.Logout | src/stores/authStore.ts:34-40 | Everything is cleared and loading ends |
| AuthStore.StaffFlagInvariant | src/stores/authStore.ts:19-40 | The staff flag agrees with the user's role initially and after every transition |
| AuthStore.ArtistsAreNotStaff | src/stores/authStore.ts:25-30 | A user with the artist role is never staff, whatever the artist profile |
| AuthStore.SettersCommute | src/stores/authStore.ts:25-32 | Setting the user and the artist commute |
| ChatPage.LoadData | src/pages/AIChatPage.tsx:29-49 | A successful load replaces messages and usage; the agent shows disabled once usage says so or the error is `AI_AGENT_DISABLED` |
| ChatPage.BeginSend | src/pages/AIChatPage.tsx:60-78 | Nothing happens for an empty trimmed input or a send in flight; otherwise the input clears and one temporary user message is appended |
| ChatPage.FinishSend | src/pages/AIChatPage.tsx:84-111 | Success appends the reply and takes the response's usage, enabled; failure removes the temporary message and restores the text |
| ChatPage.SendRoundTrip | src/pages/AIChatPage.tsx:60-111 | A failed send leaves the list as it was; a successful one adds exactly the user's and the assistant's messages |
| ChatPage.Render | src/pages/AIChatPage.tsx:122-195 | The disabled screen exactly when disabled; the input bar exactly while messages remain; red at 3 or fewer, grey above 10 |
| ChatPage.AfterSuccessfulSend | src/pages/AIChatPage.tsx:98-103 | After a successful send the counter shows the response's usage and the input bar stays exactly while messages remain |
| ChatPage.UnknownUsageBlocksInput | src/pages/AIChatPage.tsx:122-124 | Before usage is known the counter reads 0/20 in red with no input bar |
| Toolkit.SectionItems | src/pages/ToolkitSectionPage.tsx:28-39 | The items are exactly those of the route's section, as a multiset |
| Toolkit.Expand | src/pages/ToolkitSectionPage.tsx:45-58 | A click on the open item closes it and any other click opens that item; mark-read is requested exactly for an artist opening an unread item |
| Toolkit.AccordionLaws | src/pages/ToolkitSectionPage.tsx:45-58 | A second click undoes the first; staff and read items never request mark-read |
| Toolkit.MarkReadLaws | src/pages/ToolkitSectionPage.tsx:53-55 | Marking read is idempotent and marks every item with that id |
| Toolkit.MarkedRead | src/pages/ToolkitSectionPage.tsx:53-55 | Only the items with that id become read |
| Toolkit.ShownItems | src/pages/ToolkitSectionPage.tsx:82-84 | Staff see every item; artists see exactly the unexpired ones, each with its multiplicity and nothing else |
| Toolkit.PriorityBadge | src/pages/ToolkitSectionPage.tsx:80 | A listed priority gets its own badge, any other the normal one |
| Toolkit.PriorityFallback | src/pages/ToolkitSectionPage.tsx:80 | Priorities 0..2 get their badge and any other gets the normal one |
| Gallery.Prev | src/components/posts/MediaGallery.tsx:51 | From a valid index, one back modulo the count, so the first goes to the last |
| Gallery.Next | src/components/posts/MediaGallery.tsx:58 | From a valid index, one on modulo the count, so the last goes to the first |
| Gallery.ThumbnailSource | src/components/posts/MediaGallery.tsx:97 | The strip shows the thumbnail when there is one, otherwise the media itself |
| Gallery.PrevNextInverse | src/components/posts/MediaGallery.tsx:51-58 | The two arrows undo each other on every valid index |
| Gallery.NextTimesIsRotation | src/components/posts/MediaGallery.tsx:58 | k presses of the right arrow move k places round the cycle |
| Gallery.View | src/components/posts/MediaGallery.tsx:19-108 | Nothing for no media; arrows, dots and strip only for more than one item; the strip shows each thumbnail or storage path; the lightbox only for non-video |
| Uploader.StoragePath | src/components/posts/MediaUploader.tsx:46-48 | The path is the post's folder, the file id, `_`, then the sanitised name: exactly as long as the name with its marks removed, every character after the `_` a safe one, so never a `/` |
| Uploader.StoragePathsDistinct | src/components/posts/MediaUploader.tsx:46-48 | Two file ids of one length that differ give different paths, whatever the names |
| Uploader.Uploaded | src/components/posts/MediaUploader.tsx:37-82 | An entry exactly for a valid file whose upload succeeds, at `post/id_name`, with a thumbnail only for a video whose thumbnail upload succeeds |
| Uploader.Writes | src/components/posts/MediaUploader.tsx:37-72 | An invalid file writes nothing; a valid one writes its main path first and a thumbnail only when it is an uploaded video with a generated thumbnail |
| Uploader.AllUploaded | src/components/posts/MediaUploader.tsx:37-86 | At most one entry per selected file |
| Uploader.AllUploadedEntries | src/components/posts/MediaUploader.tsx:37-86 | Every entry is the upload of some selected file, and there is one per file exactly when every file uploaded |
| Uploader.ChangesAsWritten | src/components/posts/MediaUploader.tsx:84 | One report per successful upload, each the list captured at the start plus that upload alone |
| Uploader.StaleListLosesUpload | src/components/posts/MediaUploader.tsx:84 | Two valid images selected together both upload, yet the parent ends with one entry |
| Uploader.AsWrittenKeepsOnlyLast | src/components/posts/MediaUploader.tsx:84 | As written, the parent ends with the captured list plus only the last upload |
| Uploader.AccumulatingKeepsAll | src/components/posts/MediaUploader.tsx:37-86 | When each report extends the previous one, the parent ends with every successful upload in order |
| Uploader.RemoveFile | src/components/posts/MediaUploader.tsx:89-96 | The main path and a non-empty thumbnail path are deleted, and exactly the entries with another id remain |
| Uploader.RemoveUndoesAdd | src/components/posts/MediaUploader.tsx:89-96 | Removing a newly added entry gives back the earlier list |
| CalendarFilterPanel.Cleared | src/components/calendar/CalendarFilters.tsx:33-36 | Only month and year survive, so no filter shows |
| CalendarFilterPanel.ArtistPicked | src/components/calendar/CalendarFilters.tsx:61 | The empty option unsets the artist, any other value sets it; no other field changes |
| CalendarFilterPanel.PlatformPicked | src/components/calendar/CalendarFilters.tsx:78 | The empty option unsets the platform, a platform's name sets that platform; no other field changes |
| CalendarFilterPanel.StatusPicked | src/components/calendar/CalendarFilters.tsx:94 | The empty option unsets the status, a status's name sets that status; no other field changes |
| CalendarFilterPanel.PickThenUnset | src/components/calendar/CalendarFilters.tsx:59-94 | Picking a value and then the empty option restores an unset field |
| CalendarFilterPanel.PickedShowsIndicator | src/components/calendar/CalendarFilters.tsx:23 | Any real value picked makes the filter indicator show |
| CalendarFilterPanel.ArtistSelectorOnlyForStaff | src/components/calendar/CalendarFilters.tsx:25-31 | The artist selector is offered exactly to staff with a loaded, non-empty list |
| Routes.PostDetailFillsPattern | src/config/routes.ts:9-26 | The post builder is the post pattern with `:id` filled |
| Routes.ToolkitSectionFillsPattern | src/config/routes.ts:12-27 | The section builder is its pattern with `:slug` filled |
| Routes.AiChatAdminFillsPattern | src/config/routes.ts:15-28 | The admin chat builder is its pattern with `:artistId` filled |
| Routes.SessionBuilderFillsPattern | src/config/routes.ts:16-30 | The session builder is its pattern with both parameters filled |
| Routes.AiChatConfigFillsPattern | src/config/routes.ts:17-31 | The chat config builder is its pattern with `:artistId` filled |
| Routes.AiAgentConfigFillsPattern | src/config/routes.ts:19-32 | The agent config builder is its pattern with `:artistId` filled |
| Routes.PostDetailMatches | src/config/routes.ts:9-26 | A built post path matches its pattern, binding `id` to the argument |
| Routes.ToolkitSectionMatches | src/config/routes.ts:12-27 | A built section path matches its pattern, binding `slug` to the argument |
| Routes.AiChatAdminMatches | src/config/routes.ts:15-28 | A built admin chat path matches its pattern, binding `artistId` to the argument |
| Routes.AiChatConfigMatches | src/config/routes.ts:17-31 | A built chat config path matches its pattern, binding `artistId` to the argument |
| Routes.AiAgentConfigMatches | src/config/routes.ts:19-32 | A built agent config path matches its pattern, binding `artistId` to the argument |
| Routes.AiChatAdminSessionMatches | src/config/routes.ts:16-30 | A built session path matches its pattern, binding both parameters |
| Routes.NewPostCollision | src/config/routes.ts:9-26 | The post built for id "new" is the new-post path, which the detail pattern also matches |

## Left out

- Unicode normalisation: `sanitizeFilename`'s NFD step is not modelled; combining marks are dropped from the input as given.
- Case mapping: only ASCII and Latin-1 letters are lower-cased, in the slug and in the filename.
- String lengths count characters, not UTF-16 code units.
- Floating point is not modelled: `formatFileSize`, the temperature field and its bound, and fractional or negative durations (durations are naturals).
- The clock, the locale and date formatting are inputs: `formatDate`, `formatTime`, the month range of `calendar.getEvents`, and the expiry instant on the toolkit page.
- Network, storage and database I/O, and concurrency (the race between the quota read and the increment, parallel loads) are replaced by oracle outcomes.
- AdminArtists.Handle: request-body members are strings, booleans, integers or `null`. An array or object member is not modelled (an array `password`, for one, is truthy and has a length), nor is a fractional number.
- AdminArtists.AiEnabled: the related configs are taken to arrive as an array, the shape the code indexes.
- Uploader.Uploaded: the object-URL preview and its revocation are not modelled.
- Routes.PostDetailMatches: router ranking and URL decoding are not modelled, only segment-by-segment matching, so the static `/posts/new` route winning is not shown.
- Gallery.View: an index past the end after the list shrinks is the `RenderThrows` result, not a crash.
- AiChat.Generate: the provider's outcome is an input. A JSON `null` body is the `ProviderThrew` outcome, because reading `choices` from it throws. The temperature sent is not modelled.
- Seqs.SortBy: ties keep the order of the insertion sort, which the database does not promise.
- Api.SendError: keys naming members of the JavaScript object prototype, such as `constructor`, are treated as unknown.
- Api.SendError: the rate-limited error's details are only the `error` key, whereas the code attaches the whole answered body.
- Api.GetAllArtists: names are ordered by code point, whereas the database orders them by its collation.
- Api.SendMessage: the answered body is taken to be an object; a `null` body, which the code reports as success with `null` data, is not modelled.
- Api.GetRemainingMessages: the answered body is taken to be an object; a `null` body, which the code reports as success with `null` data, is not modelled.
- api.ts reads and writes other than those above are not modelled, since they are plain `query` calls with no rule of their own: post `getById`, `create`, `update`, `delete` and `getMedia`; comments; the pending count; guidelines; `getTodayMessages`; the admin AI views; the AI config calls; notifications; storage.
- Validation.AgentConfigIssues: the temperature bound is a float range and is not modelled.
- The reject-reason, comment and AI-message schemas are predicates used by the actions above; they carry no contract of their own.

## Findings

| source | as written | input that shows it | evidently intended | confidence | as-written member | corrected member |
|---|---|---|---|---|---|---|
| src/components/posts/MediaUploader.tsx:84 | each successful upload calls `onChange([...files, newFile])` with the list captured when the handler started | two valid images selected together, both uploaded: the parent lists only the second | each upload extends the list reported by the previous one, so every upload stays listed | not executed | Uploader.StaleListLosesUpload | Uploader.AccumulatingKeepsAll |
| supabase/functions/ai-chat/index.ts:205-208 | the usage RPC is awaited through `.rpc(...).catch(...)`, but the pinned client's builder is a thenable with no `.catch` method | any request the provider answers: the message pair is already stored, the `.catch` call throws, the handler answers 500, and no usage or session update is written | await the RPC and run the fallback upsert when it reports an error, so the answer is a reply and the quota is counted | not executed | AiChat.MissingCatchAfterInsert | AiChat.SuccessWrites |

=== FILE: admin_artists.dfy ===
/**
 * The `admin-artists` edge function: a staff gate, then a dispatch on the
 * body's `action` to create, update, reset the password of, delete or
 * toggle the AI agent of an artist, or to list the artists. The request
 * body is a JSON object; what the auth service and the database answer is
 * an oracle input. The handler yields its response and the writes it
 * issues, in order.
 */
module AdminArtists {
  import opened Wrappers
  import opened Strings
  import opened Seqs

  /** A JSON value as it can appear in the request body. */
  datatype Json = JStr(str: string) | JBool(flag: bool) | JNum(num: int) | JNull

  /** JavaScript truthiness of a body member; an absent member is undefined. */
  predicate Truthy(body: map<string, Json>, key: string) {
    key in body &&
    match body[key]
    case JStr(s) => s != ""
    case JBool(b) => b
    case JNum(n) => n != 0
    case JNull => false
  }

  /** `value.length < 6`: only a string has a length; for any other value
      the comparison is with `undefined` and is false. */
  predicate TooShort(body: map<string, Json>, key: string) {
    key in body && body[key].JStr? && |body[key].str| < 6
  }

  /** How a template literal renders a value. */
  function Render(v: Json): string {
    match v
    case JStr(s) => s
    case JBool(b) => if b then "true" else "false"
    case JNum(n) => if n < 0 then "-" + NatToString(-n) else NatToString(n)
    case JNull => "null"
  }

  /** A member's value, `null` standing in for an absent one where the
      source writes `?? null`. */
  function OrNull(body: map<string, Json>, key: string): Json {
    if key in body && body[key] != JNull then body[key] else JNull
  }

  // ------------------------------------------------------------ effects and oracle

  /** The writes the handler issues. */
  datatype Effect =
    | CreateAuthUser(email: Json, password: Json)
    | InsertUser(id: string, email: Json, displayName: Json, role: string)
    | InsertArtist(userId: string, name: Json, color: Json, optional: map<string, Json>, isActive: bool)
    | InsertDefaultConfig(artistId: string, isEnabled: bool, modelName: string, maxTokens: int,
                          dailyMessageLimit: int)
    | DeleteAuthUser(userId: string)
    | UpdateArtist(targetArtist: Json, fields: map<string, Json>)
    | UpdatePassword(targetUser: Json, password: Json)
    | DeactivateArtist(targetArtist: Json)
    | DeleteUserRow(targetUser: Json)
    | UpsertAiEnabled(targetArtist: Json, enabled: Option<Json>)

  /** `auth.admin.createUser`: the new user's id, or an error with its optional message. */
  datatype AuthOutcome = AuthCreated(userId: string) | AuthRefused(message: Option<string>)

  /** A `config` row of the list query's nested relation. */
  datatype ConfigRel = ConfigRel(isEnabled: Option<bool>)

  /** The `users` relation of a list row: the artist's email and display name. */
  datatype UserRel = UserRel(email: Json, displayName: Json)

  /** A row of the list query, with its nested relations. `columns` holds
      the other selected columns (color, bio, the three handles,
      spotify_url), which the spread passes through unread. */
  datatype ListRow = ListRow(id: string, name: string, createdAt: int, isActive: bool,
                             userId: Option<string>, columns: map<string, Json>,
                             user: Option<UserRel>, configs: seq<ConfigRel>)

  /** A row of the list response: the config relation replaced by `ai_enabled`. */
  datatype ListedArtist = ListedArtist(id: string, name: string, createdAt: int, isActive: bool,
                                       userId: Option<string>, columns: map<string, Json>,
                                       user: Option<UserRel>, aiEnabled: bool)

  /** What the auth service and the database answer. `builderCatch` says
      whether a query builder exposes `.catch`; when it does not, reading it
      throws. */
  datatype Oracle = Oracle(
    callerId: Option<string>,
    callerRole: Option<string>,
    createUser: AuthOutcome,
    userInsertOk: bool,
    artistInsert: Option<string>,
    updateOk: bool,
    passwordOk: bool,
    upsertError: Option<string>,
    listRows: Option<seq<ListRow>>,
    builderCatch: bool)

  datatype Response =
    | Preflight
    | ErrorReply(status: int, error: string)
    | Created(userId: string, artistId: string, email: Json, password: Json, message: string)
    | Done(message: string)
    | Listed(artists: seq<ListedArtist>)

  datatype Outcome = Outcome(response: Response, effects: seq<Effect>)

  /** The request: HTTP method, `Authorization` header, parsed body (None
      when it does not parse). */
  datatype Request = Request(verb: string, authHeader: Option<string>, body: Option<map<string, Json>>)

  function Fail(status: int, message: string): Outcome {
    Outcome(ErrorReply(status, message), [])
  }

  const Actions: set<string> := {"create", "update", "reset_password", "delete", "toggle_ai", "list"}

  /** The action named by the body, when it is a string. */
  function ActionOf(body: map<string, Json>): Option<string> {
    if "action" in body && body["action"].JStr? then Some(body["action"].str) else None
  }

  // ------------------------------------------------------------ the handler

  /** `serve`: preflight, authentication, the staff gate, then the dispatch.
      Only OPTIONS gets the preflight answer, and only a staff caller with a
      parsed body can cause a write. */
  function Handle(req: Request, o: Oracle): (r: Outcome)
    ensures r.response.Preflight? <==> req.verb == "OPTIONS"
    ensures r.effects != [] ==> StaffCaller(o) && req.body.Some?
    ensures req.verb != "OPTIONS" && StaffCaller(o) && req.body.Some? && ActionOf(req.body.value).None?
            && req.authHeader.Some? && req.authHeader.value != "" ==>
            r.response == ErrorReply(400, "Invalid action")
  {
    if req.verb == "OPTIONS" then Outcome(Preflight, [])
    else if req.authHeader.None? || req.authHeader.value == "" then Fail(401, "Missing authorization")
    else if o.callerId.None? then Fail(401, "Invalid token")
    else if o.callerRole.None? || o.callerRole.value !in {"admin", "manager"} then
      Fail(403, "Staff access required")
    else if req.body.None? then Fail(500, "Internal error")
    else Dispatch(req.body.value, o)
  }

  function Dispatch(body: map<string, Json>, o: Oracle): Outcome {
    var action := ActionOf(body);
    if action == Some("create") then HandleCreate(body, o)
    else if action == Some("update") then HandleUpdate(body, o)
    else if action == Some("reset_password") then HandleResetPassword(body, o)
    else if action == Some("delete") then HandleDelete(body)
    else if action == Some("toggle_ai") then HandleToggleAi(body, o)
    else if action == Some("list") then HandleList(o)
    else Fail(400, "Invalid action")
  }

  /** `!email || !password || !display_name || !artist_name || !color`. */
  predicate MissingRequired(body: map<string, Json>) {
    !Truthy(body, "email") || !Truthy(body, "password") || !Truthy(body, "display_name")
    || !Truthy(body, "artist_name") || !Truthy(body, "color")
  }

  /** The optional profile members copied into the artist row, `?? null`. */
  const ProfileKeys: seq<string> := ["bio", "instagram_handle", "tiktok_handle", "youtube_handle", "spotify_url"]

  function ProfileOf(body: map<string, Json>): (r: map<string, Json>)
    ensures r.Keys == set k | k in ProfileKeys
    ensures forall k :: k in r ==> r[k] == OrNull(body, k)
  {
    map k | k in ProfileKeys :: OrNull(body, k)
  }

  /** `handleCreate`: an artist is created exactly when the checks pass and
      every step succeeds; a created auth user that does not end in an
      artist is deleted again. */
  function HandleCreate(body: map<string, Json>, o: Oracle): (r: Outcome)
    ensures r.response.Created? <==>
      CreateAccepted(body) && o.createUser.AuthCreated? && o.userInsertOk && o.artistInsert.Some? && o.builderCatch
    ensures r.response.Created? ==>
      r.response.userId == o.createUser.userId && r.response.artistId == o.artistInsert.value
      && r.response.email == body["email"] && r.response.password == body["password"]
    ensures CreateAccepted(body) && o.createUser.AuthCreated? && !r.response.Created? ==>
      |r.effects| > 0 && r.effects[|r.effects| - 1] == DeleteAuthUser(o.createUser.userId)
    ensures !CreateAccepted(body) ==> r.effects == []
  {
    if MissingRequired(body) then
      Fail(400, "Missing required fields: email, password, display_name, artist_name, color")
    else if TooShort(body, "password") then Fail(400, "Password must be at least 6 characters")
    else
      var create := CreateAuthUser(body["email"], body["password"]);
      match o.createUser
      case AuthRefused(message) =>
        if message.Some? && Contains(message.value, "already been registered") then
          Outcome(ErrorReply(409, "Email già registrata"), [create])
        else
          Outcome(ErrorReply(500, "Failed to create auth user: " + message.GetOr("undefined")), [create])
      case AuthCreated(userId) =>
        var user := InsertUser(userId, body["email"], body["display_name"], "artist");
        var rollback := Outcome(ErrorReply(500, "Failed to create artist profile"), []);
        if !o.userInsertOk then
          rollback.(effects := [create, user, DeleteAuthUser(userId)])
        else
          var artist := InsertArtist(userId, body["artist_name"], body["color"], ProfileOf(body), true);
          if o.artistInsert.None? then
            rollback.(effects := [create, user, artist, DeleteAuthUser(userId)])
          else if !o.builderCatch then
            // the config insert's builder has no `.catch`: reading it throws
            // inside the `try`, before that insert is sent
            rollback.(effects := [create, user, artist, DeleteAuthUser(userId)])
          else
            var artistId := o.artistInsert.value;
            var message := "Artista \"" + Render(body["artist_name"])
                           + "\" creato. Invia le credenziali su WhatsApp.";
            Outcome(Created(userId, artistId, body["email"], body["password"], message),
                    [create, user, artist, InsertDefaultConfig(artistId, true, "deepseek-chat", 1000, 20)])
  }

  /** The members `handleUpdate` copies. */
  const UpdateKeys: set<string> :=
    {"artist_name", "color", "bio", "instagram_handle", "tiktok_handle", "youtube_handle",
     "spotify_url", "is_active"}

  /** The column each copied member is written to: `artist_name` becomes `name`. */
  function Column(key: string): string {
    if key == "artist_name" then "name" else key
  }

  /** The member a column is read from; the inverse of `Column` on the copied members. */
  function MemberOf(column: string): string {
    if column == "name" then "artist_name" else column
  }

  const UpdateColumns: set<string> :=
    {"name", "color", "bio", "instagram_handle", "tiktok_handle", "youtube_handle",
     "spotify_url", "is_active"}

  /** The update's field map: each member present in the body, under its column. */
  function UpdateFields(body: map<string, Json>): map<string, Json> {
    map c | c in UpdateColumns && MemberOf(c) in body :: body[MemberOf(c)]
  }

  /** `handleUpdate`: one write exactly when `artist_id` is truthy, and
      success exactly when that write is stored. */
  function HandleUpdate(body: map<string, Json>, o: Oracle): (r: Outcome)
    ensures |r.effects| == (if Truthy(body, "artist_id") then 1 else 0)
    ensures r.response.Done? <==> Truthy(body, "artist_id") && o.updateOk
    ensures r.effects != [] ==> r.effects[0].UpdateArtist? && r.effects[0].targetArtist == body["artist_id"]
  {
    if !Truthy(body, "artist_id") then Fail(400, "artist_id required")
    else
      var write := UpdateArtist(body["artist_id"], UpdateFields(body));
      if o.updateOk then Outcome(Done("Artista aggiornato"), [write])
      else Outcome(ErrorReply(500, "Failed to update artist"), [write])
  }

  /** `handleResetPassword`: one write of the body's new password for the
      body's user exactly when the checks pass. */
  function HandleResetPassword(body: map<string, Json>, o: Oracle): (r: Outcome)
    ensures r.effects != [] <==>
      Truthy(body, "user_id") && Truthy(body, "new_password") && !TooShort(body, "new_password")
    ensures r.effects != [] ==> r.effects == [UpdatePassword(body["user_id"], body["new_password"])]
    ensures r.response.Done? <==> r.effects != [] && o.passwordOk
  {
    if !Truthy(body, "user_id") || !Truthy(body, "new_password") then
      Fail(400, "user_id and new_password required")
    else if TooShort(body, "new_password") then Fail(400, "Password must be at least 6 characters")
    else
      var write := UpdatePassword(body["user_id"], body["new_password"]);
      if o.passwordOk then Outcome(Done("Password aggiornata"), [write])
      else Outcome(ErrorReply(500, "Failed to reset password"), [write])
  }

  /** `handleDelete`: deactivate, delete the auth user, delete the users
      row; the three outcomes are ignored. */
  function HandleDelete(body: map<string, Json>): (r: Outcome)
    ensures r.response.Done? <==> Truthy(body, "artist_id") && Truthy(body, "user_id")
    ensures r.response.Done? ==>
      |r.effects| == 3 && r.effects[0] == DeactivateArtist(body["artist_id"])
      && r.effects[1] == DeleteAuthUser(Render(body["user_id"]))
      && r.effects[2] == DeleteUserRow(body["user_id"])
    ensures !r.response.Done? ==> r.effects == []
  {
    if !Truthy(body, "artist_id") || !Truthy(body, "user_id") then
      Fail(400, "artist_id and user_id required")
    else
      Outcome(Done("Artista rimosso"),
              [DeactivateArtist(body["artist_id"]), DeleteAuthUser(Render(body["user_id"])),
               DeleteUserRow(body["user_id"])])
  }

  /** `handleToggleAI`: upsert `is_enabled` on the artist's config. */
  function HandleToggleAi(body: map<string, Json>, o: Oracle): (r: Outcome)
    ensures |r.effects| == (if Truthy(body, "artist_id") then 1 else 0)
    ensures r.response.Done? <==> Truthy(body, "artist_id") && o.upsertError.None?
  {
    if !Truthy(body, "artist_id") then Fail(400, "artist_id required")
    else
      var enabled := if "enabled" in body then Some(body["enabled"]) else None;
      var write := UpsertAiEnabled(body["artist_id"], enabled);
      if o.upsertError.Some? then
        Outcome(ErrorReply(500, "Failed to toggle AI: " + o.upsertError.value), [write])
      else
        Outcome(Done(if Truthy(body, "enabled") then "AI attivata" else "AI disattivata"), [write])
  }

  /** `a.ai_agent_configs?.[0]?.is_enabled ?? false`. */
  function AiEnabled(configs: seq<ConfigRel>): (r: bool)
    ensures r <==> |configs| > 0 && configs[0].isEnabled == Some(true)
  {
    if |configs| > 0 && configs[0].isEnabled.Some? then configs[0].isEnabled.value else false
  }

  /** One row of the list, flattened: every column and the `users`
      relation pass through, the config relation becomes `ai_enabled`. */
  function Flatten(row: ListRow): (r: ListedArtist)
    ensures r.aiEnabled == AiEnabled(row.configs)
    ensures r.id == row.id && r.name == row.name && r.createdAt == row.createdAt
            && r.isActive == row.isActive && r.userId == row.userId
    ensures r.columns == row.columns && r.user == row.user
  {
    ListedArtist(row.id, row.name, row.createdAt, row.isActive, row.userId, row.columns, row.user,
                 AiEnabled(row.configs))
  }

  function FlattenAll(rows: seq<ListRow>): (r: seq<ListedArtist>)
    ensures |r| == |rows|
    ensures forall i :: 0 <= i < |rows| ==> r[i] == Flatten(rows[i])
  {
    if |rows| == 0 then [] else [Flatten(rows[0])] + FlattenAll(rows[1..])
  }

  function NewestFirst(r: ListRow): int { -r.createdAt }

  /** `handleList`: every artist, newest first, flattened. */
  function HandleList(o: Oracle): (r: Outcome)
    ensures r.effects == []
    ensures r.response.Listed? <==> o.listRows.Some?
    ensures r.response.Listed? ==> |r.response.artists| == |o.listRows.value|
  {
    if o.listRows.None? then Fail(500, "Failed to list artists")
    else Outcome(Listed(FlattenAll(SortBy(o.listRows.value, NewestFirst))), [])
  }

  // ------------------------------------------------------------ properties

  /** A staff role is exactly admin or manager. */
  predicate StaffCaller(o: Oracle) {
    o.callerId.Some? && o.callerRole.Some? && (o.callerRole.value == "admin" || o.callerRole.value == "manager")
  }

  /** The gate: a signed-in caller who is not staff gets 403 and nothing is
      written, whatever the body asks for. */
  lemma StaffGate(req: Request, o: Oracle)
    requires req.verb != "OPTIONS" && req.authHeader.Some? && req.authHeader.value != ""
    requires o.callerId.Some?
    ensures !StaffCaller(o) ==> Handle(req, o) == Outcome(ErrorReply(403, "Staff access required"), [])
    ensures StaffCaller(o) && req.body.Some? ==> Handle(req, o) == Dispatch(req.body.value, o)
  {
  }

  /** Authentication comes first: a preflight is answered at once, a missing
      header or unresolvable token gets 401, and only a staff caller's
      request can write anything. */
  lemma AuthenticationGates(req: Request, o: Oracle)
    ensures req.verb == "OPTIONS" ==> Handle(req, o) == Outcome(Preflight, [])
    ensures req.verb != "OPTIONS" && (req.authHeader.None? || req.authHeader.value == "") ==>
      Handle(req, o) == Outcome(ErrorReply(401, "Missing authorization"), [])
    ensures req.verb != "OPTIONS" && req.authHeader.Some? && req.authHeader.value != "" && o.callerId.None? ==>
      Handle(req, o) == Outcome(ErrorReply(401, "Invalid token"), [])
    ensures Handle(req, o).effects != [] ==> req.verb != "OPTIONS" && StaffCaller(o) && req.body.Some?
  {
  }

  /** An action outside the six answers 400 with no writes. */
  lemma UnknownActionRefused(body: map<string, Json>, o: Oracle)
    requires ActionOf(body).None? || ActionOf(body).value !in Actions
    ensures Dispatch(body, o) == Outcome(ErrorReply(400, "Invalid action"), [])
  {
  }

  /** Create refuses with 400, writing nothing, exactly when a required
      member is falsy or the password string is shorter than 6. */
  lemma CreateValidation(body: map<string, Json>, o: Oracle)
    ensures var r := HandleCreate(body, o);
      (r.response.ErrorReply? && r.response.status == 400)
      <==> (!Truthy(body, "email") || !Truthy(body, "password") || !Truthy(body, "display_name")
            || !Truthy(body, "artist_name") || !Truthy(body, "color") || TooShort(body, "password"))
    ensures HandleCreate(body, o).response.ErrorReply? && HandleCreate(body, o).response.status == 400
            ==> HandleCreate(body, o).effects == []
  {
  }

  /** A body that passes the create checks. */
  predicate CreateAccepted(body: map<string, Json>) {
    Truthy(body, "email") && Truthy(body, "password") && Truthy(body, "display_name")
    && Truthy(body, "artist_name") && Truthy(body, "color") && !TooShort(body, "password")
  }

  /** Create's outcomes after the checks: 409 for an already registered
      email, and a rollback that deletes the new auth user when either
      profile insert fails. A query builder without `.catch` also rolls
      back, after the `artists` row is written, which is left behind with
      no auth user and no AI config. On success the writes are the auth user, a
      `users` row with role `artist`, an active `artists` row and the
      default AI config (enabled, `deepseek-chat`, 1000 tokens, 20 a day). */
  lemma CreateOutcomes(body: map<string, Json>, o: Oracle)
    requires CreateAccepted(body)
    ensures var r := HandleCreate(body, o);
      (o.createUser.AuthRefused? && o.createUser.message.Some?
       && Contains(o.createUser.message.value, "already been registered")
       ==> r.response == ErrorReply(409, "Email già registrata") && |r.effects| == 1)
      && (o.createUser.AuthCreated? && (!o.userInsertOk || o.artistInsert.None? || !o.builderCatch) ==>
            r.response == ErrorReply(500, "Failed to create artist profile")
            && r.effects[|r.effects| - 1] == DeleteAuthUser(o.createUser.userId))
      && (o.createUser.AuthCreated? && o.userInsertOk && o.artistInsert.Some? && !o.builderCatch ==>
            r.effects == [CreateAuthUser(body["email"], body["password"]),
                          InsertUser(o.createUser.userId, body["email"], body["display_name"], "artist"),
                          InsertArtist(o.createUser.userId, body["artist_name"], body["color"],
                                       ProfileOf(body), true),
                          DeleteAuthUser(o.createUser.userId)])
      && (o.createUser.AuthCreated? && o.userInsertOk && o.artistInsert.Some? && o.builderCatch ==>
            r.response.Created?
            && r.effects == [CreateAuthUser(body["email"], body["password"]),
                             InsertUser(o.createUser.userId, body["email"], body["display_name"], "artist"),
                             InsertArtist(o.createUser.userId, body["artist_name"], body["color"],
                                          ProfileOf(body), true),
                             InsertDefaultConfig(o.artistInsert.value, true, "deepseek-chat", 1000, 20)])
  {
  }

  /** Update writes exactly the members present among the eight, each under
      its column (`artist_name` becomes `name`), and never the routing
      members; it needs a truthy `artist_id`. */
  lemma UpdateProjection(body: map<string, Json>, o: Oracle)
    ensures (HandleUpdate(body, o).response.ErrorReply?
             && HandleUpdate(body, o).response.status == 400) <==> !Truthy(body, "artist_id")
    ensures var f := UpdateFields(body);
      (forall k :: k in UpdateKeys ==> (Column(k) in f <==> k in body))
      && (forall k :: k in UpdateKeys && k in body ==> f[Column(k)] == body[k])
      && "artist_name" !in f && "action" !in f && "artist_id" !in f && "user_id" !in f
  {
    forall k | k in UpdateKeys ensures Column(k) in UpdateColumns && MemberOf(Column(k)) == k {
    }
  }

  /** Reset-password needs both members truthy and a new password string of
      at least 6 characters; delete needs both ids truthy. */
  lemma ResetAndDeleteChecks(body: map<string, Json>, o: Oracle)
    ensures (HandleResetPassword(body, o).response.ErrorReply?
             && HandleResetPassword(body, o).response.status == 400)
            <==> (!Truthy(body, "user_id") || !Truthy(body, "new_password") || TooShort(body, "new_password"))
    ensures HandleDelete(body).response.ErrorReply?
            <==> (!Truthy(body, "artist_id") || !Truthy(body, "user_id"))
    ensures HandleDelete(body).response.Done? ==> |HandleDelete(body).effects| == 3
  {
  }

  /** Toggle needs a truthy `artist_id`; otherwise it issues exactly one
      upsert of the body's `enabled` member (absent when missing), reports
      the database's error, and names the new state by `enabled`'s
      truthiness. */
  lemma ToggleAiOutcomes(body: map<string, Json>, o: Oracle)
    ensures !Truthy(body, "artist_id") <==>
      HandleToggleAi(body, o) == Outcome(ErrorReply(400, "artist_id required"), [])
    ensures Truthy(body, "artist_id") ==>
      var r := HandleToggleAi(body, o);
      r.effects == [UpsertAiEnabled(body["artist_id"], if "enabled" in body then Some(body["enabled"]) else None)]
      && (r.response.Done? <==> o.upsertError.None?)
      && (r.response.Done? ==> (r.response.message == "AI attivata" <==> Truthy(body, "enabled")))
      && (o.upsertError.Some? ==> r.response == ErrorReply(500, "Failed to toggle AI: " + o.upsertError.value))
  {
  }

  /** The list: one entry per row, newest first, with `ai_enabled` taken from
      the first related config and false when there is none, and every other
      column and the `users` relation carried over unchanged. */
  lemma ListFlattening(o: Oracle)
    requires o.listRows.Some?
    ensures var r := HandleList(o).response;
      r.Listed? && |r.artists| == |o.listRows.value|
      && (forall i, j :: 0 <= i < j < |r.artists| ==> r.artists[i].createdAt >= r.artists[j].createdAt)
      && (forall i :: 0 <= i < |r.artists| ==>
            r.artists[i].aiEnabled == AiEnabled(SortBy(o.listRows.value, NewestFirst)[i].configs)
            && r.artists[i].columns == SortBy(o.listRows.value, NewestFirst)[i].columns
            && r.artists[i].user == SortBy(o.listRows.value, NewestFirst)[i].user)
  {
    var sorted := SortBy(o.listRows.value, NewestFirst);
    assert forall i, j :: 0 <= i < j < |sorted| ==> NewestFirst(sorted[i]) <= NewestFirst(sorted[j]);
  }
}

=== FILE: ai_chat.dfy ===
/**
 * The `ai-chat` edge function as a pure function of the request, the stored
 * rows it reads, and an oracle for what it cannot see: the clock, the id
 * the database gives a new session, the completion provider's answer and
 * the fate of the usage RPC. It yields the response, the writes it issues
 * (in order) and the request it sends to the provider, if any.
 *
 * Instants are milliseconds since the Unix epoch; the UTC day of instant
 * `t` is `DayOf(t)` (Dafny's division floors for a positive divisor, as
 * the date part of `toISOString` does).
 */
module AiChat {
  import opened Wrappers
  import opened Strings
  import opened Models
  import opened Seqs
  import opened Validation

  /** The UTC day number of an instant: the date part of `toISOString()`. */
  function DayOf(t: int): int { t / 86_400_000 }

  /** The instant `dayT00:00:00Z`. */
  function DayStart(day: int): int { day * 86_400_000 }

  /** Offset of `T23:59:59Z`, the exclusive upper bound of the session window. */
  const WindowEndMs: int := 86_399_000

  const DefaultDailyLimit: int := 20
  const DefaultModel: string := "deepseek-chat"
  const DefaultMaxTokens: int := 1000
  const HistoryLimit: nat := 40
  const MaxMessageLength: nat := 2000
  const FallbackReply: string := "Mi dispiace, non riesco a rispondere al momento."
  const NotesHeader: string := "\n\nContesto aggiuntivo sull'artista:\n"

  // ------------------------------------------------------------ stored rows

  /** A row of `ai_agent_configs` as the handler reads it. The `prompt_*`
      fragments edited by the staff pages are carried but never read. */
  datatype AgentConfig = AgentConfig(
    artistId: string,
    isEnabled: bool,
    dailyMessageLimit: Option<int>,
    systemPrompt: Option<string>,
    contextNotes: Option<string>,
    modelName: Option<string>,
    maxTokens: Option<int>,
    promptFragments: seq<Option<string>>)

  /** A row of `ai_daily_usage`. */
  datatype UsageRow = UsageRow(artistId: string, day: int, messagesUsed: int)

  /** A row of `ai_chat_sessions`. */
  datatype SessionRow = SessionRow(id: string, artistId: string, createdAt: int, contextDay: Option<int>)

  /** A row of `ai_chat_messages`. */
  datatype MessageRow = MessageRow(sessionId: string, role: ChatRole, content: string, createdAt: int)

  /** The tables the handler reads. */
  datatype Store = Store(
    artists: seq<Artist>,
    configs: seq<AgentConfig>,
    usage: seq<UsageRow>,
    sessions: seq<SessionRow>,
    messages: seq<MessageRow>)

  // ------------------------------------------------------------ request, oracle, result

  /** The parts of the environment the handler consults. */
  datatype Env = Env(providerKey: Option<string>)

  /** The JSON body; `message` is absent when the member is missing. */
  datatype Body = Body(message: Option<string>)

  /**
   * The request: HTTP method, `Authorization` header, the user id the token
   * resolves to (None when `getUser` fails), and the parsed body. The body
   * is None whenever reading the message throws: `req.json()` fails, the
   * body is JSON `null`, or `message` is present but not a string, so
   * `.trim()` throws. Each of these ends in the catch's 500.
   */
  datatype Request = Request(verb: string, authHeader: Option<string>, userId: Option<string>,
                             body: Option<Body>)

  /** What the provider call settles with: a rejection or unreadable JSON,
      a non-OK status, or an answer with its optional content and token count. */
  datatype ProviderOutcome = ProviderThrew | ProviderStatus(status: int)
                           | ProviderAnswer(content: Option<string>, totalTokens: Option<int>)

  /** The usage RPC: applied, settled with an error value (ignored), or
      rejected (the `.catch` fallback upserts). `NoCatch` is a query
      builder that is only a thenable: reading its `.catch` throws before
      the RPC is sent, and the handler's own `catch` answers. */
  datatype RpcOutcome = RpcApplied | RpcErrorValue | RpcRejected | NoCatch

  datatype Oracle = Oracle(
    now: int,
    newSessionId: Option<string>,
    provider: ProviderOutcome,
    responseTimeMs: int,
    usageRpc: RpcOutcome)

  /** One chat turn sent to the provider. */
  datatype Turn = Turn(role: ChatRole, content: string)

  /** The completion request (temperature and `stream: false` are not modelled). */
  datatype ProviderRequest = ProviderRequest(model: string, messages: seq<Turn>, maxTokens: int)

  /** The writes the handler issues, in order. */
  datatype Effect =
    | InsertSession(session: SessionRow)
    | InsertMessages(sessionId: string, userContent: string, assistantContent: string,
                     tokensUsed: Option<int>, modelUsed: string, responseTimeMs: int)
    | IncrementUsage(artistId: string, day: int)
    | UpsertUsage(row: UsageRow)
    | UpdateSession(id: string, messageCount: int, totalTokens: int, lastMessageAt: int)

  datatype Response =
    | Preflight
    | ErrorReply(status: int, error: string, code: string)
    | ChatReply(message: string, sessionId: string, usage: ResponseUsage,
                tokens: Option<int>, responseTimeMs: int, model: string)

  datatype Outcome = Outcome(response: Response, effects: seq<Effect>, sent: Option<ProviderRequest>)

  /** `errorResponse`: the code defaults to "UNKNOWN". */
  function Fail(status: int, error: string, code: Option<string>): (r: Outcome)
    ensures r.response.ErrorReply? && r.response.status == status
    ensures r.response.code == (if code.Some? then code.value else "UNKNOWN")
    ensures r.effects == [] && r.sent == None
  {
    Outcome(ErrorReply(status, error, code.GetOr("UNKNOWN")), [], None)
  }

  // ------------------------------------------------------------ lookups

  /** `.single()`: the row when exactly one matches, otherwise nothing. */
  function Single<T>(rows: seq<T>): (r: Option<T>)
    ensures r.Some? <==> |rows| == 1
    ensures r.Some? ==> r.value == rows[0]
  {
    if |rows| == 1 then Some(rows[0]) else None
  }

  /** The `.eq("user_id", ...)` filter of the artist query. */
  function OfUser(userId: string): Artist -> bool {
    (a: Artist) => a.userId == Some(userId)
  }

  /** The `.eq("artist_id", ...)` filter of the configuration query. */
  function ConfigOf(artistId: string): AgentConfig -> bool {
    (c: AgentConfig) => c.artistId == artistId
  }

  /** The two `.eq(...)` filters of the usage query. */
  function UsageOf(artistId: string, day: int): UsageRow -> bool {
    (u: UsageRow) => u.artistId == artistId && u.day == day
  }

  /** The artist profile of a user: found only when exactly one row has
      that `user_id`, and then it is that row. */
  function FindArtist(artists: seq<Artist>, userId: string): (r: Option<Artist>)
    ensures r.Some? <==> exists i :: OnlyMatch(artists, OfUser(userId), i)
    ensures r.Some? ==> r.value in artists && r.value.userId == Some(userId)
  {
    FilterOne(artists, OfUser(userId));
    Single(Filter(artists, OfUser(userId)))
  }

  /** The agent configuration of an artist, under the same rule. */
  function FindConfig(configs: seq<AgentConfig>, artistId: string): (r: Option<AgentConfig>)
    ensures r.Some? <==> exists i :: OnlyMatch(configs, ConfigOf(artistId), i)
    ensures r.Some? ==> r.value in configs && r.value.artistId == artistId
  {
    FilterOne(configs, ConfigOf(artistId));
    Single(Filter(configs, ConfigOf(artistId)))
  }

  /** `usage?.messages_used ?? 0` for the artist's row of the day: the count
      of the one matching row, and 0 when there is none or more than one. */
  function UsedToday(usage: seq<UsageRow>, artistId: string, day: int): (r: int)
    ensures forall i :: OnlyMatch(usage, UsageOf(artistId, day), i) ==> r == usage[i].messagesUsed
    ensures (forall i :: !OnlyMatch(usage, UsageOf(artistId, day), i)) ==> r == 0
  {
    FilterOne(usage, UsageOf(artistId, day));
    var row := Single(Filter(usage, UsageOf(artistId, day)));
    if row.Some? then row.value.messagesUsed else 0
  }

  /** The session window of a day: `[dayT00:00:00Z, dayT23:59:59Z)`. */
  predicate InWindow(t: int, day: int) {
    DayStart(day) <= t < DayStart(day) + WindowEndMs
  }

  /** The newest session of a sequence (the first of equally new ones). */
  function Latest(s: seq<SessionRow>): (r: Option<SessionRow>)
    ensures r.None? <==> |s| == 0
    ensures r.Some? ==> r.value in s
    ensures r.Some? ==> forall i :: 0 <= i < |s| ==> s[i].createdAt <= r.value.createdAt
  {
    if |s| == 0 then None
    else
      var rest := Latest(s[1..]);
      if rest.None? || rest.value.createdAt <= s[0].createdAt then Some(s[0]) else rest
  }

  /** The session query: the artist's newest session created in today's window. */
  function FindSession(sessions: seq<SessionRow>, artistId: string, day: int): (r: Option<SessionRow>)
    ensures r.Some? ==> r.value in sessions && r.value.artistId == artistId
                        && InWindow(r.value.createdAt, day)
    ensures r.Some? ==> forall i :: (0 <= i < |sessions| && sessions[i].artistId == artistId
                                     && InWindow(sessions[i].createdAt, day))
                                    ==> sessions[i].createdAt <= r.value.createdAt
    ensures r.None? <==> forall i :: 0 <= i < |sessions| ==>
                           !(sessions[i].artistId == artistId && InWindow(sessions[i].createdAt, day))
  {
    var p := (x: SessionRow) => x.artistId == artistId && InWindow(x.createdAt, day);
    var today := Filter(sessions, p);
    var r := Latest(today);
    assert r.None? ==> forall i :: 0 <= i < |sessions| ==> !p(sessions[i]);
    forall i | 0 <= i < |sessions| && p(sessions[i]) && r.Some?
      ensures sessions[i].createdAt <= r.value.createdAt
    {
      var j :| 0 <= j < |today| && today[j] == sessions[i];
    }
    r
  }

  function MessageTime(m: MessageRow): int { m.createdAt }

  /** The session's messages in ascending `created_at` order. */
  function SessionMessages(messages: seq<MessageRow>, sessionId: string): (r: seq<MessageRow>)
    ensures SortedBy(r, MessageTime)
    ensures forall m :: multiset(r)[m] == if m.sessionId == sessionId then multiset(messages)[m] else 0
  {
    var p := (m: MessageRow) => m.sessionId == sessionId;
    var r := SortBy(Filter(messages, p), MessageTime);
    forall m ensures multiset(r)[m] == if p(m) then multiset(messages)[m] else 0 {
      FilterCount(messages, p, m);
    }
    r
  }

  /** The history query: `order(created_at ascending).limit(40)`, which keeps
      the OLDEST forty messages of the session. */
  function History(messages: seq<MessageRow>, sessionId: string): (r: seq<MessageRow>)
    ensures var all := SessionMessages(messages, sessionId);
      |r| == (if |all| < HistoryLimit then |all| else HistoryLimit) && r == all[..|r|]
  {
    var all := SessionMessages(messages, sessionId);
    if |all| < HistoryLimit then all else all[..HistoryLimit]
  }

  /** Every message left out of the history is at least as new as every
      message in it. */
  lemma HistoryIsOldest(messages: seq<MessageRow>, sessionId: string, i: int, j: int)
    requires 0 <= i < |History(messages, sessionId)| <= j < |SessionMessages(messages, sessionId)|
    ensures History(messages, sessionId)[i].createdAt <= SessionMessages(messages, sessionId)[j].createdAt
  {
    var all := SessionMessages(messages, sessionId);
    assert History(messages, sessionId)[i] == all[i];
  }

  // ------------------------------------------------------------ the prompt

  /** The default system prompt, naming the artist. */
  function DefaultPrompt(artistName: string): string {
    PromptHead + artistName + PromptTail
  }

  const PromptHead: string := "Sei l'assistente AI personale di "

  const PromptTail: string :=
    ", un artista dell'etichetta 67 Entertainment.\n\nIl tuo ruolo:\n"
    + "- Fornire consulenza strategica sui social media\n"
    + "- Aiutare con idee per contenuti, caption, hashtags\n"
    + "- Consigliare sulle best practice per Instagram, TikTok, YouTube\n"
    + "- Supportare la pianificazione editoriale\n"
    + "- Rispondere in italiano, in modo amichevole e professionale\n\nRegole:\n"
    + "- Rispondi sempre in italiano\n"
    + "- Sii conciso ma utile\n"
    + "- Personalizza i consigli per l'artista\n"
    + "- Non inventare dati o statistiche\n"
    + "- Se non sai qualcosa, dillo onestamente"

  /** `buildSystemPrompt`: the configured prompt (or the default), followed
      by the context notes when they are non-empty. */
  function SystemPrompt(c: AgentConfig, artistName: string): (r: string)
    ensures var base := if c.systemPrompt.Some? then c.systemPrompt.value else DefaultPrompt(artistName);
      StartsWith(r, base)
      && (Truthy(c.contextNotes) <==> |r| > |base|)
      && (Truthy(c.contextNotes) ==> r[|base|..] == NotesHeader + c.contextNotes.value)
  {
    var base := c.systemPrompt.GetOr(DefaultPrompt(artistName));
    var context := if Truthy(c.contextNotes) then NotesHeader + c.contextNotes.value else "";
    assert (base + context)[..|base|] == base;
    base + context
  }

  /** Without a configured prompt the default names the artist; the
      `prompt_*` fragments have no influence. */
  lemma SystemPromptSources(c: AgentConfig, artistName: string, fragments: seq<Option<string>>)
    ensures c.systemPrompt.None? ==> Contains(SystemPrompt(c, artistName), artistName)
    ensures SystemPrompt(c.(promptFragments := fragments), artistName) == SystemPrompt(c, artistName)
  {
    if c.systemPrompt.None? {
      var r := SystemPrompt(c, artistName);
      assert r[|PromptHead|..|PromptHead| + |artistName|] == artistName;
      ContainsAt(r, artistName, |PromptHead|);
    }
  }

  /** The turns sent to the provider: system prompt, history, user message. */
  function Context(prompt: string, history: seq<MessageRow>, message: string): (r: seq<Turn>)
    ensures |r| == |history| + 2
    ensures r[0] == Turn(SystemRole, prompt) && r[|r| - 1] == Turn(UserSpeaker, message)
    ensures forall i :: 0 <= i < |history| ==> r[i + 1] == Turn(history[i].role, history[i].content)
  {
    [Turn(SystemRole, prompt)] + Turns(history) + [Turn(UserSpeaker, message)]
  }

  function Turns(history: seq<MessageRow>): (r: seq<Turn>)
    ensures |r| == |history|
    ensures forall i :: 0 <= i < |history| ==> r[i] == Turn(history[i].role, history[i].content)
  {
    if |history| == 0 then [] else [Turn(history[0].role, history[0].content)] + Turns(history[1..])
  }

  // ------------------------------------------------------------ the handler

  /** The trimmed message; a missing member reads as empty (both are falsy). */
  function TrimmedMessage(b: Body): string {
    if b.message.Some? then Trim(b.message.value) else ""
  }

  /** The request gets past authentication, the artist lookup and body parsing. */
  predicate Admitted(env: Env, req: Request, store: Store) {
    req.verb != "OPTIONS" && Truthy(req.authHeader) && Truthy(env.providerKey)
    && req.userId.Some? && FindArtist(store.artists, req.userId.value).Some?
    && req.body.Some?
  }

  /** The usage writes after a successful generation: the RPC, and the
      upsert fallback when its promise rejects; nothing when the builder
      has no `.catch`, since the RPC is then never sent. */
  function UsageWrites(artistId: string, day: int, used: int, rpc: RpcOutcome): (r: seq<Effect>)
    ensures r == [] <==> rpc == NoCatch
    ensures rpc != NoCatch ==> r[0] == IncrementUsage(artistId, day)
    ensures |r| == 2 <==> rpc == RpcRejected
    ensures |r| == 2 ==> r[1] == UpsertUsage(UsageRow(artistId, day, used + 1))
    ensures |r| <= 2
  {
    if rpc == NoCatch then []
    else
      [IncrementUsage(artistId, day)]
      + (if rpc == RpcRejected then [UpsertUsage(UsageRow(artistId, day, used + 1))] else [])
  }

  /** The request pipeline. Only OPTIONS gets the preflight answer, and no
      write, provider call or reply happens before every gate is passed. */
  function Handle(env: Env, req: Request, store: Store, o: Oracle): (r: Outcome)
    ensures r.response.Preflight? <==> req.verb == "OPTIONS"
    ensures r.effects != [] || r.sent.Some? || r.response.ChatReply? ==> ReachesSession(env, req, store, o)
  {
    if req.verb == "OPTIONS" then Outcome(Preflight, [], None)
    else if !Truthy(req.authHeader) then Fail(401, "Missing authorization header", None)
    else if !Truthy(env.providerKey) then Fail(500, "DEEPSEEK_API_KEY not configured", None)
    else if req.userId.None? then Fail(401, "Invalid token", None)
    else
      var artist := FindArtist(store.artists, req.userId.value);
      if artist.None? then Fail(403, "Artist profile not found", None)
      else if req.body.None? then Fail(500, "Internal error", None)
      else Chat(artist.value, TrimmedMessage(req.body.value), store, o)
  }

  /** From the message checks to the quota check: nothing is written, sent
      or answered before the message, the agent and the quota pass. */
  function Chat(artist: Artist, message: string, store: Store, o: Oracle): (r: Outcome)
    ensures !r.response.Preflight?
    ensures r.effects != [] || r.sent.Some? || r.response.ChatReply? ==>
      AiMessageAccepted(message)
      && FindConfig(store.configs, artist.id).Some? && FindConfig(store.configs, artist.id).value.isEnabled
      && UsedToday(store.usage, artist.id, DayOf(o.now))
         < FindConfig(store.configs, artist.id).value.dailyMessageLimit.GetOr(DefaultDailyLimit)
  {
    if message == "" then Fail(400, "Message is required", None)
    else if |message| > MaxMessageLength then Fail(400, "Message too long (max 2000 chars)", None)
    else
      var config := FindConfig(store.configs, artist.id);
      if config.None? || !config.value.isEnabled then
        Fail(403, "AI agent not enabled for this artist", Some("AI_AGENT_DISABLED"))
      else
        var today := DayOf(o.now);
        var used := UsedToday(store.usage, artist.id, today);
        var limit := config.value.dailyMessageLimit.GetOr(DefaultDailyLimit);
        if used >= limit then Fail(429, "Daily message limit reached", Some("AI_DAILY_LIMIT"))
        else Converse(artist, config.value, message, used, limit, store, o)
  }

  /** The session a request uses, and the insert that created it, if any. */
  datatype SessionPick = SessionPick(id: string, writes: seq<Effect>)

  /** Reuse today's newest session, or insert one dated today; None when
      the insert fails. */
  function PickSession(sessions: seq<SessionRow>, artistId: string, o: Oracle): (r: Option<SessionPick>)
    ensures var found := FindSession(sessions, artistId, DayOf(o.now));
      (found.Some? ==> r == Some(SessionPick(found.value.id, [])))
      && (found.None? ==> (r.Some? <==> o.newSessionId.Some?))
      && (found.None? && r.Some? ==>
            r.value == SessionPick(o.newSessionId.value,
                                   [InsertSession(SessionRow(o.newSessionId.value, artistId, o.now,
                                                             Some(DayOf(o.now))))]))
  {
    var today := DayOf(o.now);
    var found := FindSession(sessions, artistId, today);
    if found.Some? then Some(SessionPick(found.value.id, []))
    else if o.newSessionId.None? then None
    else Some(SessionPick(o.newSessionId.value,
                          [InsertSession(SessionRow(o.newSessionId.value, artistId, o.now, Some(today)))]))
  }

  /** The session step, then the provider step. */
  function Converse(artist: Artist, config: AgentConfig, message: string, used: int, limit: int,
                    store: Store, o: Oracle): (r: Outcome)
    ensures !r.response.Preflight?
    ensures r.response.ChatReply? || (r.response.ErrorReply? && r.response.status in {500, 502})
    ensures r.sent.None? ==> r.effects == [] && r.response == ErrorReply(500, "Failed to create session", "UNKNOWN")
    ensures r.response.ChatReply? ==> r.sent.Some? && |r.effects| > 0
    ensures r.response.ChatReply? ==> r.response.usage == ResponseUsage(used + 1, limit, limit - used - 1)
  {
    match PickSession(store.sessions, artist.id, o)
    case None => Fail(500, "Failed to create session", None)
    case Some(pick) =>
      Generate(artist, config, message, used, limit, pick.id, pick.writes,
               History(store.messages, pick.id), o)
  }

  /** The completion request for a session with the given history. */
  function CompletionRequest(artist: Artist, config: AgentConfig, message: string,
                             history: seq<MessageRow>): ProviderRequest
  {
    ProviderRequest(config.modelName.GetOr(DefaultModel),
                    Context(SystemPrompt(config, artist.name), history, message),
                    config.maxTokens.GetOr(DefaultMaxTokens))
  }

  /** The provider call and, on success, the writes and the answer. The
      writes of the session step, `created`, come first. */
  function Generate(artist: Artist, config: AgentConfig, message: string, used: int, limit: int,
                    sid: string, created: seq<Effect>, history: seq<MessageRow>, o: Oracle)
    : (r: Outcome)
    ensures r.sent == Some(CompletionRequest(artist, config, message, history))
    ensures |created| <= |r.effects| && r.effects[..|created|] == created
    ensures forall k :: |created| <= k < |r.effects| ==> !r.effects[k].InsertSession?
    ensures !o.provider.ProviderAnswer? ==> r.effects == created && !r.response.ChatReply?
    ensures o.provider.ProviderStatus? ==> r.response == ErrorReply(502, "AI service error", "AI_SERVICE_ERROR")
    ensures o.provider.ProviderThrew? ==> r.response == ErrorReply(500, "Internal error", "UNKNOWN")
    ensures o.provider.ProviderAnswer? && o.usageRpc == NoCatch ==>
      && r.response == ErrorReply(500, "Internal error", "UNKNOWN")
      && r.effects == created
         + [InsertMessages(sid, message, o.provider.content.GetOr(FallbackReply), o.provider.totalTokens,
                           config.modelName.GetOr(DefaultModel), o.responseTimeMs)]
    ensures o.provider.ProviderAnswer? && o.usageRpc != NoCatch ==>
      && r.response.ChatReply?
      && r.response.sessionId == sid
      && r.response.message == o.provider.content.GetOr(FallbackReply)
      && r.response.usage == ResponseUsage(used + 1, limit, limit - used - 1)
      && r.effects == created
         + [InsertMessages(sid, message, r.response.message, o.provider.totalTokens,
                           config.modelName.GetOr(DefaultModel), o.responseTimeMs)]
         + UsageWrites(artist.id, DayOf(o.now), used, o.usageRpc)
         + [UpdateSession(sid, |history| + 2, o.provider.totalTokens.GetOr(0), o.now)]
  {
    var request := CompletionRequest(artist, config, message, history);
    var model := config.modelName.GetOr(DefaultModel);
    match o.provider
    case ProviderThrew =>
      Outcome(ErrorReply(500, "Internal error", "UNKNOWN"), created, Some(request))
    case ProviderStatus(_) =>
      Outcome(ErrorReply(502, "AI service error", "AI_SERVICE_ERROR"), created, Some(request))
    case ProviderAnswer(content, tokens) =>
      var reply := content.GetOr(FallbackReply);
      var stored := InsertMessages(sid, message, reply, tokens, model, o.responseTimeMs);
      if o.usageRpc == NoCatch then
        AppendedWrites(created, [stored], [], []);
        Outcome(ErrorReply(500, "Internal error", "UNKNOWN"), created + [stored], Some(request))
      else
        var usageWrites := UsageWrites(artist.id, DayOf(o.now), used, o.usageRpc);
        var update := UpdateSession(sid, |history| + 2, tokens.GetOr(0), o.now);
        var usage := ResponseUsage(used + 1, limit, limit - used - 1);
        AppendedWrites(created, [stored], usageWrites, [update]);
        Outcome(ChatReply(reply, sid, usage, tokens, o.responseTimeMs, model),
                created + [stored] + usageWrites + [update], Some(request))
  }

  /** Writes appended after `created` keep it as a prefix and, when none of
      them is a session insert, add no session insert. */
  lemma AppendedWrites(created: seq<Effect>, a: seq<Effect>, b: seq<Effect>, c: seq<Effect>)
    requires forall k :: 0 <= k < |a| ==> !a[k].InsertSession?
    requires forall k :: 0 <= k < |b| ==> !b[k].InsertSession?
    requires forall k :: 0 <= k < |c| ==> !c[k].InsertSession?
    ensures var w := created + a + b + c;
      |created| <= |w| && w[..|created|] == created
      && forall k :: |created| <= k < |w| ==> !w[k].InsertSession?
  {
    var w := created + a + b + c;
    assert w[..|created|] == created;
    forall k | |created| <= k < |w| ensures !w[k].InsertSession? {
      if k < |created| + |a| {
        assert w[k] == a[k - |created|];
      } else if k < |created| + |a| + |b| {
        assert w[k] == b[k - |created| - |a|];
      } else {
        assert w[k] == c[k - |created| - |a| - |b|];
      }
    }
  }

  // ------------------------------------------------------------ properties

  /** The statuses `Converse` can answer with. */
  lemma ConverseStatuses(artist: Artist, config: AgentConfig, message: string, used: int, limit: int,
                         store: Store, o: Oracle)
    ensures var r := Converse(artist, config, message, used, limit, store, o).response;
      r.ChatReply? || (r.ErrorReply? && r.status in {500, 502})
  {
  }

  /** The message is trimmed first, then held to the AI message schema: a 400
      answer happens exactly when the trimmed message is empty or longer
      than 2000 characters, and then nothing is written or sent. */
  lemma MessageChecks(env: Env, req: Request, store: Store, o: Oracle)
    requires Admitted(env, req, store)
    ensures var r := Handle(env, req, store, o);
      (r.response.ErrorReply? && r.response.status == 400)
      <==> !AiMessageAccepted(TrimmedMessage(req.body.value))
    ensures !AiMessageAccepted(TrimmedMessage(req.body.value)) ==>
      Handle(env, req, store, o).effects == [] && Handle(env, req, store, o).sent == None
  {
    var artist := FindArtist(store.artists, req.userId.value).value;
    var m := TrimmedMessage(req.body.value);
    assert Handle(env, req, store, o) == Chat(artist, m, store, o);
    if m != "" && |m| <= MaxMessageLength {
      var config := FindConfig(store.configs, artist.id);
      if config.Some? && config.value.isEnabled {
        var today := DayOf(o.now);
        var used := UsedToday(store.usage, artist.id, today);
        var limit := config.value.dailyMessageLimit.GetOr(DefaultDailyLimit);
        if used < limit {
          assert Chat(artist, m, store, o) == Converse(artist, config.value, m, used, limit, store, o);
          ConverseStatuses(artist, config.value, m, used, limit, store, o);
        }
      }
    }
  }

  /** A missing or disabled config answers 403 AI_AGENT_DISABLED before the
      usage read, any session, message or usage write, and the provider. */
  lemma DisabledAgentGate(env: Env, req: Request, store: Store, o: Oracle)
    requires Admitted(env, req, store)
    requires AiMessageAccepted(TrimmedMessage(req.body.value))
    requires var a := FindArtist(store.artists, req.userId.value).value;
      FindConfig(store.configs, a.id).None? || !FindConfig(store.configs, a.id).value.isEnabled
    ensures Handle(env, req, store, o)
         == Outcome(ErrorReply(403, "AI agent not enabled for this artist", "AI_AGENT_DISABLED"), [], None)
  {
    var artist := FindArtist(store.artists, req.userId.value).value;
    assert Handle(env, req, store, o) == Chat(artist, TrimmedMessage(req.body.value), store, o);
  }

  /** The daily quota: usage defaults to 0 and the limit to 20; once the
      usage reaches the limit the answer is 429 with no writes. */
  lemma QuotaGate(env: Env, req: Request, store: Store, o: Oracle)
    requires Admitted(env, req, store)
    requires AiMessageAccepted(TrimmedMessage(req.body.value))
    requires var a := FindArtist(store.artists, req.userId.value).value;
      var c := FindConfig(store.configs, a.id);
      c.Some? && c.value.isEnabled
      && UsedToday(store.usage, a.id, DayOf(o.now)) >= c.value.dailyMessageLimit.GetOr(20)
    ensures Handle(env, req, store, o)
         == Outcome(ErrorReply(429, "Daily message limit reached", "AI_DAILY_LIMIT"), [], None)
  {
    var artist := FindArtist(store.artists, req.userId.value).value;
    assert Handle(env, req, store, o) == Chat(artist, TrimmedMessage(req.body.value), store, o);
  }

  /** With no usage row for the day, the count is 0. */
  lemma NoUsageRowCountsZero(usage: seq<UsageRow>, artistId: string, day: int)
    requires forall i :: 0 <= i < |usage| ==> !(usage[i].artistId == artistId && usage[i].day == day)
    ensures UsedToday(usage, artistId, day) == 0
  {
  }

  /** Before the message is read, a request that fails admission gets the
      preflight answer or an error, and the handler writes nothing and calls
      no provider; the first failing check decides the status. */
  lemma AdmissionGates(env: Env, req: Request, store: Store, o: Oracle)
    ensures !Admitted(env, req, store) ==>
      Handle(env, req, store, o).effects == [] && Handle(env, req, store, o).sent == None
      && (Handle(env, req, store, o).response.Preflight?
          || (Handle(env, req, store, o).response.ErrorReply?
              && Handle(env, req, store, o).response.status in {401, 403, 500}))
    ensures var r := Handle(env, req, store, o).response;
      (req.verb == "OPTIONS" ==> r.Preflight?)
      && (req.verb != "OPTIONS" && !Truthy(req.authHeader) ==> r == ErrorReply(401, "Missing authorization header", "UNKNOWN"))
      && (req.verb != "OPTIONS" && Truthy(req.authHeader) && !Truthy(env.providerKey) ==>
            r == ErrorReply(500, "DEEPSEEK_API_KEY not configured", "UNKNOWN"))
      && (req.verb != "OPTIONS" && Truthy(req.authHeader) && Truthy(env.providerKey) && req.userId.None? ==>
            r == ErrorReply(401, "Invalid token", "UNKNOWN"))
      && (req.verb != "OPTIONS" && Truthy(req.authHeader) && Truthy(env.providerKey) && req.userId.Some?
          && FindArtist(store.artists, req.userId.value).None? ==>
            r == ErrorReply(403, "Artist profile not found", "UNKNOWN"))
  {
  }

  /** The request reaches the session step: admitted, a valid message, an
      enabled agent, and quota left. */
  predicate ReachesSession(env: Env, req: Request, store: Store, o: Oracle) {
    Admitted(env, req, store) && AiMessageAccepted(TrimmedMessage(req.body.value))
    && var a := FindArtist(store.artists, req.userId.value).value;
    var c := FindConfig(store.configs, a.id);
    c.Some? && c.value.isEnabled
    && UsedToday(store.usage, a.id, DayOf(o.now)) < c.value.dailyMessageLimit.GetOr(DefaultDailyLimit)
  }

  /** Past the gates, the handler is `Converse` on the caller's artist and config. */
  lemma ReachesConverse(env: Env, req: Request, store: Store, o: Oracle)
    requires ReachesSession(env, req, store, o)
    ensures var a := FindArtist(store.artists, req.userId.value).value;
      var c := FindConfig(store.configs, a.id).value;
      Handle(env, req, store, o)
      == Converse(a, c, TrimmedMessage(req.body.value), UsedToday(store.usage, a.id, DayOf(o.now)),
                  c.dailyMessageLimit.GetOr(DefaultDailyLimit), store, o)
  {
    var a := FindArtist(store.artists, req.userId.value).value;
    assert Handle(env, req, store, o) == Chat(a, TrimmedMessage(req.body.value), store, o);
  }

  /** Session reuse: an existing session of today's window is reused with no
      insert; otherwise one session is inserted first, dated today, and a
      failed insert answers 500 with no other write. */
  lemma SessionChoice(a: Artist, c: AgentConfig, m: string, used: int, limit: int, store: Store, o: Oracle)
    ensures var pick := PickSession(store.sessions, a.id, o);
      var r := Converse(a, c, m, used, limit, store, o);
      (pick.None? ==> r == Outcome(ErrorReply(500, "Failed to create session", "UNKNOWN"), [], None))
      && (pick.Some? ==> r.effects[..|pick.value.writes|] == pick.value.writes
                         && (forall k :: |pick.value.writes| <= k < |r.effects| ==> !r.effects[k].InsertSession?)
                         && (r.response.ChatReply? ==> r.response.sessionId == pick.value.id))
  {
    var pick := PickSession(store.sessions, a.id, o);
    if pick.Some? {
      var r := Generate(a, c, m, used, limit, pick.value.id, pick.value.writes,
                        History(store.messages, pick.value.id), o);
      assert Converse(a, c, m, used, limit, store, o) == r;
    }
  }

  /** What reaches the provider: the system prompt, at most forty stored
      messages of the session in ascending order, and the message. */
  lemma ProviderContext(a: Artist, c: AgentConfig, m: string, used: int, limit: int, store: Store, o: Oracle)
    requires PickSession(store.sessions, a.id, o).Some?
    ensures Converse(a, c, m, used, limit, store, o).sent.Some?
    ensures var msgs := Converse(a, c, m, used, limit, store, o).sent.value.messages;
      2 <= |msgs| <= HistoryLimit + 2
      && msgs[0] == Turn(SystemRole, SystemPrompt(c, a.name))
      && msgs[|msgs| - 1] == Turn(UserSpeaker, m)
  {
  }

  /** A failed generation consumes no quota and stores no message: the only
      write it can leave behind is the session insert. */
  lemma ProviderFailureWritesNothing(a: Artist, c: AgentConfig, m: string, used: int, limit: int,
                                     store: Store, o: Oracle)
    requires !o.provider.ProviderAnswer?
    ensures var r := Converse(a, c, m, used, limit, store, o);
      !r.response.ChatReply?
      && (forall k :: 0 <= k < |r.effects| ==> r.effects[k].InsertSession?)
      && (o.provider.ProviderStatus? && r.sent.Some? ==>
            r.response == ErrorReply(502, "AI service error", "AI_SERVICE_ERROR"))
  {
    var pick := PickSession(store.sessions, a.id, o);
    if pick.Some? {
      var r := Generate(a, c, m, used, limit, pick.value.id, pick.value.writes,
                        History(store.messages, pick.value.id), o);
      assert Converse(a, c, m, used, limit, store, o) == r;
      assert r.effects == pick.value.writes;
    }
  }

  /** A successful generation writes, after the session insert if any:
      the user and the assistant message (one insert), the usage increment
      (and the fallback upsert of usage + 1 when the RPC rejects), and the
      session update with the new message count and this call's tokens,
      which overwrite the previous total. A query builder without `.catch`
      is the one way an answered generation does not reach the reply. */
  lemma SuccessWrites(a: Artist, c: AgentConfig, m: string, used: int, limit: int, store: Store, o: Oracle)
    ensures var r := Converse(a, c, m, used, limit, store, o);
      var pick := PickSession(store.sessions, a.id, o);
      r.response.ChatReply? <==> o.provider.ProviderAnswer? && pick.Some? && o.usageRpc != NoCatch
    ensures var r := Converse(a, c, m, used, limit, store, o);
      var pick := PickSession(store.sessions, a.id, o);
      r.response.ChatReply? ==>
      r.effects
         == pick.value.writes
            + [InsertMessages(pick.value.id, m, r.response.message, o.provider.totalTokens,
                              c.modelName.GetOr(DefaultModel), o.responseTimeMs)]
            + UsageWrites(a.id, DayOf(o.now), used, o.usageRpc)
            + [UpdateSession(pick.value.id, |History(store.messages, pick.value.id)| + 2,
                             o.provider.totalTokens.GetOr(0), o.now)]
  {
  }

  /** When the query builder has no `.catch`, an answered generation still
      stores the message pair, then throws: the caller gets 500 "Internal
      error", no usage is counted and the session is not updated. */
  lemma MissingCatchAfterInsert(a: Artist, c: AgentConfig, m: string, used: int, limit: int,
                                store: Store, o: Oracle)
    requires o.provider.ProviderAnswer? && o.usageRpc == NoCatch
    ensures var r := Converse(a, c, m, used, limit, store, o);
      var pick := PickSession(store.sessions, a.id, o);
      pick.Some? ==>
        r.response == ErrorReply(500, "Internal error", "UNKNOWN")
        && r.effects == pick.value.writes
           + [InsertMessages(pick.value.id, m, o.provider.content.GetOr(FallbackReply),
                             o.provider.totalTokens, c.modelName.GetOr(DefaultModel), o.responseTimeMs)]
        && forall k :: 0 <= k < |r.effects| ==> !r.effects[k].IncrementUsage? && !r.effects[k].UpdateSession?
  {
    var pick := PickSession(store.sessions, a.id, o);
    if pick.Some? {
      var w := pick.value.writes;
      var r := Generate(a, c, m, used, limit, pick.value.id, w, History(store.messages, pick.value.id), o);
      assert Converse(a, c, m, used, limit, store, o) == r;
      assert forall k :: 0 <= k < |w| ==> w[k].InsertSession?;
      forall k | 0 <= k < |r.effects| ensures !r.effects[k].IncrementUsage? && !r.effects[k].UpdateSession? {
        if k < |w| {
          assert r.effects[k] == w[k];
        } else {
          assert r.effects[k].InsertMessages?;
        }
      }
    }
  }

  /** The usage snapshot of a successful answer: one more message used, and
      used plus remaining is the limit, with remaining never negative. */
  lemma UsageSnapshot(env: Env, req: Request, store: Store, o: Oracle)
    requires ReachesSession(env, req, store, o)
    ensures Handle(env, req, store, o).response.ChatReply? ==>
      var u := Handle(env, req, store, o).response.usage;
      u.usedToday + u.remaining == u.dailyLimit && u.remaining >= 0
  {
    ReachesConverse(env, req, store, o);
    var a := FindArtist(store.artists, req.userId.value).value;
    var c := FindConfig(store.configs, a.id).value;
    var used := UsedToday(store.usage, a.id, DayOf(o.now));
    var limit := c.dailyMessageLimit.GetOr(DefaultDailyLimit);
    var r := Converse(a, c, TrimmedMessage(req.body.value), used, limit, store, o);
    assert Handle(env, req, store, o) == r;
    assert used < limit;
  }

  /** A session created inside the window is found by any later request of
      the same day. */
  lemma CreatedSessionFound(sessions: seq<SessionRow>, s: SessionRow, now: int)
    requires s.createdAt <= now && DayOf(s.createdAt) == DayOf(now)
    requires (s.createdAt - DayStart(DayOf(s.createdAt))) < WindowEndMs
    ensures FindSession(sessions + [s], s.artistId, DayOf(now)).Some?
  {
    var all := sessions + [s];
    assert all[|sessions|] == s;
  }

  /** The window ends at 23:59:59 exclusive: a session created during the
      last second of a UTC day is invisible to every later request of that
      day, so each such request starts another session. */
  lemma LastSecondSessionMissed(s: SessionRow, now: int)
    requires DayOf(s.createdAt) == DayOf(now)
    requires (s.createdAt - DayStart(DayOf(s.createdAt))) >= WindowEndMs
    ensures FindSession([s], s.artistId, DayOf(now)).None?
  {
  }
}

=== FILE: api.dfy ===
/**
 * The client's data layer: every call yields an `ApiResult`, never an
 * exception. What the database, the RPCs and the edge function answer is an
 * input; the model states what the client makes of each answer.
 */
module Api {
  import opened Wrappers
  import opened Enums
  import opened Errors
  import opened Models
  import opened Seqs

  /** `ApiResult<T>`: a value, or an application error. */
  datatype ApiResult<T> = Ok(data: T) | Err(error: AppError)

  /** What the query builder settles with: a `{data, error}` reply, or a rejection. */
  datatype Reply<T> = Replied(data: Option<T>, error: Option<Raised>) | Threw(thrown: Raised)

  /** The error `query` reports for a reply without error and without data. */
  const NoDataError: AppError := AppError(NotFound, "No data returned", None, None)

  /**
   * `query`: an error (reported or thrown) goes through the classifier, a
   * reply with neither error nor data is NOT_FOUND, anything else is the data.
   * `offline` is the browser's offline flag the classifier consults.
   */
  function Query<T>(reply: Reply<T>, offline: bool): (r: ApiResult<T>)
    ensures r.Ok? <==> reply.Replied? && reply.error.None? && reply.data.Some?
    ensures r.Ok? ==> r.data == reply.data.value
    ensures reply.Replied? && reply.error.Some? ==>
      r == Err(MapSupabaseError(reply.error.value, offline))
    ensures reply.Replied? && reply.error.None? && reply.data.None? ==> r == Err(NoDataError)
    ensures reply.Threw? ==> r == Err(MapSupabaseError(reply.thrown, offline))
  {
    match reply
    case Threw(e) => Err(MapSupabaseError(e, offline))
    case Replied(data, error) =>
      if error.Some? then Err(MapSupabaseError(error.value, offline))
      else if data.None? then Err(NoDataError)
      else Ok(data.value)
  }

  /** A failure of `query` is always an application error the classifier
      could have produced, or NOT_FOUND for missing data: an `AppError`
      raised below passes through untouched. */
  lemma QueryPassesAppErrors<T>(err: AppError, offline: bool)
    ensures Query<T>(Replied(None, Some(Known(err))), offline) == Err(err)
    ensures Query<T>(Threw(Known(err)), offline) == Err(err)
  {
  }

  // ------------------------------------------------------------ artists

  predicate NotLabel(a: Artist) { !a.isLabel }

  function ArtistName(a: Artist): string { a.name }

  /**
   * `artists.getAll`: the rows of `artists` with `is_label = false`, ordered
   * by name. `failure` is the error the database reports, if any.
   */
  function GetAllArtists(table: seq<Artist>, failure: Option<Raised>, offline: bool)
    : (r: ApiResult<seq<Artist>>)
    ensures r.Ok? <==> failure.None?
    ensures failure.Some? ==> r == Err(MapSupabaseError(failure.value, offline))
    ensures r.Ok? ==> SortedByText(r.data, ArtistName)
    ensures r.Ok? ==> forall a :: multiset(r.data)[a] == if a.isLabel then 0 else multiset(table)[a]
  {
    var rows := SortByText(Filter(table, NotLabel), ArtistName);
    forall a ensures multiset(rows)[a] == if a.isLabel then 0 else multiset(table)[a] {
      FilterCount(table, NotLabel, a);
    }
    Query(if failure.Some? then Replied(None, failure) else Replied(Some(rows), None), offline)
  }

  /** The label pseudo-artist never reaches the artist pickers. */
  lemma LabelNeverListed(table: seq<Artist>, offline: bool, i: nat)
    requires GetAllArtists(table, None, offline).Ok?
    requires i < |GetAllArtists(table, None, offline).data|
    ensures !GetAllArtists(table, None, offline).data[i].isLabel
  {
    var rows := GetAllArtists(table, None, offline).data;
    var a := rows[i];
    assert multiset(rows)[a] > 0;
  }

  // ------------------------------------------------------------ calendar

  /**
   * The rows `calendar.getEvents` asks for: scheduled within the month range
   * `[start, end]` (both inclusive), and equal on each filter that is set.
   * An empty artist id counts as unset, as JavaScript's truthiness has it.
   */
  predicate EventSelected(f: CalendarFilters, start: int, end: int, e: CalendarEvent) {
    start <= e.scheduledAt <= end
    && (f.artistId.Some? && f.artistId.value != "" ==> e.artistId == f.artistId.value)
    && (f.platform.Some? ==> e.platform == f.platform.value)
    && (f.status.Some? ==> e.status == f.status.value)
  }

  function EventTime(e: CalendarEvent): int { e.scheduledAt }

  /**
   * `calendar.getEvents`: the selected rows ordered by `scheduled_at`. The
   * month range is computed from the local clock in the source, so `start`
   * and `end` are inputs.
   */
  function GetEvents(f: CalendarFilters, start: int, end: int, table: seq<CalendarEvent>,
                     failure: Option<Raised>, offline: bool)
    : (r: ApiResult<seq<CalendarEvent>>)
    ensures r.Ok? <==> failure.None?
    ensures failure.Some? ==> r == Err(MapSupabaseError(failure.value, offline))
    ensures r.Ok? ==> SortedBy(r.data, EventTime)
    ensures r.Ok? ==> forall e ::
      multiset(r.data)[e] == (if EventSelected(f, start, end, e) then multiset(table)[e] else 0)
  {
    var p := (e: CalendarEvent) => EventSelected(f, start, end, e);
    var rows := SortBy(Filter(table, p), EventTime);
    forall e ensures multiset(rows)[e] == if p(e) then multiset(table)[e] else 0 {
      FilterCount(table, p, e);
    }
    Query(if failure.Some? then Replied(None, failure) else Replied(Some(rows), None), offline)
  }

  /** Without filters, every event of the range is shown, and only those. */
  lemma UnfilteredMonthShowsRange(month: int, year: int, start: int, end: int,
                                  table: seq<CalendarEvent>, offline: bool, e: CalendarEvent)
    requires e in table
    ensures var r := GetEvents(CalendarFilters(None, None, None, month, year), start, end,
                               table, None, offline);
            r.Ok? && (e in r.data <==> start <= e.scheduledAt <= end)
  {
    var r := GetEvents(CalendarFilters(None, None, None, month, year), start, end,
                       table, None, offline);
    assert multiset(table)[e] > 0;
    assert e in r.data <==> multiset(r.data)[e] > 0;
  }

  // ------------------------------------------------------------ post transitions

  /** The columns an update writes: the status always, the other two when present. */
  datatype PostUpdate = PostUpdate(status: PostStatus, rejectionReason: Option<string>,
                                   publishedAt: Option<int>)

  /** `posts.sendForReview`. */
  const SendForReview: PostUpdate := PostUpdate(InReview, None, None)

  /** `posts.approve`. */
  const Approve: PostUpdate := PostUpdate(Approved, None, None)

  /** `posts.reject(reason)`. */
  function Reject(reason: string): (u: PostUpdate)
    ensures u.status == Rejected && u.rejectionReason == Some(reason) && u.publishedAt == None
  {
    PostUpdate(Rejected, Some(reason), None)
  }

  /** `posts.markPublished`, at instant `now`. */
  function MarkPublished(now: int): (u: PostUpdate)
    ensures u.status == Published && u.publishedAt == Some(now) && u.rejectionReason == None
  {
    PostUpdate(Published, None, Some(now))
  }

  /** The row after the update: written columns take the new values, every
      other column keeps the stored one. */
  function ApplyUpdate(p: Post, u: PostUpdate): (r: Post)
    ensures r.status == u.status
    ensures r.rejectionReason == (if u.rejectionReason.Some? then u.rejectionReason else p.rejectionReason)
    ensures r.publishedAt == (if u.publishedAt.Some? then u.publishedAt else p.publishedAt)
    ensures r.(status := p.status, rejectionReason := p.rejectionReason, publishedAt := p.publishedAt) == p
  {
    p.(status := u.status,
       rejectionReason := if u.rejectionReason.Some? then u.rejectionReason else p.rejectionReason,
       publishedAt := if u.publishedAt.Some? then u.publishedAt else p.publishedAt)
  }

  /** Whether the database stores the update or refuses it (a trigger, a
      policy, a missing row). */
  datatype WriteOutcome = Stored | Refused(why: Raised)

  /**
   * A transition call: `update(...).eq('id', id).select().single()` through
   * `query`. The client sends the same update whatever the stored status.
   */
  function Transition(stored: Post, u: PostUpdate, outcome: WriteOutcome, offline: bool)
    : (r: ApiResult<Post>)
    ensures r.Ok? <==> outcome.Stored?
    ensures r.Ok? ==> r.data == ApplyUpdate(stored, u)
    ensures outcome.Refused? ==> r == Err(MapSupabaseError(outcome.why, offline))
  {
    Query(if outcome.Stored? then Replied(Some(ApplyUpdate(stored, u)), None)
          else Replied(None, Some(outcome.why)), offline)
  }

  /** No client-side from-state check: the stored status does not influence
      what a stored transition yields. */
  lemma NoFromStateCheck(stored: Post, from: PostStatus, u: PostUpdate, offline: bool)
    ensures Transition(stored.(status := from), u, Stored, offline)
         == Transition(stored, u, Stored, offline)
  {
  }

  /** What each transition changes on the stored row, and nothing else. */
  lemma TransitionWrites(p: Post, reason: string, now: int)
    ensures ApplyUpdate(p, SendForReview) == p.(status := InReview)
    ensures ApplyUpdate(p, Approve) == p.(status := Approved)
    ensures ApplyUpdate(p, Reject(reason)) == p.(status := Rejected, rejectionReason := Some(reason))
    ensures ApplyUpdate(p, MarkPublished(now)) == p.(status := Published, publishedAt := Some(now))
  {
  }

  // ------------------------------------------------------------ AI calls

  /** The body the edge function answers with on a 2xx: an `error` member,
      or the chat response. */
  datatype ChatPayload = ChatPayload(error: Option<string>, response: ChatResponse)

  /** The body `get_ai_remaining_messages` answers with. */
  datatype UsagePayload = UsagePayload(error: Option<string>, info: UsageInfo)

  /** What `functions.invoke` or `rpc` settles with; the body is never null. */
  datatype CallReply<T> = Answered(error: Option<Raised>, body: T) | CallThrew(thrown: Raised)

  /** The keys of the send-message error table. */
  const SendErrorKeys: set<string> :=
    {"rate_limited", "agent_not_available", "message_too_long", "message_required",
     "ai_error", "unauthorized", "not_an_artist"}

  /** The send-message error table, with the unknown-key fallback. */
  function SendError(key: string): (r: AppError)
    ensures key in SendErrorKeys <==> r.code != UnknownError
    ensures key !in SendErrorKeys ==> r == AppError(UnknownError, key, None, None)
    ensures key == "rate_limited" ==>
      r.code == AiRateLimited && r.statusCode == Some(429) && r.details == Some(map["error" := key])
    ensures key == "agent_not_available" ==> r.code == AiAgentDisabled && r.statusCode == Some(403)
    ensures key == "message_too_long" ==> r.code == AiMessageTooLong && r.statusCode == Some(400)
    ensures key == "message_required" ==> r.code == ValidationError && r.statusCode == Some(400)
    ensures key == "ai_error" ==> r.code == AiServiceUnavailable && r.statusCode == Some(502)
    ensures key == "unauthorized" ==> r.code == AuthUnauthorized && r.statusCode == Some(401)
    ensures key == "not_an_artist" ==> r.code == AuthForbidden && r.statusCode == Some(403)
  {
    if key == "rate_limited" then AppError(AiRateLimited, "Rate limited", Some(429), Some(map["error" := key]))
    else if key == "agent_not_available" then AppError(AiAgentDisabled, "Agent disabled", Some(403), None)
    else if key == "message_too_long" then AppError(AiMessageTooLong, "Message too long", Some(400), None)
    else if key == "message_required" then AppError(ValidationError, "Message required", Some(400), None)
    else if key == "ai_error" then AppError(AiServiceUnavailable, "AI error", Some(502), None)
    else if key == "unauthorized" then AppError(AuthUnauthorized, "Unauthorized", Some(401), None)
    else if key == "not_an_artist" then AppError(AuthForbidden, "Not an artist", Some(403), None)
    else AppError(UnknownError, key, None, None)
  }

  /** The derived predicates on the table: only `ai_error` is retryable, and
      exactly `unauthorized` and `not_an_artist` are auth errors. */
  lemma SendErrorClasses(key: string)
    ensures IsRetryable(SendError(key)) <==> key == "ai_error"
    ensures IsAuthError(SendError(key)) <==> key == "unauthorized" || key == "not_an_artist"
  {
    AuthErrorsExactly(SendError(key));
  }

  /** `ai.sendMessage`: transport errors are classified, a truthy `error`
      member goes through the table, anything else is the response. */
  function SendMessage(reply: CallReply<ChatPayload>, offline: bool): (r: ApiResult<ChatResponse>)
    ensures reply.CallThrew? ==> r == Err(MapSupabaseError(reply.thrown, offline))
    ensures reply.Answered? && reply.error.Some? ==> r == Err(MapSupabaseError(reply.error.value, offline))
    ensures (reply.Answered? && reply.error.None? && reply.body.error.Some?
             && reply.body.error.value != "") ==> r == Err(SendError(reply.body.error.value))
    ensures r.Ok? <==> (reply.Answered? && reply.error.None?
                        && (reply.body.error.None? || reply.body.error.value == ""))
    ensures r.Ok? ==> r.data == reply.body.response
  {
    match reply
    case CallThrew(e) => Err(MapSupabaseError(e, offline))
    case Answered(error, body) =>
      if error.Some? then Err(MapSupabaseError(error.value, offline))
      else if body.error.Some? && body.error.value != "" then Err(SendError(body.error.value))
      else Ok(body.response)
  }

  /** The usage error table: three outcomes. */
  function UsageErrorCode(key: string): (c: ErrorCode)
    ensures c in {AiAgentDisabled, AuthForbidden, UnknownError}
    ensures c == AiAgentDisabled <==> key == "agent_disabled"
    ensures c == AuthForbidden <==> key == "not_an_artist"
  {
    if key == "agent_disabled" then AiAgentDisabled
    else if key == "not_an_artist" then AuthForbidden
    else UnknownError
  }

  /** `ai.getRemainingMessages`. */
  function GetRemainingMessages(reply: CallReply<UsagePayload>, offline: bool): (r: ApiResult<UsageInfo>)
    ensures reply.CallThrew? ==> r == Err(MapSupabaseError(reply.thrown, offline))
    ensures reply.Answered? && reply.error.Some? ==> r == Err(MapSupabaseError(reply.error.value, offline))
    ensures (reply.Answered? && reply.error.None? && reply.body.error.Some?
             && reply.body.error.value != "") ==>
      r == Err(AppError(UsageErrorCode(reply.body.error.value), reply.body.error.value, None, None))
    ensures r.Ok? <==> (reply.Answered? && reply.error.None?
                        && (reply.body.error.None? || reply.body.error.value == ""))
    ensures r.Ok? ==> r.data == reply.body.info
  {
    match reply
    case CallThrew(e) => Err(MapSupabaseError(e, offline))
    case Answered(error, body) =>
      if error.Some? then Err(MapSupabaseError(error.value, offline))
      else if body.error.Some? && body.error.value != "" then
        Err(AppError(UsageErrorCode(body.error.value), body.error.value, None, None))
      else Ok(body.info)
  }

  /** The two tables disagree on the disabled-agent key: the usage table's
      `agent_disabled` is unknown to the send table, and the send table's
      `agent_not_available` is unknown to the usage table. Both agree that
      `not_an_artist` is AUTH_FORBIDDEN. */
  lemma ErrorTablesCompared()
    ensures UsageErrorCode("agent_disabled") == AiAgentDisabled
    ensures SendError("agent_disabled").code == UnknownError
    ensures SendError("agent_not_available").code == AiAgentDisabled
    ensures UsageErrorCode("agent_not_available") == UnknownError
    ensures SendError("not_an_artist").code == UsageErrorCode("not_an_artist") == AuthForbidden
  {
  }
}

=== FILE: auth_store.dfy ===
/**
 * The client's auth store: the signed-in user, their artist profile, the
 * derived staff flag and the loading flag, with its three setters.
 */
module AuthStore {
  import opened Wrappers
  import opened Enums
  import opened Models

  datatype AuthState = AuthState(user: Option<User>, artist: Option<Artist>, isStaff: bool, isLoading: bool)

  /** `isStaff` agrees with the user's role: staff exactly for a signed-in
      admin or manager. */
  predicate StaffFlagAgrees(s: AuthState) {
    s.isStaff <==> s.user.Some? && IsStaffRole(s.user.value.role)
  }

  /** The state before the session is known. */
  const Initial: AuthState := AuthState(None, None, false, true)

  /** `setUser`: the user, the staff flag derived from its role, loading done;
      the artist is left as it was. */
  function SetUser(s: AuthState, user: Option<User>): (r: AuthState)
    ensures r.user == user && !r.isLoading && r.artist == s.artist
    ensures r.isStaff <==> user.Some? && (user.value.role == Admin || user.value.role == Manager)
  {
    AuthState(user, s.artist, user.Some? && IsStaffRole(user.value.role), false)
  }

  /** `setArtist`: only the artist changes. */
  function SetArtist(s: AuthState, artist: Option<Artist>): (r: AuthState)
    ensures r.artist == artist
    ensures r.(artist := s.artist) == s
  {
    s.(artist := artist)
  }

  /** `logout`: everything cleared and loading done. */
  function Logout(s: AuthState): (r: AuthState)
    ensures r.user.None? && r.artist.None? && !r.isStaff && !r.isLoading
  {
    AuthState(None, None, false, false)
  }

  /** The staff flag agrees with the role in the initial state and after
      every transition, so it is a faithful cache of the role. */
  lemma StaffFlagInvariant(s: AuthState, user: Option<User>, artist: Option<Artist>)
    requires StaffFlagAgrees(s)
    ensures StaffFlagAgrees(Initial)
    ensures StaffFlagAgrees(SetUser(s, user))
    ensures StaffFlagAgrees(SetArtist(s, artist))
    ensures StaffFlagAgrees(Logout(s))
  {
  }

  /** The order of `setUser` and `setArtist` does not matter. */
  lemma SettersCommute(s: AuthState, user: Option<User>, artist: Option<Artist>)
    ensures SetArtist(SetUser(s, user), artist) == SetUser(SetArtist(s, artist), user)
  {
  }

  /** An artist-role user is never staff, whatever their artist profile. */
  lemma ArtistsAreNotStaff(s: AuthState, u: User)
    requires u.role == ArtistRole
    ensures !SetUser(s, Some(u)).isStaff
  {
  }
}

=== FILE: calendar_filters.dfy ===
/**
 * The calendar's filter panel: whether any filter is set, clearing, the
 * three selectors (an empty option unsets the field) and when the artist
 * selector is offered.
 */
module CalendarFilterPanel {
  import opened Wrappers
  import opened Enums
  import opened Models
  import Api

  /** `!!(artist_id || platform || status)`; an empty artist id is falsy. */
  predicate HasFilters(f: CalendarFilters) {
    (f.artistId.Some? && f.artistId.value != "") || f.platform.Some? || f.status.Some?
  }

  /** `clearFilters`: only the month and the year are kept. */
  function Cleared(f: CalendarFilters): (r: CalendarFilters)
    ensures r.artistId.None? && r.platform.None? && r.status.None?
    ensures r.month == f.month && r.year == f.year
    ensures !HasFilters(r)
  {
    CalendarFilters(None, None, None, f.month, f.year)
  }

  /** The artist selector's change: the empty option unsets the field. */
  function ArtistPicked(f: CalendarFilters, value: string): (r: CalendarFilters)
    ensures value == "" ==> r.artistId.None?
    ensures value != "" ==> r.artistId == Some(value)
    ensures r.(artistId := f.artistId) == f
  {
    f.(artistId := if value == "" then None else Some(value))
  }

  /** The platform selector's change; its options are "" and the platform names. */
  function PlatformPicked(f: CalendarFilters, value: string): (r: CalendarFilters)
    ensures value == "" ==> r.platform.None?
    ensures forall p :: value == PlatformName(p) ==> r.platform == Some(p)
    ensures r.(platform := f.platform) == f
  {
    f.(platform := if value == "" then None else ParsePlatform(value))
  }

  /** The status selector's change; its options are "" and the status names. */
  function StatusPicked(f: CalendarFilters, value: string): (r: CalendarFilters)
    ensures value == "" ==> r.status.None?
    ensures forall s :: value == StatusName(s) ==> r.status == Some(s)
    ensures r.(status := f.status) == f
  {
    f.(status := if value == "" then None else ParseStatus(value))
  }

  /** Setting a field and picking the empty option again restores a record
      where that field was unset. */
  lemma PickThenUnset(f: CalendarFilters, id: string, p: PostPlatform, s: PostStatus)
    ensures f.artistId.None? ==> ArtistPicked(ArtistPicked(f, id), "") == f
    ensures f.platform.None? ==> PlatformPicked(PlatformPicked(f, PlatformName(p)), "") == f
    ensures f.status.None? ==> StatusPicked(StatusPicked(f, StatusName(s)), "") == f
  {
  }

  /** Any one selector set to a real value makes the filter indicator show. */
  lemma PickedShowsIndicator(f: CalendarFilters, id: string, p: PostPlatform, s: PostStatus)
    ensures id != "" ==> HasFilters(ArtistPicked(f, id))
    ensures HasFilters(PlatformPicked(f, PlatformName(p)))
    ensures HasFilters(StatusPicked(f, StatusName(s)))
  {
  }

  /** The artist list: loaded only for staff, and only when the call succeeds. */
  function ArtistOptions(isStaff: bool, loaded: Api.ApiResult<seq<Artist>>): seq<Artist> {
    if isStaff && loaded.Ok? then loaded.data else []
  }

  /** The artist selector is offered exactly to staff with a non-empty list. */
  lemma ArtistSelectorOnlyForStaff(isStaff: bool, loaded: Api.ApiResult<seq<Artist>>)
    ensures (isStaff && |ArtistOptions(isStaff, loaded)| > 0)
            <==> (isStaff && loaded.Ok? && |loaded.data| > 0)
    ensures !isStaff ==> ArtistOptions(isStaff, loaded) == []
  {
  }
}

=== FILE: chat_page.dfy ===
/**
 * The artist's chat page: loading today's messages and quota, the
 * optimistic send (a temporary user message shown at once, replaced by the
 * outcome), the disabled-agent screen and the quota counter.
 */
module ChatPage {
  import opened Wrappers
  import opened Strings
  import opened Errors
  import opened Models
  import opened Seqs
  import Api

  /** A message as the page shows it. */
  datatype ChatMessage = ChatMessage(id: string, sessionId: string, role: ChatRole, content: string)

  datatype PageState = PageState(
    messages: seq<ChatMessage>,
    usage: Option<UsageInfo>,
    isSending: bool,
    input: string,
    agentDisabled: bool)

  /** `loadData`: messages on success; the usage snapshot on success; the
      disabled screen once the agent reports disabled or the call fails
      with `AI_AGENT_DISABLED`. The flag is never cleared here. */
  function LoadData(s: PageState, messages: Api.ApiResult<seq<ChatMessage>>,
                    usage: Api.ApiResult<UsageInfo>): (r: PageState)
    ensures r.messages == (if messages.Ok? then messages.data else s.messages)
    ensures r.usage == (if usage.Ok? then Some(usage.data) else s.usage)
    ensures r.agentDisabled <==>
      s.agentDisabled || (usage.Ok? && !usage.data.isEnabled) || (usage.Err? && usage.error.code == AiAgentDisabled)
    ensures r.isSending == s.isSending && r.input == s.input
  {
    var s1 := if messages.Ok? then s.(messages := messages.data) else s;
    if usage.Ok? then
      s1.(usage := Some(usage.data), agentDisabled := s1.agentDisabled || !usage.data.isEnabled)
    else if usage.error.code == AiAgentDisabled then s1.(agentDisabled := true)
    else s1
  }

  /** A send in flight: the text sent and the temporary message's id. */
  datatype Pending = Pending(state: PageState, text: string, tempId: string)

  function TempId(now: nat): string { "temp-" + NatToString(now) }

  function ResponseId(now: nat): string { "resp-" + NatToString(now) }

  /** The first half of `sendMessage`: nothing when the trimmed input is
      empty or a send is in flight; otherwise the input is cleared, the
      sending flag set, and one temporary user message appended. */
  function BeginSend(s: PageState, now: nat): (r: Option<Pending>)
    ensures r.None? <==> Trim(s.input) == "" || s.isSending
    ensures r.Some? ==>
      r.value.text == Trim(s.input)
      && r.value.state.messages == s.messages + [ChatMessage(r.value.tempId, "", UserSpeaker, r.value.text)]
      && r.value.state.input == "" && r.value.state.isSending
      && r.value.state.usage == s.usage && r.value.state.agentDisabled == s.agentDisabled
  {
    var text := Trim(s.input);
    if text == "" || s.isSending then None
    else
      var temp := ChatMessage(TempId(now), "", UserSpeaker, text);
      Some(Pending(s.(isSending := true, input := "", messages := s.messages + [temp]), text, temp.id))
  }

  /** `prev.filter((m) => m.id !== id)`. */
  function WithoutId(ms: seq<ChatMessage>, id: string): seq<ChatMessage> {
    Filter(ms, (m: ChatMessage) => m.id != id)
  }

  /** The second half: on success the assistant's reply is appended and the
      usage becomes the response's snapshot, enabled; on failure the
      temporary message is removed and the sent text put back in the input. */
  function FinishSend(p: Pending, result: Api.ApiResult<ChatResponse>, now: nat): (r: PageState)
    ensures !r.isSending
    ensures result.Ok? ==>
      r.messages == p.state.messages
                    + [ChatMessage(ResponseId(now), result.data.sessionId, AssistantSpeaker, result.data.message)]
      && r.usage == Some(UsageInfo(result.data.usage.dailyLimit, result.data.usage.usedToday,
                                   result.data.usage.remaining, true))
      && r.input == p.state.input
    ensures result.Err? ==>
      r.messages == WithoutId(p.state.messages, p.tempId) && r.input == p.text && r.usage == p.state.usage
  {
    var s := p.state;
    match result
    case Ok(resp) =>
      var reply := ChatMessage(ResponseId(now), resp.sessionId, AssistantSpeaker, resp.message);
      s.(messages := s.messages + [reply],
         usage := Some(UsageInfo(resp.usage.dailyLimit, resp.usage.usedToday, resp.usage.remaining, true)),
         isSending := false)
    case Err(_) =>
      s.(messages := WithoutId(s.messages, p.tempId), input := p.text, isSending := false)
  }

  /** A failed send leaves the list as it was before the send (when no
      earlier message carries the temporary id) and puts the trimmed text
      back; a successful one adds exactly the user's and the assistant's
      messages. */
  lemma SendRoundTrip(s: PageState, now: nat, later: nat, result: Api.ApiResult<ChatResponse>)
    requires BeginSend(s, now).Some?
    requires forall i :: 0 <= i < |s.messages| ==> s.messages[i].id != TempId(now)
    ensures var p := BeginSend(s, now).value;
      var r := FinishSend(p, result, later);
      (result.Err? ==> r.messages == s.messages && r.input == Trim(s.input) && r.usage == s.usage)
      && (result.Ok? ==> |r.messages| == |s.messages| + 2 && r.messages[..|s.messages|] == s.messages
                         && r.messages[|s.messages|].role == UserSpeaker
                         && r.messages[|s.messages|].content == Trim(s.input)
                         && r.messages[|s.messages| + 1].role == AssistantSpeaker)
  {
    var p := BeginSend(s, now).value;
    var keep := (m: ChatMessage) => m.id != p.tempId;
    FilterAppend(s.messages, [ChatMessage(p.tempId, "", UserSpeaker, p.text)], keep);
    FilterKeepsAll(s.messages, keep);
  }

  // ------------------------------------------------------------ the quota display

  /** `usage?.remaining ?? 0`, `usage?.daily_limit ?? 20`, `usage?.used_today ?? 0`. */
  function Remaining(s: PageState): int { if s.usage.Some? then s.usage.value.remaining else 0 }
  function Limit(s: PageState): int { if s.usage.Some? then s.usage.value.dailyLimit else 20 }
  function Used(s: PageState): int { if s.usage.Some? then s.usage.value.usedToday else 0 }

  datatype CounterColour = Red | Yellow | Grey

  function Colour(remaining: int): CounterColour {
    if remaining <= 3 then Red else if remaining <= 10 then Yellow else Grey
  }

  /** What the page shows: the disabled screen, or the chat with the counter
      `used/limit` and the input bar when messages remain. */
  datatype View = DisabledScreen | ChatView(used: int, limit: int, colour: CounterColour, inputBar: bool)

  function Render(s: PageState): (r: View)
    ensures r == DisabledScreen <==> s.agentDisabled
    ensures r.ChatView? ==> (r.inputBar <==> Remaining(s) > 0)
    ensures r.ChatView? ==> (r.colour == Red <==> Remaining(s) <= 3)
    ensures r.ChatView? ==> (r.colour == Grey <==> Remaining(s) > 10)
  {
    if s.agentDisabled then DisabledScreen
    else ChatView(Used(s), Limit(s), Colour(Remaining(s)), Remaining(s) > 0)
  }

  /** Before the quota is known the counter reads 0/20 in red and there is
      no input bar; after a successful send it shows the response's numbers
      and the bar stays while messages remain. */
  lemma UnknownUsageBlocksInput(s: PageState)
    requires s.usage.None? && !s.agentDisabled
    ensures Render(s) == ChatView(0, 20, Red, false)
  {
  }

  lemma AfterSuccessfulSend(p: Pending, resp: ChatResponse, now: nat)
    requires !p.state.agentDisabled
    ensures var v := Render(FinishSend(p, Api.Ok(resp), now));
      v.ChatView? && v.used == resp.usage.usedToday && v.limit == resp.usage.dailyLimit
      && (v.inputBar <==> resp.usage.remaining > 0)
  {
  }
}

=== FILE: enums.dfy ===
/**
 * The closed vocabularies of the application (roles, post statuses,
 * platforms, guideline priorities) and their display tables.
 * Wire names are the lower-case strings the backend stores.
 */
module Enums {
  import opened Wrappers

  datatype UserRole = Admin | Manager | ArtistRole

  datatype PostStatus = Draft | InReview | Approved | Rejected | Published

  datatype PostPlatform =
    | InstagramFeed | InstagramStory | InstagramReel
    | TikTok | YouTube | YouTubeShorts
    | Facebook | Twitter | Spotify

  /** Staff are admins and managers. */
  predicate IsStaffRole(r: UserRole) {
    r == Admin || r == Manager
  }

  const UserRoles: seq<UserRole> := [Admin, Manager, ArtistRole]
  const PostStatuses: seq<PostStatus> := [Draft, InReview, Approved, Rejected, Published]
  const PostPlatforms: seq<PostPlatform> := [
    InstagramFeed, InstagramStory, InstagramReel,
    TikTok, YouTube, YouTubeShorts,
    Facebook, Twitter, Spotify
  ]
  const GuidelinePriorities: seq<int> := [0, 1, 2]

  predicate Distinct<T(==)>(s: seq<T>) {
    forall i, j :: 0 <= i < j < |s| ==> s[i] != s[j]
  }

  /** The status list has five distinct entries and names every status;
      the role list has three and names every role. */
  lemma EnumerationsComplete()
    ensures |PostStatuses| == 5 && Distinct(PostStatuses)
    ensures forall s: PostStatus :: s in PostStatuses
    ensures |UserRoles| == 3 && Distinct(UserRoles)
    ensures forall r: UserRole :: r in UserRoles
    ensures |PostPlatforms| == 9 && Distinct(PostPlatforms)
    ensures forall p: PostPlatform :: p in PostPlatforms
  {
    forall s: PostStatus ensures s in PostStatuses {
      match s
      case Draft => assert PostStatuses[0] == s;
      case InReview => assert PostStatuses[1] == s;
      case Approved => assert PostStatuses[2] == s;
      case Rejected => assert PostStatuses[3] == s;
      case Published => assert PostStatuses[4] == s;
    }
    forall r: UserRole ensures r in UserRoles {
      match r
      case Admin => assert UserRoles[0] == r;
      case Manager => assert UserRoles[1] == r;
      case ArtistRole => assert UserRoles[2] == r;
    }
    forall p: PostPlatform ensures p in PostPlatforms {
      match p
      case InstagramFeed => assert PostPlatforms[0] == p;
      case InstagramStory => assert PostPlatforms[1] == p;
      case InstagramReel => assert PostPlatforms[2] == p;
      case TikTok => assert PostPlatforms[3] == p;
      case YouTube => assert PostPlatforms[4] == p;
      case YouTubeShorts => assert PostPlatforms[5] == p;
      case Facebook => assert PostPlatforms[6] == p;
      case Twitter => assert PostPlatforms[7] == p;
      case Spotify => assert PostPlatforms[8] == p;
    }
  }

  function RoleName(r: UserRole): string {
    match r
    case Admin => "admin"
    case Manager => "manager"
    case ArtistRole => "artist"
  }

  function StatusName(s: PostStatus): string {
    match s
    case Draft => "draft"
    case InReview => "in_review"
    case Approved => "approved"
    case Rejected => "rejected"
    case Published => "published"
  }

  function PlatformName(p: PostPlatform): string {
    match p
    case InstagramFeed => "instagram_feed"
    case InstagramStory => "instagram_story"
    case InstagramReel => "instagram_reel"
    case TikTok => "tiktok"
    case YouTube => "youtube"
    case YouTubeShorts => "youtube_shorts"
    case Facebook => "facebook"
    case Twitter => "twitter"
    case Spotify => "spotify"
  }

  /** Reads a stored role name; any other string is not a role. */
  function ParseRole(s: string): (r: Option<UserRole>)
    ensures r.Some? ==> RoleName(r.value) == s
  {
    if s == "admin" then Some(Admin)
    else if s == "manager" then Some(Manager)
    else if s == "artist" then Some(ArtistRole)
    else None
  }

  /** Reads a stored status name; any other string is not a status. */
  function ParseStatus(s: string): (r: Option<PostStatus>)
    ensures r.Some? ==> StatusName(r.value) == s
  {
    if s == "draft" then Some(Draft)
    else if s == "in_review" then Some(InReview)
    else if s == "approved" then Some(Approved)
    else if s == "rejected" then Some(Rejected)
    else if s == "published" then Some(Published)
    else None
  }

  /** Reads a stored platform name; any other string is not a platform. */
  function ParsePlatform(s: string): (r: Option<PostPlatform>)
    ensures r.Some? ==> PlatformName(r.value) == s
  {
    if s == "instagram_feed" then Some(InstagramFeed)
    else if s == "instagram_story" then Some(InstagramStory)
    else if s == "instagram_reel" then Some(InstagramReel)
    else if s == "tiktok" then Some(TikTok)
    else if s == "youtube" then Some(YouTube)
    else if s == "youtube_shorts" then Some(YouTubeShorts)
    else if s == "facebook" then Some(Facebook)
    else if s == "twitter" then Some(Twitter)
    else if s == "spotify" then Some(Spotify)
    else None
  }

  /** Every wire name reads back as the value it names, so the names are
      pairwise distinct. */
  lemma NamesRoundTrip(r: UserRole, s: PostStatus, p: PostPlatform)
    ensures ParseRole(RoleName(r)) == Some(r)
    ensures ParseStatus(StatusName(s)) == Some(s)
    ensures ParsePlatform(PlatformName(p)) == Some(p)
  {}

  datatype StatusDisplay = StatusDisplay(text: string, color: string, bgColor: string)
  datatype PlatformDisplay = PlatformDisplay(text: string, icon: string, color: string)
  datatype PriorityDisplay = PriorityDisplay(text: string, color: string)

  /** STATUS_CONFIG: a total table, one entry per status. */
  function StatusConfig(s: PostStatus): StatusDisplay {
    match s
    case Draft => StatusDisplay("Bozza", "#6B7280", "#F3F4F6")
    case InReview => StatusDisplay("In Revisione", "#F59E0B", "#FEF3C7")
    case Approved => StatusDisplay("Approvato", "#10B981", "#D1FAE5")
    case Rejected => StatusDisplay("Rifiutato", "#EF4444", "#FEE2E2")
    case Published => StatusDisplay("Pubblicato", "#6366F1", "#E0E7FF")
  }

  /** PLATFORM_CONFIG: a total table, one entry per platform. */
  function PlatformConfig(p: PostPlatform): PlatformDisplay {
    match p
    case InstagramFeed => PlatformDisplay("Instagram Feed", "instagram", "#E4405F")
    case InstagramStory => PlatformDisplay("Instagram Story", "instagram", "#E4405F")
    case InstagramReel => PlatformDisplay("Instagram Reel", "instagram", "#E4405F")
    case TikTok => PlatformDisplay("TikTok", "music", "#000000")
    case YouTube => PlatformDisplay("YouTube", "youtube", "#FF0000")
    case YouTubeShorts => PlatformDisplay("YouTube Shorts", "youtube", "#FF0000")
    case Facebook => PlatformDisplay("Facebook", "facebook", "#1877F2")
    case Twitter => PlatformDisplay("X / Twitter", "twitter", "#1DA1F2")
    case Spotify => PlatformDisplay("Spotify", "music", "#1DB954")
  }

  /** PRIORITY_CONFIG, keyed by number as in the source. */
  const PriorityConfig: map<int, PriorityDisplay> := map[
    0 := PriorityDisplay("Normale", "#6B7280"),
    1 := PriorityDisplay("Importante", "#F59E0B"),
    2 := PriorityDisplay("Urgente", "#EF4444")
  ]

  /** The display tables are total: every status and platform has a
      non-empty label, status labels are pairwise distinct, and the
      priority table is keyed by exactly the guideline priorities. */
  lemma DisplayTablesTotal()
    ensures forall s: PostStatus :: |StatusConfig(s).text| > 0
    ensures forall s, t: PostStatus :: s != t ==> StatusConfig(s).text != StatusConfig(t).text
    ensures forall p: PostPlatform :: |PlatformConfig(p).text| > 0
    ensures forall p, q: PostPlatform :: p != q ==> PlatformConfig(p).text != PlatformConfig(q).text
    ensures PriorityConfig.Keys == set i | 0 <= i < |GuidelinePriorities| :: GuidelinePriorities[i]
  {
    var keys := set i | 0 <= i < |GuidelinePriorities| :: GuidelinePriorities[i];
    assert GuidelinePriorities[0] == 0 && GuidelinePriorities[1] == 1 && GuidelinePriorities[2] == 2;
    assert keys == {0, 1, 2};
  }
}

=== FILE: errors.dfy ===
/**
 * The client's error taxonomy: the closed set of error codes, the
 * `AppError` record, the ordered classifier from raw backend errors to
 * codes, and the derived "retryable", "auth error" and user message.
 */
module Errors {
  import opened Wrappers
  import opened Strings

  datatype ErrorCode =
    // auth
    | AuthInvalidCredentials | AuthSessionExpired | AuthUnauthorized | AuthForbidden
    // data
    | NotFound | ValidationError | Conflict
    // post workflow
    | InvalidStatusTransition | PostLocked | RejectionReasonRequired
    // AI
    | AiRateLimited | AiServiceUnavailable | AiAgentDisabled | AiMessageTooLong
    // upload
    | FileTooLarge | FileTypeInvalid | UploadFailed
    // network
    | NetworkError | Timeout
    // generic
    | InternalError | UnknownError

  /** The code's name as the source spells it. */
  function CodeName(c: ErrorCode): string {
    match c
    case AuthInvalidCredentials => "AUTH_INVALID_CREDENTIALS"
    case AuthSessionExpired => "AUTH_SESSION_EXPIRED"
    case AuthUnauthorized => "AUTH_UNAUTHORIZED"
    case AuthForbidden => "AUTH_FORBIDDEN"
    case NotFound => "NOT_FOUND"
    case ValidationError => "VALIDATION_ERROR"
    case Conflict => "CONFLICT"
    case InvalidStatusTransition => "INVALID_STATUS_TRANSITION"
    case PostLocked => "POST_LOCKED"
    case RejectionReasonRequired => "REJECTION_REASON_REQUIRED"
    case AiRateLimited => "AI_RATE_LIMITED"
    case AiServiceUnavailable => "AI_SERVICE_UNAVAILABLE"
    case AiAgentDisabled => "AI_AGENT_DISABLED"
    case AiMessageTooLong => "AI_MESSAGE_TOO_LONG"
    case FileTooLarge => "FILE_TOO_LARGE"
    case FileTypeInvalid => "FILE_TYPE_INVALID"
    case UploadFailed => "UPLOAD_FAILED"
    case NetworkError => "NETWORK_ERROR"
    case Timeout => "TIMEOUT"
    case InternalError => "INTERNAL_ERROR"
    case UnknownError => "UNKNOWN_ERROR"
  }

  /** An application error: code, message, optional HTTP status and details. */
  datatype AppError = AppError(
    code: ErrorCode,
    message: string,
    statusCode: Option<int>,
    details: Option<map<string, string>>)

  /** ERROR_MESSAGES: the Italian text shown to the user for each code. */
  function ErrorMessage(c: ErrorCode): string {
    match c
    case AuthInvalidCredentials => "Email o password non corretti."
    case AuthSessionExpired => "Sessione scaduta. Effettua di nuovo il login."
    case AuthUnauthorized => "Devi effettuare il login."
    case AuthForbidden => "Non hai i permessi per questa azione."
    case NotFound => "Elemento non trovato."
    case ValidationError => "Controlla i dati inseriti."
    case Conflict => "Conflitto con i dati esistenti."
    case InvalidStatusTransition => "Transizione di stato non valida."
    case PostLocked => "Questo post non può essere modificato."
    case RejectionReasonRequired => "Il motivo del rifiuto è obbligatorio."
    case AiRateLimited => "Hai raggiunto il limite giornaliero di messaggi."
    case AiServiceUnavailable => "Il servizio AI non è disponibile al momento. Riprova tra poco."
    case AiAgentDisabled => "L'assistente AI non è ancora attivo per te."
    case AiMessageTooLong => "Il messaggio è troppo lungo (max 2000 caratteri)."
    case FileTooLarge => "Il file è troppo grande (max 50MB)."
    case FileTypeInvalid => "Tipo di file non supportato."
    case UploadFailed => "Caricamento fallito. Riprova."
    case NetworkError => "Errore di connessione. Controlla la tua rete."
    case Timeout => "La richiesta ha impiegato troppo tempo. Riprova."
    case InternalError => "Errore interno. Riprova o contatta il supporto."
    case UnknownError => "Si è verificato un errore imprevisto."
  }

  /** `AppError.userMessage`: defined and non-empty for every code. */
  function UserMessage(e: AppError): (r: string)
    ensures |r| > 0
  {
    ErrorMessage(e.code)
  }

  const RetryableErrors: set<ErrorCode> :=
    {NetworkError, Timeout, AiServiceUnavailable, UploadFailed, InternalError}

  /** `AppError.isRetryable`. */
  predicate IsRetryable(e: AppError) {
    e.code in RetryableErrors
  }

  /** `AppError.isAuthError`: the code's name starts with `AUTH_`. */
  predicate IsAuthError(e: AppError) {
    StartsWith(CodeName(e.code), "AUTH_")
  }

  /** No auth error is retryable: the two tests never both hold. */
  lemma RetryableNeverAuth(e: AppError)
    ensures IsRetryable(e) ==> !IsAuthError(e)
  {
    AuthErrorsExactly(e);
  }

  /** The name-prefix test picks out exactly the four auth codes. */
  lemma AuthErrorsExactly(e: AppError)
    ensures IsAuthError(e) <==>
      e.code in {AuthInvalidCredentials, AuthSessionExpired, AuthUnauthorized, AuthForbidden}
  {
    match e.code
    case AuthInvalidCredentials =>
    case AuthSessionExpired =>
    case AuthUnauthorized =>
    case AuthForbidden =>
    case _ =>
      var n := CodeName(e.code);
      assert n[1] != 'U';
  }

  /** An error value as `mapSupabaseError` receives it: either already an
      `AppError`, or an arbitrary object whose `message`/`msg`, `code` and
      `status`/`statusCode` members may be absent. */
  datatype Raised =
    | Known(err: AppError)
    | Raw(message: Option<string>, msg: Option<string>, code: Option<string>,
          status: Option<int>, statusCode: Option<int>)

  /** `String(err?.message ?? err?.msg ?? 'Unknown error')`. */
  function RawMessage(e: Raised): string
    requires e.Raw?
  {
    e.message.GetOr(e.msg.GetOr("Unknown error"))
  }

  /** `String(err?.code ?? '')`. */
  function RawCode(e: Raised): string
    requires e.Raw?
  {
    e.code.GetOr("")
  }

  /** `Number(err?.status ?? err?.statusCode ?? 0)`. */
  function RawStatus(e: Raised): int
    requires e.Raw?
  {
    e.status.GetOr(e.statusCode.GetOr(0))
  }

  // The rules of the classifier, in the order the source tries them.
  predicate CredentialsRule(m: string) { Contains(m, "Invalid login credentials") }
  predicate ExpiredRule(c: string, s: int) { s == 401 || c == "PGRST301" }
  predicate ForbiddenRule(s: int) { s == 403 }
  predicate NotFoundRule(c: string, s: int) { s == 404 || c == "PGRST116" }
  predicate ConflictRule(c: string, s: int) { s == 409 || c == "23505" }
  predicate TransitionRule(m: string) { Contains(m, "Invalid status transition") }
  predicate LockedRule(m: string) { Contains(m, "Cannot edit") }
  predicate ReasonRule(m: string) { Contains(m, "Rejection reason is required") }
  predicate NetworkRule(m: string, offline: bool) {
    Contains(m, "fetch") || Contains(m, "network") || Contains(m, "Failed to fetch") || offline
  }
  predicate TimeoutRule(m: string) { Contains(m, "timeout") || Contains(m, "Timeout") }

  /** None of the access and data rules (credentials, 401, 403, 404, 409) fires. */
  predicate NoStatusRule(m: string, c: string, s: int) {
    !CredentialsRule(m) && !ExpiredRule(c, s) && !ForbiddenRule(s)
    && !NotFoundRule(c, s) && !ConflictRule(c, s)
  }

  /** `mapSupabaseError`: an `AppError` passes through unchanged; anything
      else is classified by the first rule that fires, keeps its message,
      and carries the status the rule assigns. `offline` stands for
      `navigator` being defined and reporting offline. */
  function MapSupabaseError(e: Raised, offline: bool): (r: AppError)
    ensures e.Known? ==> r == e.err
    ensures e.Raw? ==> r.message == RawMessage(e) && r.details == None
    ensures e.Raw? && CredentialsRule(RawMessage(e)) ==>
      r.code == AuthInvalidCredentials && r.statusCode == Some(401)
    ensures e.Raw? && !CredentialsRule(RawMessage(e)) && ExpiredRule(RawCode(e), RawStatus(e)) ==>
      r.code == AuthSessionExpired && r.statusCode == Some(401)
    ensures (e.Raw? && !CredentialsRule(RawMessage(e)) && !ExpiredRule(RawCode(e), RawStatus(e))
             && ForbiddenRule(RawStatus(e))) ==>
      r.code == AuthForbidden && r.statusCode == Some(403)
    ensures (e.Raw? && !CredentialsRule(RawMessage(e)) && !ExpiredRule(RawCode(e), RawStatus(e))
             && !ForbiddenRule(RawStatus(e)) && NotFoundRule(RawCode(e), RawStatus(e))) ==>
      r.code == NotFound && r.statusCode == Some(404)
    ensures (e.Raw? && !CredentialsRule(RawMessage(e)) && !ExpiredRule(RawCode(e), RawStatus(e))
             && !ForbiddenRule(RawStatus(e)) && !NotFoundRule(RawCode(e), RawStatus(e))
             && ConflictRule(RawCode(e), RawStatus(e))) ==>
      r.code == Conflict && r.statusCode == Some(409)
    ensures e.Raw? && NoStatusRule(RawMessage(e), RawCode(e), RawStatus(e)) ==>
      (TransitionRule(RawMessage(e)) ==> r.code == InvalidStatusTransition && r.statusCode == Some(400))
      && (!TransitionRule(RawMessage(e)) && LockedRule(RawMessage(e)) ==>
            r.code == PostLocked && r.statusCode == Some(400))
      && (!TransitionRule(RawMessage(e)) && !LockedRule(RawMessage(e)) && ReasonRule(RawMessage(e)) ==>
            r.code == RejectionReasonRequired && r.statusCode == Some(400))
    ensures (e.Raw? && NoStatusRule(RawMessage(e), RawCode(e), RawStatus(e))
             && !TransitionRule(RawMessage(e)) && !LockedRule(RawMessage(e)) && !ReasonRule(RawMessage(e))) ==>
      (NetworkRule(RawMessage(e), offline) ==> r.code == NetworkError && r.statusCode == None)
      && (!NetworkRule(RawMessage(e), offline) && TimeoutRule(RawMessage(e)) ==>
            r.code == Timeout && r.statusCode == None)
      && (!NetworkRule(RawMessage(e), offline) && !TimeoutRule(RawMessage(e)) ==>
            r.code == UnknownError
            && r.statusCode == (if RawStatus(e) != 0 then Some(RawStatus(e)) else None))
  {
    match e
    case Known(err) => err
    case Raw(_, _, _, _, _) =>
      var m := RawMessage(e);
      var c := RawCode(e);
      var s := RawStatus(e);
      if CredentialsRule(m) then AppError(AuthInvalidCredentials, m, Some(401), None)
      else if ExpiredRule(c, s) then AppError(AuthSessionExpired, m, Some(401), None)
      else if ForbiddenRule(s) then AppError(AuthForbidden, m, Some(403), None)
      else if NotFoundRule(c, s) then AppError(NotFound, m, Some(404), None)
      else if ConflictRule(c, s) then AppError(Conflict, m, Some(409), None)
      else if TransitionRule(m) then AppError(InvalidStatusTransition, m, Some(400), None)
      else if LockedRule(m) then AppError(PostLocked, m, Some(400), None)
      else if ReasonRule(m) then AppError(RejectionReasonRequired, m, Some(400), None)
      else if NetworkRule(m, offline) then AppError(NetworkError, m, None, None)
      else if TimeoutRule(m) then AppError(Timeout, m, None, None)
      else AppError(UnknownError, m, if s != 0 then Some(s) else None, None)
  }

  /** A raw error is only ever classified as one of these eleven codes. */
  lemma ClassifierRange(e: Raised, offline: bool)
    requires e.Raw?
    ensures MapSupabaseError(e, offline).code in
      {AuthInvalidCredentials, AuthSessionExpired, AuthForbidden, NotFound, Conflict,
       InvalidStatusTransition, PostLocked, RejectionReasonRequired,
       NetworkError, Timeout, UnknownError}
  {}

  /** Of the classifier's outputs only network and timeout errors are
      retryable: a raw backend error is never classified as an
      AI-unavailable, upload or internal error. */
  lemma RawRetryableOnlyNetworkOrTimeout(e: Raised, offline: bool)
    requires e.Raw?
    ensures IsRetryable(MapSupabaseError(e, offline)) <==>
      MapSupabaseError(e, offline).code in {NetworkError, Timeout}
  {
    ClassifierRange(e, offline);
  }

  /** The credentials rule wins whatever the status and code say. */
  lemma CredentialsWinOverStatus(prefix: string, suffix: string, code: Option<string>, status: Option<int>, offline: bool)
    ensures
      var e := Raw(Some(prefix + "Invalid login credentials" + suffix), None, code, status, None);
      MapSupabaseError(e, offline).code == AuthInvalidCredentials
  {
    ContainsMiddle(prefix, "Invalid login credentials", suffix);
  }

  /** A backend workflow refusal (an exception whose message mentions an
      invalid status transition, a locked post or a missing rejection
      reason) carrying no access or data status is classified by that
      message, with status 400 and not retryable. */
  lemma WorkflowRefusalClassified(prefix: string, suffix: string, status: int, offline: bool)
    requires status !in {401, 403, 404, 409}
    requires !CredentialsRule(prefix + "Invalid status transition" + suffix)
    ensures
      var e := Raw(Some(prefix + "Invalid status transition" + suffix), None, None, Some(status), None);
      var r := MapSupabaseError(e, offline);
      r.code == InvalidStatusTransition && r.statusCode == Some(400) && !IsRetryable(r)
  {
    ContainsMiddle(prefix, "Invalid status transition", suffix);
  }

  /** Where `sub` occurs in `s`. */
  lemma {:induction false} ContainsWitness(s: string, sub: string) returns (k: nat)
    requires Contains(s, sub)
    ensures k + |sub| <= |s| && s[k..k + |sub|] == sub
    decreases |s|
  {
    if StartsWith(s, sub) {
      k := 0;
    } else {
      var j := ContainsWitness(s[1..], sub);
      k := j + 1;
      assert s[k..k + |sub|] == s[1..][j..j + |sub|];
    }
  }

  /** Containment is transitive. */
  lemma ContainsTransitive(s: string, mid: string, sub: string)
    requires Contains(s, mid) && Contains(mid, sub)
    ensures Contains(s, sub)
  {
    var k := ContainsWitness(s, mid);
    var j := ContainsWitness(mid, sub);
    forall i | 0 <= i < |sub| ensures s[k + j + i] == sub[i] {
      assert mid[j + i] == sub[i];
      assert s[k..k + |mid|][j + i] == s[k + j + i];
    }
    assert s[k + j..k + j + |sub|] == sub;
    ContainsAt(s, sub, k + j);
  }

  /** The network rule's "Failed to fetch" test never decides anything:
      any message containing it already contains "fetch". */
  lemma FailedToFetchRedundant(m: string, offline: bool)
    ensures NetworkRule(m, offline) <==> (Contains(m, "fetch") || Contains(m, "network") || offline)
  {
    if Contains(m, "Failed to fetch") {
      ContainsMiddle("Failed to ", "fetch", "");
      assert "Failed to " + "fetch" + "" == "Failed to fetch";
      ContainsTransitive(m, "Failed to fetch", "fetch");
    }
  }
}

=== FILE: gallery.dfy ===
/**
 * The post's media gallery: the cyclic previous/next index, which controls
 * appear for how many items, the thumbnail source and the lightbox rule.
 */
module Gallery {
  import opened Wrappers
  import opened Strings

  /** The left arrow: one back, wrapping from the first to the last. */
  function Prev(i: int, n: int): (r: int)
    ensures 0 <= i < n ==> 0 <= r < n && r == (i + n - 1) % n
  {
    if i > 0 then i - 1 else n - 1
  }

  /** The right arrow: one on, wrapping from the last to the first. */
  function Next(i: int, n: int): (r: int)
    ensures 0 <= i < n ==> 0 <= r < n && r == (i + 1) % n
  {
    if i < n - 1 then i + 1 else 0
  }

  /** The arrows undo each other on every valid index. */
  lemma PrevNextInverse(i: int, n: int)
    requires 0 <= i < n
    ensures Prev(Next(i, n), n) == i
    ensures Next(Prev(i, n), n) == i
  {
  }

  /** `k` presses of the right arrow. */
  function NextTimes(i: int, n: int, k: nat): int
    decreases k
  {
    if k == 0 then i else Next(NextTimes(i, n, k - 1), n)
  }

  lemma ModStep(j: int, n: int)
    requires n > 0
    ensures (j % n + 1) % n == (j + 1) % n
  {
    var q, r := j / n, j % n;
    DivMod(j, n);
    if r + 1 < n {
      DivModOf(j + 1, n, q, r + 1);
    } else {
      MulSucc(q, n);
      DivModOf(j + 1, n, q + 1, 0);
    }
  }

  lemma DivMod(j: int, n: int)
    requires n > 0
    ensures j == (j / n) * n + j % n && 0 <= j % n < n
  {
  }

  lemma MulSucc(q: int, n: int)
    ensures (q + 1) * n == q * n + n
  {
  }

  lemma DivModOf(x: int, n: int, q: int, r: int)
    requires n > 0 && 0 <= r < n && x == q * n + r
    ensures x % n == r
  {
    var q', r' := x / n, x % n;
    assert (q' - q) * n == r - r';
    ZeroFactor(q' - q, n);
  }

  lemma ZeroFactor(k: int, n: int)
    requires n > 0 && -n < k * n < n
    ensures k == 0
  {
  }

  /** Pressing the right arrow `k` times moves `k` places round the cycle;
      in particular `n` presses come back to the start. */
  lemma {:induction false} NextTimesIsRotation(i: int, n: int, k: nat)
    requires 0 <= i < n
    ensures NextTimes(i, n, k) == (i + k) % n
    decreases k
  {
    if k == 0 {
      DivModOf(i, n, 0, i);
    } else {
      NextTimesIsRotation(i, n, k - 1);
      ModStep(i + k - 1, n);
    }
  }

  /** A media row: its storage path, optional thumbnail and MIME type. */
  datatype Media = Media(id: string, storagePath: string, thumbnailPath: Option<string>, mimeType: string)

  /** The strip's image: `thumbnail_path ?? storage_path`. */
  function ThumbnailSource(m: Media): (r: string)
    ensures m.thumbnailPath.Some? ==> r == m.thumbnailPath.value
    ensures m.thumbnailPath.None? ==> r == m.storagePath
  {
    m.thumbnailPath.GetOr(m.storagePath)
  }

  /** What the component renders: nothing for no media; otherwise the main
      view (a video player, or an image that opens the lightbox), and the
      arrows, dots and thumbnail strip together. An index past the end (the
      list shrank under it) makes the image branch read a field of
      `undefined`, so rendering throws. */
  datatype MainView = VideoPlayer(media: Media) | ImageButton(path: string)
  datatype GalleryView =
    | NoGallery
    | RenderThrows
    | Shown(main: MainView, navigation: bool, thumbnails: seq<string>, lightbox: bool)

  function View(media: seq<Media>, active: nat, lightboxOpen: bool): (r: GalleryView)
    ensures r == NoGallery <==> |media| == 0
    ensures r == RenderThrows <==> 0 < |media| <= active
    ensures r.Shown? ==> (r.navigation <==> |media| > 1) && (r.thumbnails != [] <==> |media| > 1)
    ensures r.Shown? ==> (r.lightbox <==> lightboxOpen && !StartsWith(media[active].mimeType, "video/"))
    ensures r.Shown? && r.main.ImageButton? ==> r.main.path == media[active].storagePath
    ensures r.Shown? && |media| > 1 ==>
      |r.thumbnails| == |media| && forall k :: 0 <= k < |media| ==> r.thumbnails[k] == ThumbnailSource(media[k])
  {
    if |media| == 0 then NoGallery
    else if active >= |media| then RenderThrows
    else
      var current := media[active];
      var isVideo := StartsWith(current.mimeType, "video/");
      Shown(if isVideo then VideoPlayer(current) else ImageButton(current.storagePath),
            |media| > 1,
            if |media| > 1 then seq(|media|, k requires 0 <= k < |media| => ThumbnailSource(media[k])) else [],
            lightboxOpen && !isVideo)
  }
}

=== FILE: models.dfy ===
/**
 * The record shapes of the domain, restricted to the columns the modelled
 * operations read or write. Instants are integer milliseconds since the
 * Unix epoch (the database's `timestamptz`); nullable columns are `Option`.
 */
module Models {
  import opened Wrappers
  import opened Enums

  /** A row of `users`. */
  datatype User = User(id: string, email: string, displayName: string, role: UserRole)

  /** A row of `artists`; `isLabel` marks the label's own pseudo-artist. */
  datatype Artist = Artist(
    id: string,
    userId: Option<string>,
    name: string,
    color: string,
    isLabel: bool)

  /** A row of `posts`. */
  datatype Post = Post(
    id: string,
    title: string,
    caption: Option<string>,
    hashtags: Option<string>,
    platform: PostPlatform,
    status: PostStatus,
    artistId: string,
    createdBy: string,
    scheduledAt: int,
    publishedAt: Option<int>,
    rejectionReason: Option<string>,
    createdAt: int,
    updatedAt: int)

  /** A row of the `posts_with_details` view: a post plus joined display data. */
  datatype PostWithDetails = PostWithDetails(
    post: Post,
    artistName: string,
    artistColor: string,
    createdByName: string,
    mediaCount: nat,
    commentCount: nat)

  /** A row of the `calendar_events` view. */
  datatype CalendarEvent = CalendarEvent(
    id: string,
    title: string,
    platform: PostPlatform,
    status: PostStatus,
    scheduledAt: int,
    artistId: string,
    artistName: string,
    artistColor: string)

  /** The calendar query: month (0..11), year and three optional equality filters. */
  datatype CalendarFilters = CalendarFilters(
    artistId: Option<string>,
    platform: Option<PostPlatform>,
    status: Option<PostStatus>,
    month: int,
    year: int)

  /** The quota snapshot the client shows. */
  datatype UsageInfo = UsageInfo(dailyLimit: int, usedToday: int, remaining: int, isEnabled: bool)

  /** The usage part of a chat response. */
  datatype ResponseUsage = ResponseUsage(usedToday: int, dailyLimit: int, remaining: int)

  /** A successful chat response as the client receives it. */
  datatype ChatResponse = ChatResponse(sessionId: string, message: string, usage: ResponseUsage)

  /** The speaker of a chat message. */
  datatype ChatRole = SystemRole | UserSpeaker | AssistantSpeaker

  function ChatRoleName(r: ChatRole): string {
    match r
    case SystemRole => "system"
    case UserSpeaker => "user"
    case AssistantSpeaker => "assistant"
  }
}

=== FILE: post_actions.dfy ===
/**
 * The workflow buttons on a post: who is offered which transition, what a
 * finished action does to the displayed post, and the reject form's guard.
 */
module PostActions {
  import opened Wrappers
  import opened Enums
  import opened Errors
  import opened Models
  import opened Validation
  import Api

  /** The signed-in viewer as the auth store holds it. */
  datatype Viewer = Viewer(isStaff: bool, artist: Option<Artist>)

  /** The viewer's artist profile is the post's artist. */
  predicate IsOwner(v: Viewer, d: PostWithDetails) {
    v.artist.Some? && v.artist.value.id == d.post.artistId
  }

  /** Staff may take a post along the workflow's edge into review. */
  function CanSendForReview(v: Viewer, d: PostWithDetails): (b: bool)
    ensures b <==> v.isStaff && WorkflowEdge(d.post.status, InReview)
  {
    v.isStaff && d.post.status == Draft
  }

  /** The post's own artist may take it along either edge out of review. */
  function CanApproveReject(v: Viewer, d: PostWithDetails): (b: bool)
    ensures b <==> IsOwner(v, d) && WorkflowEdge(d.post.status, Approved)
    ensures b <==> IsOwner(v, d) && WorkflowEdge(d.post.status, Rejected)
  {
    IsOwner(v, d) && d.post.status == InReview
  }

  /** Staff may take a post along the workflow's edge into publication. */
  function CanPublish(v: Viewer, d: PostWithDetails): (b: bool)
    ensures b <==> v.isStaff && WorkflowEdge(d.post.status, Published)
  {
    v.isStaff && d.post.status == Approved
  }

  /** The buttons of the component. */
  datatype Action = SendAction | ApproveAction | RejectAction | PublishAction

  /** The buttons offered; the component renders nothing when there are none. */
  function Offered(v: Viewer, d: PostWithDetails): (r: set<Action>)
    ensures SendAction in r <==> v.isStaff && d.post.status == Draft
    ensures ApproveAction in r <==> RejectAction in r
    ensures ApproveAction in r <==> v.artist.Some? && v.artist.value.id == d.post.artistId
                                    && d.post.status == InReview
    ensures PublishAction in r <==> v.isStaff && d.post.status == Approved
  {
    (if CanSendForReview(v, d) then {SendAction} else {})
    + (if CanApproveReject(v, d) then {ApproveAction, RejectAction} else {})
    + (if CanPublish(v, d) then {PublishAction} else {})
  }

  /** The intended workflow: draft to in review, in review to approved or
      rejected, approved to published. */
  predicate WorkflowEdge(from: PostStatus, to: PostStatus) {
    (from == Draft && to == InReview)
    || (from == InReview && (to == Approved || to == Rejected))
    || (from == Approved && to == Published)
  }

  /** The update each button sends. */
  function ActionUpdate(a: Action, reason: string, now: int): Api.PostUpdate {
    match a
    case SendAction => Api.SendForReview
    case ApproveAction => Api.Approve
    case RejectAction => Api.Reject(reason)
    case PublishAction => Api.MarkPublished(now)
  }

  /** The gating realises the workflow: every offered button moves the post
      along a workflow edge. */
  lemma GatingFollowsWorkflow(v: Viewer, d: PostWithDetails, a: Action, reason: string, now: int)
    ensures a in Offered(v, d) ==> WorkflowEdge(d.post.status, ActionUpdate(a, reason, now).status)
  {
  }

  /** Conversely, each workflow edge is offered: to staff for the two staff
      steps, to the post's own artist for approve and reject. */
  lemma EveryEdgeOffered(d: PostWithDetails, owner: Artist, to: PostStatus)
    requires WorkflowEdge(d.post.status, to)
    requires owner.id == d.post.artistId
    ensures exists a :: a in Offered(Viewer(true, None), d) + Offered(Viewer(false, Some(owner)), d)
                        && ActionUpdate(a, "", 0).status == to
  {
    var staff, artist := Offered(Viewer(true, None), d), Offered(Viewer(false, Some(owner)), d);
    var a := if d.post.status == Draft then SendAction
             else if d.post.status == Approved then PublishAction
             else if to == Approved then ApproveAction
             else RejectAction;
    assert a in staff + artist;
    assert ActionUpdate(a, "", 0).status == to;
  }

  /** At most one group is enabled, since each needs a different status. */
  lemma AtMostOneGroup(v: Viewer, d: PostWithDetails)
    ensures !(CanSendForReview(v, d) && CanApproveReject(v, d))
    ensures !(CanSendForReview(v, d) && CanPublish(v, d))
    ensures !(CanApproveReject(v, d) && CanPublish(v, d))
  {
  }

  /** Rejected and published posts render no actions. */
  lemma TerminalStatesOfferNothing(v: Viewer, d: PostWithDetails)
    requires d.post.status == Rejected || d.post.status == Published
    ensures Offered(v, d) == {}
  {
  }

  /** A viewer without an artist profile can never approve or reject. */
  lemma NoArtistNoApproval(isStaff: bool, d: PostWithDetails)
    ensures ApproveAction !in Offered(Viewer(isStaff, None), d)
    ensures RejectAction !in Offered(Viewer(isStaff, None), d)
  {
  }

  /** `{...post, ...row}`: the row's columns replace the post's; the joined
      display fields, which the row lacks, are kept. */
  function Merge(d: PostWithDetails, row: Post): (r: PostWithDetails)
    ensures r.post == row
    ensures r.(post := d.post) == d
  {
    d.(post := row)
  }

  /** Merging is absorbed by a later merge, and merging the post's own row
      changes nothing. */
  lemma MergeLaws(d: PostWithDetails, a: Post, b: Post)
    ensures Merge(Merge(d, a), b) == Merge(d, b)
    ensures Merge(d, d.post) == d
  {
  }

  /** What a finished action leaves: the updated post, or the message shown
      in the error toast. */
  datatype Outcome = Updated(post: PostWithDetails) | Failed(message: string)

  /** `doAction`: run the transition and merge the row, or report the error.
      `stored` is the post's row as the database holds it when the update
      runs, which may differ from the displayed one (an edit made elsewhere
      since the page loaded); the merged row is the one the database returns. */
  function DoAction(d: PostWithDetails, stored: Post, u: Api.PostUpdate, w: Api.WriteOutcome, offline: bool)
    : (r: Outcome)
    ensures r.Updated? <==> w.Stored?
    ensures r.Updated? ==> r.post == Merge(d, Api.ApplyUpdate(stored, u))
    ensures w.Refused? ==> r == Failed(UserMessage(MapSupabaseError(w.why, offline)))
  {
    match Api.Transition(stored, u, w, offline)
    case Ok(row) => Updated(Merge(d, row))
    case Err(e) => Failed(UserMessage(e))
  }

  /** A stored action keeps the display fields, sets the columns of its
      update, and shows every other column as the database holds it; so
      when the stored row is the displayed one, exactly the update's
      columns change, and otherwise the other edits show up too. */
  lemma ActionChangesOnlyItsColumns(d: PostWithDetails, stored: Post, a: Action, reason: string, now: int,
                                    offline: bool)
    ensures var r := DoAction(d, stored, ActionUpdate(a, reason, now), Api.Stored, offline);
      r.Updated? && r.post.(post := d.post) == d
      && r.post.post.status == ActionUpdate(a, reason, now).status
      && r.post.post.(status := stored.status, rejectionReason := stored.rejectionReason,
                      publishedAt := stored.publishedAt) == stored
    ensures stored == d.post ==>
      var r := DoAction(d, stored, ActionUpdate(a, reason, now), Api.Stored, offline);
      r.post.post.(status := d.post.status, rejectionReason := d.post.rejectionReason,
                   publishedAt := d.post.publishedAt) == d.post
  {
  }

  /** The reject form: a reason failing the schema sends nothing (None);
      otherwise the rejection is sent with that reason. */
  function SubmitReject(d: PostWithDetails, stored: Post, reason: string, w: Api.WriteOutcome, offline: bool)
    : (r: Option<Outcome>)
    ensures r.Some? <==> 1 <= |reason| <= 500
    ensures r.Some? && r.value.Updated? ==>
      r.value.post.post.status == Rejected && r.value.post.post.rejectionReason == Some(reason)
  {
    if RejectReasonAccepted(reason) then Some(DoAction(d, stored, Api.Reject(reason), w, offline))
    else None
  }
}

=== FILE: routes.dfy ===
/**
 * The route table: the path patterns, the builders used for navigation,
 * and how a builder's path relates to its pattern: it is the pattern with
 * the parameters written in, and matching the pattern against it gives the
 * parameters back.
 */
module Routes {
  import opened Wrappers
  import opened Strings

  /** Each parameterised pattern is written as its fixed prefix followed by
      its placeholders; the values are "/posts/:id", "/toolkit/:slug",
      "/ai-chat/admin/:artistId", "/ai-chat/admin/:artistId/:sessionId",
      "/ai-chat/config/:artistId" and "/admin/ai-agents/:artistId". */
  const PostDetailPattern: string := "/posts/" + ":id"
  const PostNew: string := "/posts/new"
  const ToolkitSectionPattern: string := "/toolkit/" + ":slug"
  const AiChatAdminArtistPattern: string := "/ai-chat/admin/" + ":artistId"
  const AiChatAdminSessionPattern: string := AiChatAdminArtistPattern + "/" + ":sessionId"
  const AiChatConfigPattern: string := "/ai-chat/config/" + ":artistId"
  const AiAgentConfigPattern: string := "/admin/ai-agents/" + ":artistId"

  function PostDetail(id: string): string { "/posts/" + id }
  function ToolkitSection(slug: string): string { "/toolkit/" + slug }
  function AiChatAdmin(artistId: string): string { "/ai-chat/admin/" + artistId }
  function AiChatAdminSession(artistId: string, sessionId: string): string {
    "/ai-chat/admin/" + artistId + "/" + sessionId
  }
  function AiChatConfig(artistId: string): string { "/ai-chat/config/" + artistId }
  function AiAgentConfig(artistId: string): string { "/admin/ai-agents/" + artistId }

  // ------------------------------------------------------------ substitution

  /** The pattern with the first occurrence of `key` replaced by `value`. */
  function Substitute(pattern: string, key: string, value: string): string
    decreases |pattern|
  {
    if |key| == 0 || |pattern| < |key| then pattern
    else if pattern[..|key|] == key then value + pattern[|key|..]
    else [pattern[0]] + Substitute(pattern[1..], key, value)
  }

  /** A parameter placeholder after a colon-free prefix is the first one. */
  lemma {:induction false} SubstituteAfter(prefix: string, key: string, rest: string, value: string)
    requires |key| > 0 && key[0] == ':' && ':' !in prefix
    ensures Substitute(prefix + key + rest, key, value) == prefix + value + rest
    decreases |prefix|
  {
    var p := prefix + key + rest;
    if |prefix| == 0 {
      assert p == key + rest;
      assert p[..|key|] == key;
      assert p[|key|..] == rest;
    } else {
      var tail := prefix[1..];
      assert prefix == [prefix[0]] + tail;
      Assoc([prefix[0]], tail, key);
      Assoc([prefix[0]], tail + key, rest);
      assert p == [prefix[0]] + (tail + key + rest);
      assert p[..|key|] != key by {
        assert p[..|key|][0] == prefix[0] && prefix[0] != ':';
      }
      assert p[1..] == tail + key + rest;
      assert ':' !in tail;
      SubstituteAfter(tail, key, rest, value);
      Assoc([prefix[0]], tail, value);
      Assoc([prefix[0]], tail + value, rest);
    }
  }

  /** Every builder writes its arguments into its pattern's placeholders. */
  lemma PostDetailFillsPattern(id: string)
    ensures PostDetail(id) == Substitute(PostDetailPattern, ":id", id)
  {
    assert PostDetailPattern == "/posts/" + ":id" + "";
    SubstituteAfter("/posts/", ":id", "", id);
  }

  lemma ToolkitSectionFillsPattern(slug: string)
    ensures ToolkitSection(slug) == Substitute(ToolkitSectionPattern, ":slug", slug)
  {
    assert ToolkitSectionPattern == "/toolkit/" + ":slug" + "";
    SubstituteAfter("/toolkit/", ":slug", "", slug);
  }

  lemma AiChatAdminFillsPattern(artistId: string)
    ensures AiChatAdmin(artistId) == Substitute(AiChatAdminArtistPattern, ":artistId", artistId)
  {
    assert AiChatAdminArtistPattern == "/ai-chat/admin/" + ":artistId" + "";
    SubstituteAfter("/ai-chat/admin/", ":artistId", "", artistId);
  }

  lemma AiChatConfigFillsPattern(artistId: string)
    ensures AiChatConfig(artistId) == Substitute(AiChatConfigPattern, ":artistId", artistId)
  {
    assert AiChatConfigPattern == "/ai-chat/config/" + ":artistId" + "";
    SubstituteAfter("/ai-chat/config/", ":artistId", "", artistId);
  }

  lemma AiAgentConfigFillsPattern(artistId: string)
    ensures AiAgentConfig(artistId) == Substitute(AiAgentConfigPattern, ":artistId", artistId)
  {
    assert AiAgentConfigPattern == "/admin/ai-agents/" + ":artistId" + "";
    SubstituteAfter("/admin/ai-agents/", ":artistId", "", artistId);
  }

  /** With a colon-free artist id the session path is the pattern with both
      placeholders filled, the artist first. */
  lemma SessionBuilderFillsPattern(artistId: string, sessionId: string)
    requires ':' !in artistId
    ensures AiChatAdminSession(artistId, sessionId)
            == Substitute(Substitute(AiChatAdminSessionPattern, ":artistId", artistId), ":sessionId", sessionId)
  {
    assert AiChatAdminSessionPattern == "/ai-chat/admin/" + ":artistId" + "/:sessionId";
    SubstituteAfter("/ai-chat/admin/", ":artistId", "/:sessionId", artistId);
    var head := "/ai-chat/admin/" + artistId + "/";
    assert "/ai-chat/admin/" + artistId + "/:sessionId" == head + ":sessionId" + "";
    SubstituteAfter(head, ":sessionId", "", sessionId);
  }

  // ------------------------------------------------------------ matching

  /** Segment-wise matching: a `:name` segment binds any non-empty segment,
      any other segment must be equal. */
  function MatchSegments(ps: seq<string>, ss: seq<string>): Option<map<string, string>>
    decreases |ps|
  {
    if |ps| != |ss| then None
    else if |ps| == 0 then Some(map[])
    else
      match MatchSegments(ps[1..], ss[1..])
      case None => None
      case Some(m) =>
        if |ps[0]| > 0 && ps[0][0] == ':' then (if ss[0] != "" then Some(m[ps[0][1..] := ss[0]]) else None)
        else if ps[0] == ss[0] then Some(m)
        else None
  }

  /** The parameters a pattern extracts from a path, or None when it does not match. */
  function Match(pattern: string, path: string): Option<map<string, string>> {
    MatchSegments(SplitOn(pattern, '/'), SplitOn(path, '/'))
  }

  /** A usable parameter value: one non-empty path segment. */
  predicate Segment(v: string) {
    v != "" && '/' !in v
  }

  lemma JoinedSegments(parts: seq<string>)
    requires |parts| >= 1
    requires forall i :: 0 <= i < |parts| ==> '/' !in parts[i]
    ensures SplitOn(Join(parts, "/"), '/') == parts
  {
    SplitJoin(parts, '/');
  }

  /** A literal segment matches itself and binds nothing. */
  lemma MatchLiteral(a: string, ps: seq<string>, ss: seq<string>)
    requires |a| == 0 || a[0] != ':'
    ensures MatchSegments([a] + ps, [a] + ss) == MatchSegments(ps, ss)
  {
    assert ([a] + ps)[1..] == ps && ([a] + ss)[1..] == ss;
  }

  /** A `:name` segment binds the path's segment under `name`. */
  lemma MatchParam(name: string, v: string, ps: seq<string>, ss: seq<string>)
    requires v != ""
    ensures MatchSegments([":" + name] + ps, [v] + ss)
            == (if MatchSegments(ps, ss).Some? then Some(MatchSegments(ps, ss).value[name := v]) else None)
  {
    assert ([":" + name] + ps)[1..] == ps && ([v] + ss)[1..] == ss;
    assert (":" + name)[1..] == name;
  }

  /** The segments of a path with one parameter after `/base/`. */
  lemma OneParamSegments(base: string, v: string)
    requires '/' !in base && '/' !in v
    ensures SplitOn("/" + base + "/" + v, '/') == ["", base, v]
  {
    assert "/" + base + "/" + v == Join(["", base, v], "/");
    JoinedSegments(["", base, v]);
  }

  /** Matching `/base/:name` against `/base/v` gives back `v`. */
  lemma OneParamMatch(pattern: string, path: string, base: string, name: string, v: string)
    requires '/' !in base && '/' !in name && Segment(v) && (|base| == 0 || base[0] != ':')
    requires pattern == "/" + base + "/:" + name && path == "/" + base + "/" + v
    ensures Match(pattern, path) == Some(map[name := v])
  {
    assert "/" + base + "/:" + name == "/" + base + "/" + (":" + name);
    OneParamSegments(base, ":" + name);
    OneParamSegments(base, v);
    MatchParam(name, v, [], []);
    MatchLiteral(base, [":" + name], [v]);
    MatchLiteral("", [base, ":" + name], [base, v]);
    assert ["", base, ":" + name] == [""] + ([base] + [":" + name]);
    assert ["", base, v] == [""] + ([base] + [v]);
  }

  /** Matching each pattern against its builder's path gives back exactly
      the arguments. */
  lemma PostDetailMatches(id: string)
    requires Segment(id)
    ensures Match(PostDetailPattern, PostDetail(id)) == Some(map["id" := id])
  {
    OneParamMatch(PostDetailPattern, PostDetail(id), "posts", "id", id);
  }

  lemma ToolkitSectionMatches(slug: string)
    requires Segment(slug)
    ensures Match(ToolkitSectionPattern, ToolkitSection(slug)) == Some(map["slug" := slug])
  {
    OneParamMatch(ToolkitSectionPattern, ToolkitSection(slug), "toolkit", "slug", slug);
  }

  lemma JoinCons(a: string, parts: seq<string>, sep: string)
    requires |parts| >= 1
    ensures Join([a] + parts, sep) == a + sep + Join(parts, sep)
  {
    assert ([a] + parts)[1..] == parts;
  }

  /** No segment of the list contains a slash. */
  predicate SlashFree(parts: seq<string>) {
    forall i :: 0 <= i < |parts| ==> '/' !in parts[i]
  }

  /** Joining behind two fixed segments. */
  lemma JoinTwoBase(b1: string, b2: string, tail: seq<string>)
    requires |tail| >= 1
    ensures Join(["", b1, b2] + tail, "/") == "/" + b1 + "/" + b2 + "/" + Join(tail, "/")
  {
    var j := Join(tail, "/");
    var p2 := [b2] + tail;
    var p1 := [b1] + p2;
    JoinCons(b2, tail, "/");
    JoinCons(b1, p2, "/");
    JoinCons("", p1, "/");
    assert ["", b1, b2] + tail == [""] + p1;
    var x := "/" + b1 + "/";
    calc {
      Join([""] + p1, "/");
      "" + "/" + (b1 + "/" + (b2 + "/" + j));
      { assert "" + "/" == "/"; Assoc("/", b1 + "/", b2 + "/" + j); Assoc("/", b1, "/"); }
      x + (b2 + "/" + j);
      { Assoc(x, b2 + "/", j); Assoc(x, b2, "/"); }
      x + b2 + "/" + j;
    }
  }

  lemma Assoc(a: string, b: string, c: string)
    ensures a + (b + c) == a + b + c
  {
  }

  /** The segments of `/b1/b2/` followed by joined segments. */
  lemma TwoBaseSegments(b1: string, b2: string, tail: seq<string>)
    requires '/' !in b1 && '/' !in b2 && |tail| >= 1 && SlashFree(tail)
    ensures SplitOn("/" + b1 + "/" + b2 + "/" + Join(tail, "/"), '/') == ["", b1, b2] + tail
  {
    var parts := ["", b1, b2] + tail;
    JoinTwoBase(b1, b2, tail);
    forall i | 0 <= i < |parts| ensures '/' !in parts[i] {
      if i >= 3 {
        assert parts[i] == tail[i - 3];
      }
    }
    JoinedSegments(parts);
  }

  /** Under two literal segments, matching comes down to the tails. */
  lemma TwoBaseMatch(pattern: string, path: string, b1: string, b2: string,
                     tailPattern: seq<string>, tailPath: seq<string>)
    requires '/' !in b1 && '/' !in b2 && |b1| > 0 && b1[0] != ':' && |b2| > 0 && b2[0] != ':'
    requires |tailPattern| >= 1 && SlashFree(tailPattern) && |tailPath| >= 1 && SlashFree(tailPath)
    requires pattern == "/" + b1 + "/" + b2 + "/" + Join(tailPattern, "/")
    requires path == "/" + b1 + "/" + b2 + "/" + Join(tailPath, "/")
    ensures Match(pattern, path) == MatchSegments(tailPattern, tailPath)
  {
    TwoBaseSegments(b1, b2, tailPattern);
    TwoBaseSegments(b1, b2, tailPath);
    TailMatch(b1, b2, tailPattern, tailPath);
  }

  lemma TailMatch(b1: string, b2: string, tp: seq<string>, ts: seq<string>)
    requires |b1| > 0 && b1[0] != ':' && |b2| > 0 && b2[0] != ':'
    ensures MatchSegments(["", b1, b2] + tp, ["", b1, b2] + ts) == MatchSegments(tp, ts)
  {
    var p2, s2 := [b2] + tp, [b2] + ts;
    var p1, s1 := [b1] + p2, [b1] + s2;
    MatchLiteral(b2, tp, ts);
    MatchLiteral(b1, p2, s2);
    MatchLiteral("", p1, s1);
    assert ["", b1, b2] + tp == [""] + p1;
    assert ["", b1, b2] + ts == [""] + s1;
  }

  lemma AiChatAdminMatches(artistId: string)
    requires Segment(artistId)
    ensures Match(AiChatAdminArtistPattern, AiChatAdmin(artistId)) == Some(map["artistId" := artistId])
  {
    var key := ":" + "artistId";
    assert "/" + "ai-chat" + "/" + "admin" + "/" == "/ai-chat/admin/";
    assert AiChatAdminArtistPattern == "/" + "ai-chat" + "/" + "admin" + "/" + Join([key], "/");
    TwoBaseMatch(AiChatAdminArtistPattern, AiChatAdmin(artistId), "ai-chat", "admin", [key], [artistId]);
    MatchParam("artistId", artistId, [], []);
  }

  lemma AiChatAdminSessionMatches(artistId: string, sessionId: string)
    requires Segment(artistId) && Segment(sessionId)
    ensures Match(AiChatAdminSessionPattern, AiChatAdminSession(artistId, sessionId))
            == Some(map["artistId" := artistId, "sessionId" := sessionId])
  {
    var artistKey, sessionKey := ":" + "artistId", ":" + "sessionId";
    JoinCons(artistKey, [sessionKey], "/");
    JoinCons(artistId, [sessionId], "/");
    assert AiChatAdminSessionPattern
           == "/" + "ai-chat" + "/" + "admin" + "/" + Join([artistKey, sessionKey], "/");
    TwoBaseMatch(AiChatAdminSessionPattern, AiChatAdminSession(artistId, sessionId), "ai-chat", "admin",
                 [artistKey, sessionKey], [artistId, sessionId]);
    MatchParam("sessionId", sessionId, [], []);
    assert [artistKey, sessionKey] == [artistKey] + [sessionKey];
    assert [artistId, sessionId] == [artistId] + [sessionId];
    MatchParam("artistId", artistId, [sessionKey], [sessionId]);
    assert map["sessionId" := sessionId]["artistId" := artistId]
           == map["artistId" := artistId, "sessionId" := sessionId];
  }

  lemma AiChatConfigMatches(artistId: string)
    requires Segment(artistId)
    ensures Match(AiChatConfigPattern, AiChatConfig(artistId)) == Some(map["artistId" := artistId])
  {
    var key := ":" + "artistId";
    assert "/" + "ai-chat" + "/" + "config" + "/" == "/ai-chat/config/";
    assert AiChatConfigPattern == "/" + "ai-chat" + "/" + "config" + "/" + Join([key], "/");
    TwoBaseMatch(AiChatConfigPattern, AiChatConfig(artistId), "ai-chat", "config", [key], [artistId]);
    MatchParam("artistId", artistId, [], []);
  }

  lemma AiAgentConfigMatches(artistId: string)
    requires Segment(artistId)
    ensures Match(AiAgentConfigPattern, AiAgentConfig(artistId)) == Some(map["artistId" := artistId])
  {
    var key := ":" + "artistId";
    assert "/" + "admin" + "/" + "ai-agents" + "/" == "/admin/ai-agents/";
    assert AiAgentConfigPattern == "/" + "admin" + "/" + "ai-agents" + "/" + Join([key], "/");
    TwoBaseMatch(AiAgentConfigPattern, AiAgentConfig(artistId), "admin", "ai-agents", [key], [artistId]);
    MatchParam("artistId", artistId, [], []);
  }

  /** The detail builder with the id "new" produces the new-post path, which
      the detail pattern also matches: the two routes collide on it. */
  lemma NewPostCollision()
    ensures PostDetail("new") == PostNew
    ensures Match(PostDetailPattern, PostNew) == Some(map["id" := "new"])
  {
    PostDetailMatches("new");
  }
}

=== FILE: seqs.dfy ===
/**
 * Sequence operations the modelled queries and reducers share: filtering
 * (`Array.prototype.filter`, or a query's `.eq(...)`), and the two orderings
 * the backend applies to query results: ascending by an integer timestamp
 * (`order('created_at')`, `order('scheduled_at')`) and ascending by a text
 * column (`order('name')`). The sorts are insertion sorts; ties keep their
 * input order.
 */
module Seqs {

  /** The elements satisfying `p`, in their original order. */
  function Filter<T>(s: seq<T>, p: T -> bool): (r: seq<T>)
    ensures |r| <= |s|
    ensures forall i :: 0 <= i < |r| ==> r[i] in s && p(r[i])
    ensures forall i :: 0 <= i < |s| && p(s[i]) ==> s[i] in r
    decreases |s|
  {
    if |s| == 0 then []
    else if p(s[0]) then [s[0]] + Filter(s[1..], p)
    else Filter(s[1..], p)
  }

  /** Filtering keeps a sequence whose every element passes. */
  lemma {:induction false} FilterKeepsAll<T>(s: seq<T>, p: T -> bool)
    requires forall i :: 0 <= i < |s| ==> p(s[i])
    ensures Filter(s, p) == s
    decreases |s|
  {
    if |s| > 0 {
      FilterKeepsAll(s[1..], p);
      assert [s[0]] + s[1..] == s;
    }
  }

  /** Filtering distributes over concatenation. */
  lemma {:induction false} FilterAppend<T>(s: seq<T>, t: seq<T>, p: T -> bool)
    ensures Filter(s + t, p) == Filter(s, p) + Filter(t, p)
    decreases |s|
  {
    if |s| > 0 {
      assert (s + t)[1..] == s[1..] + t;
      FilterAppend(s[1..], t, p);
    } else {
      assert s + t == t;
    }
  }

  /** Elements are kept with their multiplicity. */
  lemma {:induction false} FilterCount<T>(s: seq<T>, p: T -> bool, x: T)
    ensures multiset(Filter(s, p))[x] == if p(x) then multiset(s)[x] else 0
    decreases |s|
  {
    if |s| > 0 {
      FilterCount(s[1..], p, x);
      assert s == [s[0]] + s[1..];
    }
  }

  /** Index `i` is the one element of `s` satisfying `p`. */
  predicate OnlyMatch<T>(s: seq<T>, p: T -> bool, i: int) {
    0 <= i < |s| && p(s[i]) && forall j :: 0 <= j < |s| && j != i ==> !p(s[j])
  }

  /** Filtering keeps nothing when nothing matches. */
  lemma {:induction false} FilterNone<T>(s: seq<T>, p: T -> bool)
    requires forall k :: 0 <= k < |s| ==> !p(s[k])
    ensures Filter(s, p) == []
    decreases |s|
  {
    if |s| > 0 {
      FilterNone(s[1..], p);
    }
  }

  /** A sole match is all that filtering keeps. */
  lemma {:induction false} FilterSole<T>(s: seq<T>, p: T -> bool, i: int)
    requires OnlyMatch(s, p, i)
    ensures Filter(s, p) == [s[i]]
    decreases |s|
  {
    if i == 0 {
      forall k | 0 <= k < |s[1..]| ensures !p(s[1..][k]) {
        assert s[1..][k] == s[k + 1];
      }
      FilterNone(s[1..], p);
    } else {
      assert !p(s[0]);
      assert OnlyMatch(s[1..], p, i - 1) by {
        forall j | 0 <= j < |s[1..]| && j != i - 1 ensures !p(s[1..][j]) {
          assert s[1..][j] == s[j + 1];
        }
      }
      FilterSole(s[1..], p, i - 1);
    }
  }

  /** Two matches leave at least two elements. */
  lemma {:induction false} FilterTwo<T>(s: seq<T>, p: T -> bool, i: int, j: int)
    requires 0 <= i < j < |s| && p(s[i]) && p(s[j])
    ensures |Filter(s, p)| >= 2
    decreases |s|
  {
    if i == 0 {
      assert s[1..][j - 1] == s[j];
      assert s[j] in Filter(s[1..], p);
    } else {
      assert s[1..][i - 1] == s[i] && s[1..][j - 1] == s[j];
      FilterTwo(s[1..], p, i - 1, j - 1);
    }
  }

  /** Filtering keeps exactly one element iff exactly one index matches. */
  lemma FilterOne<T>(s: seq<T>, p: T -> bool)
    ensures |Filter(s, p)| == 1 <==> exists i :: OnlyMatch(s, p, i)
  {
    if |Filter(s, p)| == 1 {
      var i :| 0 <= i < |s| && s[i] == Filter(s, p)[0];
      forall j | 0 <= j < |s| && j != i ensures !p(s[j]) {
        if p(s[j]) {
          if i < j { FilterTwo(s, p, i, j); } else { FilterTwo(s, p, j, i); }
        }
      }
      assert OnlyMatch(s, p, i);
    }
    if exists i :: OnlyMatch(s, p, i) {
      var i :| OnlyMatch(s, p, i);
      FilterSole(s, p, i);
    }
  }

  predicate SortedBy<T>(s: seq<T>, key: T -> int) {
    forall i, j :: 0 <= i < j < |s| ==> key(s[i]) <= key(s[j])
  }

  /** A head no greater than everything after it extends a sorted list. */
  lemma ConsSorted<T>(h: T, t: seq<T>, key: T -> int)
    requires SortedBy(t, key)
    requires forall k :: 0 <= k < |t| ==> key(h) <= key(t[k])
    ensures SortedBy([h] + t, key)
  {
    forall i, j | 0 <= i < j < |[h] + t| ensures key(([h] + t)[i]) <= key(([h] + t)[j]) {
      if i > 0 {
        assert ([h] + t)[i] == t[i - 1];
      }
      assert ([h] + t)[j] == t[j - 1];
    }
  }

  /** The first of a sorted list is a lower bound for `x` and the rest. */
  lemma HeadBelow<T>(s: seq<T>, x: T, rest: seq<T>, key: T -> int)
    requires |s| > 0 && SortedBy(s, key) && key(s[0]) <= key(x)
    requires forall k :: 0 <= k < |rest| ==> rest[k] == x || rest[k] in s[1..]
    ensures forall k :: 0 <= k < |rest| ==> key(s[0]) <= key(rest[k])
  {
    forall k | 0 <= k < |rest| ensures key(s[0]) <= key(rest[k]) {
      if rest[k] != x {
        var m :| 0 <= m < |s[1..]| && s[1..][m] == rest[k];
        assert s[m + 1] == rest[k];
      }
    }
  }

  function InsertBy<T>(x: T, s: seq<T>, key: T -> int): (r: seq<T>)
    requires SortedBy(s, key)
    ensures SortedBy(r, key)
    ensures multiset(r) == multiset(s) + multiset{x}
    ensures forall k :: 0 <= k < |r| ==> r[k] == x || r[k] in s
    decreases |s|
  {
    if |s| == 0 then [x]
    else if key(x) <= key(s[0]) then
      assert forall k :: 0 <= k < |s| ==> key(x) <= key(s[k]) by {
        forall k | 0 < k < |s| ensures key(x) <= key(s[k]) {
          assert key(s[0]) <= key(s[k]);
        }
      }
      ConsSorted(x, s, key);
      [x] + s
    else
      var rest := InsertBy(x, s[1..], key);
      HeadBelow(s, x, rest, key);
      ConsSorted(s[0], rest, key);
      assert s == [s[0]] + s[1..];
      assert forall k :: 0 <= k < |rest| ==> rest[k] in s[1..] ==> rest[k] in s;
      [s[0]] + rest
  }

  /** The rows in ascending key order: a sorted permutation of the input. */
  function SortBy<T>(s: seq<T>, key: T -> int): (r: seq<T>)
    ensures SortedBy(r, key)
    ensures multiset(r) == multiset(s)
    ensures |r| == |s|
    decreases |s|
  {
    if |s| == 0 then []
    else
      assert s == [s[0]] + s[1..];
      InsertBy(s[0], SortBy(s[1..], key), key)
  }

  /** Lexicographic order on code points: the order of a text column under
      a byte-wise collation. */
  predicate LexLe(a: string, b: string)
    decreases |a|
  {
    |a| == 0 || (|b| > 0 && (a[0] < b[0] || (a[0] == b[0] && LexLe(a[1..], b[1..]))))
  }

  lemma {:induction false} LexTotal(a: string, b: string)
    ensures LexLe(a, b) || LexLe(b, a)
    decreases |a|
  {
    if |a| > 0 && |b| > 0 && a[0] == b[0] {
      LexTotal(a[1..], b[1..]);
    }
  }

  lemma {:induction false} LexTransitive(a: string, b: string, c: string)
    requires LexLe(a, b) && LexLe(b, c)
    ensures LexLe(a, c)
    decreases |a|
  {
    if |a| > 0 && a[0] == b[0] && b[0] == c[0] {
      LexTransitive(a[1..], b[1..], c[1..]);
    }
  }

  predicate SortedByText<T>(s: seq<T>, key: T -> string) {
    forall i, j :: 0 <= i < j < |s| ==> LexLe(key(s[i]), key(s[j]))
  }

  function InsertByText<T>(x: T, s: seq<T>, key: T -> string): (r: seq<T>)
    requires SortedByText(s, key)
    ensures SortedByText(r, key)
    ensures multiset(r) == multiset(s) + multiset{x}
    ensures forall k :: 0 <= k < |r| ==> r[k] == x || r[k] in s
    decreases |s|
  {
    if |s| == 0 then [x]
    else if LexLe(key(x), key(s[0])) then
      assert forall k :: 0 <= k < |s| ==> LexLe(key(x), key(s[k])) by {
        forall k | 0 < k < |s| ensures LexLe(key(x), key(s[k])) {
          LexTransitive(key(x), key(s[0]), key(s[k]));
        }
      }
      [x] + s
    else
      LexTotal(key(x), key(s[0]));
      var rest := InsertByText(x, s[1..], key);
      assert forall k :: 0 <= k < |rest| ==> LexLe(key(s[0]), key(rest[k])) by {
        forall k | 0 <= k < |rest| ensures LexLe(key(s[0]), key(rest[k])) {
          if rest[k] != x {
            var m :| 1 <= m < |s| && s[m] == rest[k];
          }
        }
      }
      assert s == [s[0]] + s[1..];
      [s[0]] + rest
  }

  /** The rows in ascending text order: a sorted permutation of the input. */
  function SortByText<T>(s: seq<T>, key: T -> string): (r: seq<T>)
    ensures SortedByText(r, key)
    ensures multiset(r) == multiset(s)
    ensures |r| == |s|
    decreases |s|
  {
    if |s| == 0 then []
    else
      assert s == [s[0]] + s[1..];
      InsertByText(s[0], SortByText(s[1..], key), key)
  }
}

=== FILE: slug.dfy ===
/**
 * The guideline-section form: slug generation from the title, the title
 * handler that keeps the slug in step, and the checks before the insert.
 */
module SectionForm {
  import opened Wrappers
  import opened Strings

  // ------------------------------------------------------------ generateSlug

  /** `[a-z0-9]`. */
  predicate IsAlnum(c: char) {
    ('a' <= c <= 'z') || IsDigit(c)
  }

  /** The slug alphabet `[a-z0-9-]`. */
  predicate IsSlugChar(c: char) {
    IsAlnum(c) || c == '-'
  }

  /** `toLowerCase` on ASCII and Latin-1 letters: `A`-`Z` and `À`-`Þ`
      (except `×`) move up by 32. */
  function Lower(c: char): (r: char)
    ensures 'A' <= c <= 'Z' ==> 'a' <= r <= 'z'
    ensures !('A' <= c <= 'Z') && !('À' <= c <= 'Þ') ==> r == c
  {
    if ('A' <= c <= 'Z') || ('À' <= c <= 'Þ' && c != '×') then (c as int + 32) as char else c
  }

  /** The five accent replacements: `[àáâãäå]`, `[èéêë]`, `[ìíîï]`,
      `[òóôõö]` and `[ùúûü]` become their base vowel. */
  function Unaccent(c: char): char {
    if 'à' <= c <= 'å' then 'a'
    else if 'è' <= c <= 'ë' then 'e'
    else if 'ì' <= c <= 'ï' then 'i'
    else if 'ò' <= c <= 'ö' then 'o'
    else if 'ù' <= c <= 'ü' then 'u'
    else c
  }

  /** The character steps before the dash replacement. */
  function Fold(c: char): char {
    Unaccent(Lower(c))
  }

  function FoldAll(s: string): (r: string)
    ensures |r| == |s|
    ensures forall i :: 0 <= i < |s| ==> r[i] == Fold(s[i])
  {
    seq(|s|, i requires 0 <= i < |s| => Fold(s[i]))
  }

  /** No two consecutive dashes. */
  predicate NoDoubleDash(s: string) {
    forall i :: 0 <= i < |s| - 1 ==> !(s[i] == '-' && s[i + 1] == '-')
  }

  predicate AllSlugChars(s: string) {
    forall i :: 0 <= i < |s| ==> IsSlugChar(s[i])
  }

  /** The letters and digits of `s`, in order: what a slug must keep. */
  function Alnums(s: string): string
    decreases |s|
  {
    if |s| == 0 then ""
    else if IsAlnum(s[0]) then [s[0]] + Alnums(s[1..])
    else Alnums(s[1..])
  }

  lemma {:induction false} AlnumsAppend(a: string, b: string)
    ensures Alnums(a + b) == Alnums(a) + Alnums(b)
    decreases |a|
  {
    if |a| > 0 {
      assert (a + b)[1..] == a[1..] + b;
      AlnumsAppend(a[1..], b);
    } else {
      assert a + b == b;
    }
  }

  /** `.replace(/[^a-z0-9]+/g, '-')`: every maximal run of other characters
      becomes a single dash, and the letters and digits stay in order. */
  function Dashify(s: string): (r: string)
    ensures AllSlugChars(r) && NoDoubleDash(r)
    ensures |r| <= |s|
    ensures |s| > 0 ==> |r| > 0 && (r[0] == '-' <==> !IsAlnum(s[0]))
    ensures |s| > 0 ==> (r[|r| - 1] == '-' <==> !IsAlnum(s[|s| - 1]))
    ensures r == [] <==> s == []
    decreases |s|
  {
    if |s| == 0 then ""
    else
      var rest := Dashify(s[1..]);
      if IsAlnum(s[0]) then [s[0]] + rest
      else if |rest| > 0 && rest[0] == '-' then rest
      else "-" + rest
  }

  /** Dashifying keeps every letter and digit, in order. */
  lemma {:induction false} DashifyKeepsAlnums(s: string)
    ensures Alnums(Dashify(s)) == Alnums(s)
    decreases |s|
  {
    if |s| > 0 {
      DashifyKeepsAlnums(s[1..]);
      var rest := Dashify(s[1..]);
      if IsAlnum(s[0]) {
        assert Dashify(s) == [s[0]] + rest;
        assert ([s[0]] + rest)[1..] == rest;
      } else if !(|rest| > 0 && rest[0] == '-') {
        assert Dashify(s) == "-" + rest;
        assert ("-" + rest)[1..] == rest;
      }
    }
  }

  /** One letter or digit in front passes through. */
  lemma DashifyCons(c: char, t: string)
    requires IsAlnum(c)
    ensures Dashify([c] + t) == [c] + Dashify(t)
  {
    assert ([c] + t)[1..] == t;
  }

  /** Letters and digits pass through unchanged. */
  lemma {:induction false} DashifyKeepsAlnumRun(a: string, b: string)
    requires forall i :: 0 <= i < |a| ==> IsAlnum(a[i])
    ensures Dashify(a + b) == a + Dashify(b)
    decreases |a|
  {
    if |a| > 0 {
      assert a + b == [a[0]] + (a[1..] + b);
      DashifyCons(a[0], a[1..] + b);
      DashifyKeepsAlnumRun(a[1..], b);
      assert [a[0]] + (a[1..] + Dashify(b)) == a + Dashify(b);
    } else {
      assert a + b == b;
    }
  }

  /** A maximal run of other characters, followed by the end or a letter
      or digit, becomes one dash. */
  lemma {:induction false} DashifyRunToDash(u: string, b: string)
    requires |u| > 0 && forall i :: 0 <= i < |u| ==> !IsAlnum(u[i])
    requires b == [] || IsAlnum(b[0])
    ensures Dashify(u + b) == "-" + Dashify(b)
    decreases |u|
  {
    assert (u + b)[1..] == u[1..] + b;
    if |u| > 1 {
      DashifyRunToDash(u[1..], b);
    } else {
      assert u[1..] + b == b;
    }
  }

  /** `.replace(/^-+|-+$/g, '')`: at most one dash goes at each end (a
      dashified string has no `--`), and the middle is kept. */
  function TrimDashes(s: string): (r: string)
    requires AllSlugChars(s) && NoDoubleDash(s)
    ensures AllSlugChars(r) && NoDoubleDash(r)
    ensures r == [] || (r[0] != '-' && r[|r| - 1] != '-')
    ensures r == [] <==> (forall i :: 0 <= i < |s| ==> s[i] == '-')
    ensures r == s || (|s| >= 1 && (r == s[1..] || r == s[..|s| - 1])) || (|s| >= 2 && r == s[1..|s| - 1])
  {
    var a := if |s| > 0 && s[0] == '-' then s[1..] else s;
    var b := if |a| > 0 && a[|a| - 1] == '-' then a[..|a| - 1] else a;
    assert forall i :: 0 <= i < |b| ==> b[i] == s[i + |s| - |a|];
    assert a == s || a == s[1..];
    assert b == a || (|a| >= 1 && b == a[..|a| - 1]);
    assert |s| >= 1 && a == s[1..] && |a| >= 1 && b == a[..|a| - 1] ==> b == s[1..|s| - 1];
    b
  }

  /** A dash at either end adds no letter or digit. */
  lemma AlnumsDropDash(s: string)
    requires |s| > 0
    ensures s[0] == '-' ==> Alnums(s[1..]) == Alnums(s)
    ensures s[|s| - 1] == '-' ==> Alnums(s[..|s| - 1]) == Alnums(s)
  {
    assert s == s[..|s| - 1] + [s[|s| - 1]];
    AlnumsAppend(s[..|s| - 1], [s[|s| - 1]]);
  }

  /** Trimming the edge dashes keeps every letter and digit, in order. */
  lemma TrimDashesKeepsAlnums(s: string)
    requires AllSlugChars(s) && NoDoubleDash(s)
    ensures Alnums(TrimDashes(s)) == Alnums(s)
  {
    var a := if |s| > 0 && s[0] == '-' then s[1..] else s;
    var b := if |a| > 0 && a[|a| - 1] == '-' then a[..|a| - 1] else a;
    assert TrimDashes(s) == b;
    if |s| > 0 { AlnumsDropDash(s); }
    if |a| > 0 { AlnumsDropDash(a); }
  }

  /** `generateSlug`. */
  function Slug(title: string): (r: string)
    ensures AllSlugChars(r)
    ensures NoDoubleDash(r)
    ensures r == [] || (r[0] != '-' && r[|r| - 1] != '-')
    ensures Alnums(r) == Alnums(FoldAll(title))
  {
    DashifyKeepsAlnums(FoldAll(title));
    TrimDashesKeepsAlnums(Dashify(FoldAll(title)));
    TrimDashes(Dashify(FoldAll(title)))
  }

  lemma {:induction false} DashifyKeepsSlugs(s: string)
    requires AllSlugChars(s) && NoDoubleDash(s)
    requires s == [] || s[0] != '-' || |s| == 1 || s[1] != '-'
    ensures Dashify(s) == s
    decreases |s|
  {
    if |s| > 0 {
      DashifyKeepsSlugs(s[1..]);
      if IsAlnum(s[0]) {
        assert Dashify(s) == [s[0]] + Dashify(s[1..]);
      } else {
        assert |s| == 1 || IsAlnum(s[1]);
        assert Dashify(s) == "-" + Dashify(s[1..]);
      }
      assert [s[0]] + s[1..] == s;
    }
  }

  lemma FoldKeepsSlugChars(s: string)
    requires AllSlugChars(s)
    ensures FoldAll(s) == s
  {
  }

  /** A slug is its own slug: generating a slug twice gives the same slug. */
  lemma SlugIdempotent(title: string)
    ensures Slug(Slug(title)) == Slug(title)
  {
    var s := Slug(title);
    FoldKeepsSlugChars(s);
    DashifyKeepsSlugs(s);
    TrimDashesKeepsTrimmed(s);
    assert Slug(s) == TrimDashes(Dashify(FoldAll(s)));
  }

  /** A string with no dash at either end is left as it is. */
  lemma TrimDashesKeepsTrimmed(s: string)
    requires AllSlugChars(s) && NoDoubleDash(s)
    requires s == [] || (s[0] != '-' && s[|s| - 1] != '-')
    ensures TrimDashes(s) == s
  {
  }

  /** The title gives an empty slug exactly when, after lower-casing and
      unaccenting, it holds no letter or digit of `[a-z0-9]`. */
  lemma {:induction false} EmptySlug(title: string)
    ensures Slug(title) == [] <==> (forall i :: 0 <= i < |title| ==> !IsAlnum(Fold(title[i])))
  {
    var f := FoldAll(title);
    DashifyAllDashes(f);
  }

  /** A string has no letter or digit exactly when its `Alnums` is empty. */
  lemma {:induction false} AlnumsEmpty(s: string)
    ensures Alnums(s) == "" <==> forall i :: 0 <= i < |s| ==> !IsAlnum(s[i])
    decreases |s|
  {
    if |s| > 0 {
      AlnumsEmpty(s[1..]);
      assert forall i :: 0 < i < |s| ==> s[1..][i - 1] == s[i];
    }
  }

  lemma DashifyAllDashes(s: string)
    ensures (forall i :: 0 <= i < |Dashify(s)| ==> Dashify(s)[i] == '-')
            <==> (forall i :: 0 <= i < |s| ==> !IsAlnum(s[i]))
  {
    var d := Dashify(s);
    DashifyKeepsAlnums(s);
    AlnumsEmpty(s);
    AlnumsEmpty(d);
    assert forall i :: 0 <= i < |d| ==> (d[i] == '-' <==> !IsAlnum(d[i]));
  }

  /** Each listed accented vowel becomes its base vowel,
      and the empty title gives the empty slug. */
  lemma AccentedVowels()
    ensures forall c :: 'à' <= c <= 'å' ==> Slug([c]) == "a"
    ensures forall c :: 'è' <= c <= 'ë' ==> Slug([c]) == "e"
    ensures forall c :: 'ì' <= c <= 'ï' ==> Slug([c]) == "i"
    ensures forall c :: 'ò' <= c <= 'ö' ==> Slug([c]) == "o"
    ensures forall c :: 'ù' <= c <= 'ü' ==> Slug([c]) == "u"
    ensures Slug("") == ""
  {
    forall c | 'à' <= c <= 'ü' && Unaccent(c) != c ensures Slug([c]) == [Unaccent(c)] {
      assert FoldAll([c]) == [Unaccent(c)];
      assert Dashify([Unaccent(c)]) == [Unaccent(c)];
    }
  }

  // ------------------------------------------------------------ the form

  datatype Form = Form(title: string, slug: string, description: string, icon: string, sortOrder: int)

  const InitialForm: Form := Form("", "", "", "book-open", 0)

  /** `handleTitleChange`: the title and a fresh slug; nothing else changes. */
  function TitleChanged(f: Form, title: string): (r: Form)
    ensures r.title == title && r.slug == Slug(title)
    ensures r.(title := f.title, slug := f.slug) == f
  {
    f.(title := title, slug := Slug(title))
  }

  /** The row inserted into `guideline_sections`. */
  datatype SectionRow = SectionRow(title: string, slug: string, description: Option<string>,
                                   icon: string, sortOrder: int, createdBy: string)

  /** What `handleSubmit` does: nothing without a user, a toast for a blank
      title or slug, else the insert. */
  datatype Submission = NoUser | TitleMissing | SlugMissing | Insert(row: SectionRow)

  function Submit(f: Form, userId: Option<string>): (r: Submission)
    ensures r.Insert? <==> userId.Some? && Trim(f.title) != "" && Trim(f.slug) != ""
    ensures r.Insert? ==> r.row.title == f.title && r.row.slug == f.slug
                          && r.row.createdBy == userId.value
                          && (r.row.description.None? <==> f.description == "")
  {
    if userId.None? then NoUser
    else if Trim(f.title) == "" then TitleMissing
    else if Trim(f.slug) == "" then SlugMissing
    else Insert(SectionRow(f.title, f.slug, if f.description == "" then None else Some(f.description),
                           f.icon, f.sortOrder, userId.value))
  }

  /** A form whose slug came from its title can always be submitted when
      the title has a letter or digit that survives folding. */
  lemma GeneratedSlugSubmits(f: Form, title: string, userId: string, k: nat)
    requires k < |title| && IsAlnum(Fold(title[k]))
    ensures Submit(TitleChanged(f, title), Some(userId)).Insert?
  {
    SlugNotBlank(title, k);
    TitleNotBlank(title, k);
    var g := TitleChanged(f, title);
    assert g.title == title && g.slug == Slug(title);
  }

  /** Such a title is not all white space. */
  lemma TitleNotBlank(title: string, k: nat)
    requires k < |title| && IsAlnum(Fold(title[k]))
    ensures Trim(title) != ""
  {
    assert !IsSpace(title[k]) by {
      assert !IsSpace(Fold(title[k]));
    }
  }

  /** Such a title's slug is non-empty and has no white space to trim. */
  lemma SlugNotBlank(title: string, k: nat)
    requires k < |title| && IsAlnum(Fold(title[k]))
    ensures Trim(Slug(title)) != ""
  {
    EmptySlug(title);
    var s := Slug(title);
    assert s != [] && IsSlugChar(s[0]) && IsSlugChar(s[|s| - 1]);
    TrimOfTrimmed(s);
  }
}

=== FILE: strings.dfy ===
/**
 * The few JavaScript string operations the modelled code relies on:
 * `trim`, `startsWith`, `includes`, decimal rendering of integers,
 * `join` and splitting on one character. Strings are `seq<char>`.
 */
module Strings {

  /** The characters `String.prototype.trim` removes: the WhiteSpace and
      LineTerminator productions of ECMA-262 (sections 12.2 and 12.3). */
  predicate IsSpace(c: char) {
    || c == ' ' || c == '\t' || c == '\n' || c == '\r'
    || c == '\U{000B}' || c == '\U{000C}' || c == '\U{00A0}' || c == '\U{1680}'
    || ('\U{2000}' <= c <= '\U{200A}')
    || c == '\U{2028}' || c == '\U{2029}' || c == '\U{202F}' || c == '\U{205F}'
    || c == '\U{3000}' || c == '\U{FEFF}'
  }

  predicate AllSpace(s: string) {
    forall i :: 0 <= i < |s| ==> IsSpace(s[i])
  }

  /** Removes leading white space: the result is a suffix of `s`, everything
      dropped is white space, and the result does not start with white space. */
  function TrimStart(s: string): (r: string)
    ensures |r| <= |s| && r == s[|s| - |r|..]
    ensures AllSpace(s[..|s| - |r|])
    ensures r == [] || !IsSpace(r[0])
  {
    if |s| > 0 && IsSpace(s[0]) then
      var r := TrimStart(s[1..]);
      assert s[..|s| - |r|] == [s[0]] + s[1..][..|s| - 1 - |r|];
      r
    else s
  }

  /** Removes trailing white space: the result is a prefix of `s`, everything
      dropped is white space, and the result does not end with white space. */
  function TrimEnd(s: string): (r: string)
    ensures |r| <= |s| && r == s[..|r|]
    ensures AllSpace(s[|r|..])
    ensures r == [] || !IsSpace(r[|r| - 1])
  {
    if |s| > 0 && IsSpace(s[|s| - 1]) then TrimEnd(s[..|s| - 1]) else s
  }

  /** JavaScript's `s.trim()`. */
  function Trim(s: string): (r: string)
    ensures |r| <= |s|
    ensures r == [] || (!IsSpace(r[0]) && !IsSpace(r[|r| - 1]))
    ensures r == [] <==> AllSpace(s)
  {
    var t := TrimStart(s);
    var r := TrimEnd(t);
    assert r == [] ==> AllSpace(s) by {
      if r == [] {
        assert s == s[..|s| - |t|] + t;
        assert t == t[|r|..];
      }
    }
    r
  }

  /** Trimming twice is trimming once. */
  lemma {:induction false} TrimIdempotent(s: string)
    ensures Trim(Trim(s)) == Trim(s)
  {
    TrimOfTrimmed(Trim(s));
  }

  lemma TrimOfTrimmed(r: string)
    requires r == [] || (!IsSpace(r[0]) && !IsSpace(r[|r| - 1]))
    ensures Trim(r) == r
  {
    TrimStartNoop(r);
    TrimEndNoop(r);
  }

  lemma TrimStartNoop(s: string)
    requires s == [] || !IsSpace(s[0])
    ensures TrimStart(s) == s
  {}

  lemma TrimEndNoop(s: string)
    requires s == [] || !IsSpace(s[|s| - 1])
    ensures TrimEnd(s) == s
  {}

  /** `s.startsWith(p)`. */
  predicate StartsWith(s: string, p: string) {
    |p| <= |s| && s[..|p|] == p
  }

  /** `s.includes(sub)`: `sub` occurs at some position of `s`. */
  predicate Contains(s: string, sub: string)
    decreases |s|
  {
    StartsWith(s, sub) || (|s| > 0 && Contains(s[1..], sub))
  }

  /** `Contains` agrees with the positional definition of an occurrence. */
  lemma {:induction false} ContainsAt(s: string, sub: string, k: nat)
    requires k + |sub| <= |s| && s[k..k + |sub|] == sub
    ensures Contains(s, sub)
    decreases k
  {
    if k > 0 {
      assert s[1..][k - 1..k - 1 + |sub|] == s[k..k + |sub|];
      ContainsAt(s[1..], sub, k - 1);
    }
  }

  /** Whatever contains `a + sub + b` contains `sub`. */
  lemma ContainsMiddle(a: string, sub: string, b: string)
    ensures Contains(a + sub + b, sub)
  {
    var s := a + sub + b;
    assert s[|a|..|a| + |sub|] == sub;
    ContainsAt(s, sub, |a|);
  }

  /** A string that contains `sub` also contains every prefix of `sub`. */
  lemma {:induction false} ContainsPrefixOf(s: string, sub: string, p: string)
    requires Contains(s, sub) && StartsWith(sub, p)
    ensures Contains(s, p)
    decreases |s|
  {
    if !StartsWith(s, sub) {
      ContainsPrefixOf(s[1..], sub, p);
    } else {
      assert s[..|p|] == sub[..|p|];
    }
  }

  predicate IsDigit(c: char) {
    '0' <= c <= '9'
  }

  predicate AllDigits(s: string) {
    forall i :: 0 <= i < |s| ==> IsDigit(s[i])
  }

  function DigitChar(d: nat): (c: char)
    requires d < 10
    ensures IsDigit(c)
  {
    ('0' as int + d) as char
  }

  function DigitValue(c: char): (d: nat)
    requires IsDigit(c)
    ensures d < 10
  {
    c as int - '0' as int
  }

  /** Decimal rendering of a non-negative integer, as `String(n)` or a template
      literal gives it: at least one digit and no leading zero. */
  function NatToString(n: nat): (r: string)
    ensures |r| >= 1 && AllDigits(r)
    ensures |r| > 1 ==> r[0] != '0'
    decreases n
  {
    if n < 10 then [DigitChar(n)] else NatToString(n / 10) + [DigitChar(n % 10)]
  }

  /** The value of a string of decimal digits. */
  function ParseNat(s: string): nat
    requires AllDigits(s)
    decreases |s|
  {
    if |s| == 0 then 0 else ParseNat(s[..|s| - 1]) * 10 + DigitValue(s[|s| - 1])
  }

  /** Reading back a rendered number gives the number. */
  lemma {:induction false} ParseNatToString(n: nat)
    ensures ParseNat(NatToString(n)) == n
    decreases n
  {
    if n >= 10 {
      var r := NatToString(n);
      assert r[..|r| - 1] == NatToString(n / 10);
      ParseNatToString(n / 10);
    }
  }

  /** `parts.join(sep)`. */
  function Join(parts: seq<string>, sep: string): (r: string)
    ensures |parts| == 1 ==> r == parts[0]
    decreases |parts|
  {
    if |parts| == 0 then ""
    else if |parts| == 1 then parts[0]
    else parts[0] + sep + Join(parts[1..], sep)
  }

  /** `s.split(c)` for a one-character separator: the pieces between
      consecutive occurrences of `c`, always at least one. */
  function SplitOn(s: string, c: char): (r: seq<string>)
    ensures |r| >= 1
    decreases |s|
  {
    if |s| == 0 then [""]
    else
      var rest := SplitOn(s[1..], c);
      if s[0] == c then [""] + rest else [[s[0]] + rest[0]] + rest[1..]
  }

  lemma {:induction false} SplitOnNoSeparator(x: string, c: char)
    requires c !in x
    ensures SplitOn(x, c) == [x]
    decreases |x|
  {
    if |x| > 0 {
      assert c !in x[1..];
      SplitOnNoSeparator(x[1..], c);
      assert [x[0]] + x[1..] == x;
    }
  }

  lemma {:induction false} SplitOnConcat(x: string, c: char, y: string)
    requires c !in x
    ensures SplitOn(x + [c] + y, c) == [x] + SplitOn(y, c)
    decreases |x|
  {
    if |x| > 0 {
      assert (x + [c] + y)[1..] == x[1..] + [c] + y;
      assert c !in x[1..];
      SplitOnConcat(x[1..], c, y);
      assert [x[0]] + x[1..] == x;
    } else {
      assert x + [c] + y == [c] + y;
      assert ([c] + y)[1..] == y;
    }
  }

  /** Joining pieces free of the separator and splitting again gives the
      pieces back. */
  lemma {:induction false} SplitJoin(parts: seq<string>, c: char)
    requires |parts| >= 1
    requires forall i :: 0 <= i < |parts| ==> c !in parts[i]
    ensures SplitOn(Join(parts, [c]), c) == parts
    decreases |parts|
  {
    if |parts| == 1 {
      SplitOnNoSeparator(parts[0], c);
    } else {
      SplitJoin(parts[1..], c);
      SplitOnConcat(parts[0], c, Join(parts[1..], [c]));
      assert [parts[0]] + parts[1..] == parts;
    }
  }
}

=== FILE: toolkit.dfy ===
/**
 * A toolkit section page: the items of one section, an accordion that
 * shows one item at a time, read tracking for artists, hiding of expired
 * items from artists, and the priority badge.
 */
module Toolkit {
  import opened Wrappers
  import opened Enums
  import opened Seqs

  /** A guideline item with its section and the viewer's read flag;
      instants are milliseconds since the epoch. */
  datatype Item = Item(
    id: string,
    sectionSlug: string,
    sectionTitle: string,
    title: string,
    priority: int,
    validUntil: Option<int>,
    isRead: bool)

  /** The items of the route's section; an absent slug matches nothing. */
  function SectionItems(all: seq<Item>, slug: Option<string>): (r: seq<Item>)
    ensures forall i :: 0 <= i < |r| ==> slug.Some? && r[i].sectionSlug == slug.value && r[i] in all
    ensures forall i :: 0 <= i < |all| && slug.Some? && all[i].sectionSlug == slug.value ==> all[i] in r
    ensures forall x :: multiset(r)[x] == (if slug.Some? && x.sectionSlug == slug.value then multiset(all)[x] else 0)
  {
    var keep := (it: Item) => slug.Some? && it.sectionSlug == slug.value;
    forall x ensures multiset(Filter(all, keep))[x] == (if keep(x) then multiset(all)[x] else 0) {
      FilterCount(all, keep, x);
    }
    Filter(all, keep)
  }

  /** The page title: the first item's section title, else the slug, else "Sezione". */
  function SectionTitle(items: seq<Item>, slug: Option<string>): string {
    if |items| > 0 then items[0].sectionTitle else if slug.Some? then slug.value else "Sezione"
  }

  /** What a click on an item does: the new expanded item, and whether the
      item is to be marked read. */
  datatype Click = Click(expanded: Option<string>, markRead: bool)

  /** `handleExpand`. */
  function Expand(expanded: Option<string>, item: Item, isStaff: bool): (r: Click)
    ensures expanded == Some(item.id) ==> r.expanded.None?
    ensures expanded != Some(item.id) ==> r.expanded == Some(item.id)
    ensures r.markRead <==> expanded != Some(item.id) && !item.isRead && !isStaff
  {
    var isExpanding := expanded != Some(item.id);
    Click(if isExpanding then Some(item.id) else None, isExpanding && !item.isRead && !isStaff)
  }

  /** A successful mark-read: that item's flag is set, nothing else changes. */
  function MarkedRead(items: seq<Item>, id: string): (r: seq<Item>)
    ensures |r| == |items|
    ensures forall i :: 0 <= i < |items| ==>
      r[i] == (if items[i].id == id then items[i].(isRead := true) else items[i])
  {
    seq(|items|, i requires 0 <= i < |items| => if items[i].id == id then items[i].(isRead := true) else items[i])
  }

  /** Clicking an item twice returns the accordion to where it was, when that
      was closed or on the item; staff never mark anything read, and a read
      item is never marked again. */
  lemma AccordionLaws(expanded: Option<string>, item: Item, isStaff: bool)
    requires expanded.None? || expanded == Some(item.id)
    ensures Expand(Expand(expanded, item, isStaff).expanded, item, isStaff).expanded == expanded
    ensures isStaff || item.isRead ==> !Expand(expanded, item, isStaff).markRead
  {
  }

  /** Marking read is idempotent and marks every item with that id. */
  lemma MarkReadLaws(items: seq<Item>, id: string)
    ensures MarkedRead(MarkedRead(items, id), id) == MarkedRead(items, id)
    ensures forall i :: 0 <= i < |items| && items[i].id == id ==> MarkedRead(items, id)[i].isRead
  {
  }

  /** `valid_until` before now. */
  predicate Expired(it: Item, now: int) {
    it.validUntil.Some? && it.validUntil.value < now
  }

  /** Artists see no expired items; staff see all. */
  predicate Shown(it: Item, now: int, isStaff: bool) {
    isStaff || !Expired(it, now)
  }

  /** The items the viewer sees, in their order: each shown item with its
      multiplicity, and nothing else. */
  function ShownItems(items: seq<Item>, now: int, isStaff: bool): (r: seq<Item>)
    ensures isStaff ==> r == items
    ensures forall i :: 0 <= i < |r| ==> !isStaff ==> !Expired(r[i], now)
    ensures forall i :: 0 <= i < |items| && !Expired(items[i], now) ==> items[i] in r
    ensures forall x :: multiset(r)[x] == (if Shown(x, now, isStaff) then multiset(items)[x] else 0)
  {
    if isStaff then items
    else
      var keep := (it: Item) => !Expired(it, now);
      forall x ensures multiset(Filter(items, keep))[x] == (if keep(x) then multiset(items)[x] else 0) {
        FilterCount(items, keep, x);
      }
      Filter(items, keep)
  }

  /** `PRIORITY_CONFIG[item.priority] ?? PRIORITY_CONFIG[0]`. */
  function PriorityBadge(priority: int): (r: PriorityDisplay)
    ensures priority in PriorityConfig ==> r == PriorityConfig[priority]
    ensures priority !in PriorityConfig ==> r == PriorityConfig[0]
  {
    if priority in PriorityConfig then PriorityConfig[priority] else PriorityConfig[0]
  }

  /** Every priority gets a badge; the ones outside 0..2 get the normal one. */
  lemma PriorityFallback(priority: int)
    ensures (priority < 0 || priority > 2) ==> PriorityBadge(priority) == PriorityDisplay("Normale", "#6B7280")
    ensures 0 <= priority <= 2 ==> PriorityBadge(priority) == PriorityConfig[priority]
  {
  }
}

=== FILE: uploader.dfy ===
/**
 * The media uploader of a new post: each selected file is checked,
 * uploaded under a path built from the post id, a fresh file id and the
 * sanitised name, and, for a video, followed by a thumbnail; every upload
 * that succeeds is reported to the parent through `onChange`. Removing a
 * file deletes its stored paths and drops it from the list.
 *
 * The handler reports each upload as the list it captured when it started
 * plus the one new file. The parent passes its state setter as `onChange`,
 * so with several files selected at once each report replaces the previous
 * one and only the last upload stays listed. `ChangesAsWritten` models
 * that; `ChangesAccumulating` is the evidently intended behaviour, in
 * which each report extends the previous one.
 */
module Uploader {
  import opened Wrappers
  import opened Strings
  import opened Utils
  import opened Seqs

  /** A file picked in the browser. */
  datatype Picked = Picked(name: string, mime: string, size: int)

  /** What happens to one picked file once it passes the checks: its fresh
      id, whether the main upload succeeds, and the thumbnail step (None
      when no thumbnail could be generated, else whether its upload
      succeeds). */
  datatype Attempt = Attempt(fileId: string, mainOk: bool, thumbnailUpload: Option<bool>)

  datatype Selection = Selection(file: Picked, attempt: Attempt)

  /** An entry of the uploaded list; the object-URL preview is not modelled. */
  datatype UploadedFile = UploadedFile(id: string, path: string, name: string, mime: string, size: int,
                                       thumbnailPath: Option<string>)

  /** Where a file is stored: in the post's folder, named by its file id,
      `_` and its sanitised name. The name part holds only safe characters,
      so never a `/`, and cannot leave the folder. */
  function StoragePath(postId: string, fileId: string, name: string): (r: string)
    ensures |postId| + |fileId| + 2 <= |r|
    ensures r[..|postId| + 1] == postId + "/"
    ensures r[|postId| + 1..|postId| + 1 + |fileId|] == fileId
    ensures var k := |postId| + 1 + |fileId|;
      k < |r| && r[k] == '_' && |r| == k + 1 + |StripMarks(name)|
      && forall i :: k < i < |r| ==> IsSafeChar(r[i])
  {
    var safe := SanitizeFilename(name);
    var r := postId + "/" + fileId + "_" + safe;
    assert r == (postId + "/") + fileId + ("_" + safe);
    var k := |postId| + 1 + |fileId|;
    forall i | k < i < |r| ensures IsSafeChar(r[i]) {
      assert r[i] == safe[i - k - 1];
    }
    r
  }

  /** File ids of one length (the UUIDs `crypto.randomUUID` draws) keep the
      uploads of a post apart: different ids never share a path, whatever
      the names. */
  lemma StoragePathsDistinct(postId: string, id1: string, id2: string, name1: string, name2: string)
    requires |id1| == |id2| && id1 != id2
    ensures StoragePath(postId, id1, name1) != StoragePath(postId, id2, name2)
  {
    var p1, p2 := StoragePath(postId, id1, name1), StoragePath(postId, id2, name2);
    var k :| 0 <= k < |id1| && id1[k] != id2[k];
    assert p1[|postId| + 1 + k] == p1[|postId| + 1..|postId| + 1 + |id1|][k] == id1[k];
    assert p2[|postId| + 1 + k] == p2[|postId| + 1..|postId| + 1 + |id2|][k] == id2[k];
  }

  function ThumbnailPath(postId: string, fileId: string): string {
    postId + "/thumb_" + fileId + ".jpg"
  }

  /** The entry a selection yields: none when the file fails `validateFile`
      or its upload fails; the thumbnail is recorded only for a video whose
      thumbnail was generated and uploaded. */
  function Uploaded(postId: string, s: Selection): (r: Option<UploadedFile>)
    ensures r.Some? <==> ValidateFile(s.file.size, s.file.mime).None? && s.attempt.mainOk
    ensures r.Some? ==>
      r.value.id == s.attempt.fileId
      && r.value.path == StoragePath(postId, s.attempt.fileId, s.file.name)
      && r.value.name == s.file.name
      && (r.value.thumbnailPath.Some? <==>
            IsVideo(s.file.mime) && s.attempt.thumbnailUpload == Some(true))
      && (r.value.thumbnailPath.Some? ==> r.value.thumbnailPath.value == ThumbnailPath(postId, s.attempt.fileId))
  {
    if ValidateFile(s.file.size, s.file.mime).Some? || !s.attempt.mainOk then None
    else
      var thumb := if IsVideo(s.file.mime) && s.attempt.thumbnailUpload == Some(true)
                   then Some(ThumbnailPath(postId, s.attempt.fileId)) else None;
      Some(UploadedFile(s.attempt.fileId, StoragePath(postId, s.attempt.fileId, s.file.name),
                        s.file.name, s.file.mime, s.file.size, thumb))
  }

  /** The storage writes a selection issues, in order. */
  function Writes(postId: string, s: Selection): (r: seq<string>)
    ensures ValidateFile(s.file.size, s.file.mime).Some? ==> r == []
    ensures ValidateFile(s.file.size, s.file.mime).None? ==>
      |r| >= 1 && r[0] == StoragePath(postId, s.attempt.fileId, s.file.name)
    ensures |r| == 2 <==> ValidateFile(s.file.size, s.file.mime).None? && s.attempt.mainOk
                          && IsVideo(s.file.mime) && s.attempt.thumbnailUpload.Some?
  {
    if ValidateFile(s.file.size, s.file.mime).Some? then []
    else if !s.attempt.mainOk then [StoragePath(postId, s.attempt.fileId, s.file.name)]
    else if IsVideo(s.file.mime) && s.attempt.thumbnailUpload.Some? then
      [StoragePath(postId, s.attempt.fileId, s.file.name), ThumbnailPath(postId, s.attempt.fileId)]
    else [StoragePath(postId, s.attempt.fileId, s.file.name)]
  }

  /** The entries of a whole selection, in order: one per selection that
      uploaded, none for the rest. */
  function AllUploaded(postId: string, sels: seq<Selection>): (r: seq<UploadedFile>)
    ensures |r| <= |sels|
    decreases |sels|
  {
    if |sels| == 0 then []
    else
      var rest := AllUploaded(postId, sels[1..]);
      match Uploaded(postId, sels[0])
      case Some(f) => [f] + rest
      case None => rest
  }

  /** Every entry comes from some selection's upload, and the list is as
      long as the selection exactly when every file uploaded. */
  lemma {:induction false} AllUploadedEntries(postId: string, sels: seq<Selection>)
    ensures var r := AllUploaded(postId, sels);
      forall k :: 0 <= k < |r| ==> exists j :: 0 <= j < |sels| && Uploaded(postId, sels[j]) == Some(r[k])
    ensures (forall j :: 0 <= j < |sels| ==> Uploaded(postId, sels[j]).Some?)
            <==> |AllUploaded(postId, sels)| == |sels|
    decreases |sels|
  {
    if |sels| > 0 {
      AllUploadedEntries(postId, sels[1..]);
      assert forall j :: 0 < j < |sels| ==> sels[1..][j - 1] == sels[j];
    }
  }

  /** The lists passed to `onChange` as written: each is the captured list
      plus one new entry. */
  function ChangesAsWritten(postId: string, captured: seq<UploadedFile>, sels: seq<Selection>)
    : (r: seq<seq<UploadedFile>>)
    ensures |r| == |AllUploaded(postId, sels)|
    ensures forall k :: 0 <= k < |r| ==> r[k] == captured + [AllUploaded(postId, sels)[k]]
    decreases |sels|
  {
    if |sels| == 0 then []
    else
      var rest := ChangesAsWritten(postId, captured, sels[1..]);
      match Uploaded(postId, sels[0])
      case Some(f) => [captured + [f]] + rest
      case None => rest
  }

  /** The lists passed to `onChange` when each report extends the list
      already reported. */
  function ChangesAccumulating(postId: string, current: seq<UploadedFile>, sels: seq<Selection>)
    : seq<seq<UploadedFile>>
    decreases |sels|
  {
    if |sels| == 0 then []
    else
      match Uploaded(postId, sels[0])
      case Some(f) => [current + [f]] + ChangesAccumulating(postId, current + [f], sels[1..])
      case None => ChangesAccumulating(postId, current, sels[1..])
  }

  /** The parent's list after the handler: the last list reported, or the
      list it had when nothing was reported. */
  function Final(before: seq<UploadedFile>, changes: seq<seq<UploadedFile>>): seq<UploadedFile> {
    if |changes| == 0 then before else changes[|changes| - 1]
  }

  /** As written, the parent ends with the captured list plus only the last
      successful upload. */
  lemma AsWrittenKeepsOnlyLast(postId: string, captured: seq<UploadedFile>, sels: seq<Selection>)
    requires |AllUploaded(postId, sels)| >= 1
    ensures var up := AllUploaded(postId, sels);
      Final(captured, ChangesAsWritten(postId, captured, sels)) == captured + [up[|up| - 1]]
  {
  }

  /** The concrete case: two valid images selected together, both uploaded;
      two entries were uploaded but the parent lists one. */
  lemma StaleListLosesUpload()
    ensures var sels := [Selection(Picked("a.png", "image/png", 10), Attempt("1", true, None)),
                         Selection(Picked("b.png", "image/png", 10), Attempt("2", true, None))];
      |AllUploaded("p", sels)| == 2
      && |Final([], ChangesAsWritten("p", [], sels))| == 1
  {
    var sels := [Selection(Picked("a.png", "image/png", 10), Attempt("1", true, None)),
                 Selection(Picked("b.png", "image/png", 10), Attempt("2", true, None))];
    assert "image/png" in AcceptedMediaTypes;
    assert sels[1..][1..] == [];
  }

  /** With accumulating reports the parent ends with every successful upload
      after the list it had, in selection order. */
  lemma {:induction false} AccumulatingKeepsAll(postId: string, current: seq<UploadedFile>,
                                                sels: seq<Selection>)
    ensures Final(current, ChangesAccumulating(postId, current, sels)) == current + AllUploaded(postId, sels)
    decreases |sels|
  {
    if |sels| > 0 {
      match Uploaded(postId, sels[0])
      case Some(f) =>
        AccumulatingKeepsAll(postId, current + [f], sels[1..]);
        assert current + [f] + AllUploaded(postId, sels[1..]) == current + ([f] + AllUploaded(postId, sels[1..]));
      case None =>
        AccumulatingKeepsAll(postId, current, sels[1..]);
    }
  }

  /** `removeFile`: the stored paths deleted (the main one, and the
      thumbnail when there is a non-empty one) and the list without that id. */
  datatype Removal = Removal(deleted: seq<string>, remaining: seq<UploadedFile>)

  function RemoveFile(files: seq<UploadedFile>, f: UploadedFile): (r: Removal)
    ensures |r.deleted| >= 1 && r.deleted[0] == f.path
    ensures |r.deleted| == 2 <==> f.thumbnailPath.Some? && f.thumbnailPath.value != ""
    ensures |r.deleted| == 2 ==> r.deleted[1] == f.thumbnailPath.value
    ensures forall i :: 0 <= i < |r.remaining| ==> r.remaining[i].id != f.id && r.remaining[i] in files
    ensures forall i :: 0 <= i < |files| && files[i].id != f.id ==> files[i] in r.remaining
  {
    var paths := if f.thumbnailPath.Some? && f.thumbnailPath.value != "" then [f.path, f.thumbnailPath.value]
                 else [f.path];
    Removal(paths, Filter(files, (g: UploadedFile) => g.id != f.id))
  }

  /** Removing an uploaded entry undoes its addition. */
  lemma RemoveUndoesAdd(files: seq<UploadedFile>, f: UploadedFile)
    requires forall i :: 0 <= i < |files| ==> files[i].id != f.id
    ensures RemoveFile(files + [f], f).remaining == files
  {
    var p := (g: UploadedFile) => g.id != f.id;
    FilterAppend(files, [f], p);
    FilterKeepsAll(files, p);
  }
}

=== FILE: utils.dfy ===
/**
 * The pure helpers of the client library: duration formatting, relative
 * time buckets, file-name sanitising, upload checks and the class-name
 * joiner. JavaScript strings are modelled as sequences of characters,
 * one `char` each; lengths count characters, not UTF-16 code units.
 */
module Utils {
  import opened Wrappers
  import opened Strings

  // ------------------------------------------------------------ formatDuration

  /** `padStart(2, '0')`. */
  function PadTwo(s: string): (r: string)
    ensures |s| < 2 ==> r == ['0'] + s
    ensures |s| >= 2 ==> r == s
  {
    if |s| < 2 then ['0'] + s else s
  }

  lemma {:induction false} TwoDigitsAtMost(n: nat)
    requires n < 100
    ensures |NatToString(n)| <= 2
  {
    if n >= 10 {
      assert NatToString(n / 10) == [DigitChar(n / 10)];
    }
  }

  /** The seconds field: `s mod 60` on exactly two digits. */
  function SecondsField(seconds: nat): (r: string)
    ensures |r| == 2 && AllDigits(r)
    ensures ParseNat(r) == seconds % 60
  {
    var d := NatToString(seconds % 60);
    TwoDigitsAtMost(seconds % 60);
    ParseNatToString(seconds % 60);
    if |d| == 1 then ParseLeadingZero(d); PadTwo(d) else PadTwo(d)
  }

  /** `formatDuration`: whole minutes, a colon, and the seconds on two digits. */
  function FormatDuration(seconds: nat): (r: string)
    ensures |r| >= 4 && r[|r| - 3] == ':'
    ensures AllDigits(r[..|r| - 3]) && AllDigits(r[|r| - 2..])
  {
    var r := NatToString(seconds / 60) + [':'] + SecondsField(seconds);
    assert r[..|r| - 3] == NatToString(seconds / 60);
    assert r[|r| - 2..] == SecondsField(seconds);
    r
  }

  /** Reading an `M:SS` string back into seconds. */
  function ParseDuration(s: string): Option<nat> {
    var parts := SplitOn(s, ':');
    if |parts| == 2 && AllDigits(parts[0]) && AllDigits(parts[1]) && |parts[1]| == 2 then
      Some(ParseNat(parts[0]) * 60 + ParseNat(parts[1]))
    else None
  }

  lemma ParseLeadingZero(d: string)
    requires |d| == 1 && AllDigits(d)
    ensures AllDigits(['0'] + d) && ParseNat(['0'] + d) == ParseNat(d)
  {
    var t := ['0'] + d;
    assert t[..1] == ['0'];
    assert t[..0] == [];
    assert d[..0] == [];
  }

  lemma NoColonInDigits(s: string)
    requires AllDigits(s)
    ensures ':' !in s
  {
    assert forall i :: 0 <= i < |s| ==> s[i] != ':';
  }

  /** The formatted duration reads back as the same number of seconds: the
      minutes are `floor(s / 60)` and the two-digit part is `s mod 60`. */
  lemma {:induction false} DurationRoundTrip(seconds: nat)
    ensures ParseDuration(FormatDuration(seconds)) == Some(seconds)
  {
    var m, ss := NatToString(seconds / 60), SecondsField(seconds);
    ParseNatToString(seconds / 60);
    NoColonInDigits(m);
    NoColonInDigits(ss);
    SplitOnConcat(m, ':', ss);
    SplitOnNoSeparator(ss, ':');
    var parts := SplitOn(FormatDuration(seconds), ':');
    assert parts == [m, ss];
    assert ParseNat(m) * 60 + ParseNat(ss) == seconds;
  }

  // ------------------------------------------------------------ formatRelativeTime

  /** The label `formatRelativeTime` picks, from the elapsed milliseconds. */
  datatype Relative = JustNow | MinutesAgo(minutes: int) | HoursAgo(hours: int) | DaysAgo(days: int) | AsDate

  /** `floor(x / d)` for a positive divisor, which is what `Math.floor`
      gives and what Dafny's `/` computes. */
  function FloorDiv(x: int, d: int): int
    requires d > 0
  {
    x / d
  }

  lemma DivUnique(x: int, d: int, q: int, r: int)
    requires d > 0 && 0 <= r < d && x == q * d + r
    ensures x / d == q
  {
    var q', r' := x / d, x % d;
    assert (q' - q) * d == r - r';
    ZeroMultiple(q' - q, d);
  }

  lemma ZeroMultiple(k: int, d: int)
    requires d > 0 && -d < k * d < d
    ensures k == 0
  {
  }

  lemma NestedFloor(x: int, a: int, b: int)
    requires a > 0 && b > 0
    ensures FloorDiv(FloorDiv(x, a), b) == FloorDiv(x, a * b)
  {
    var q, r := x / (a * b), x % (a * b);
    assert x == (q * b) * a + r;
    DivUnique(r, a, r / a, r % a);
    assert r / a < b by {
      assert (r / a) * a <= r < b * a;
    }
    DivUnique(x, a, q * b + r / a, r % a);
    DivUnique(x / a, b, q, r / a);
  }

  /** `formatRelativeTime`'s bucket: each count shown is at least one and
      below the next unit, so no label reads zero. */
  function RelativeBucket(elapsedMs: int): (r: Relative)
    ensures r == JustNow <==> elapsedMs < 60_000
    ensures r.MinutesAgo? ==> 1 <= r.minutes < 60
    ensures r.HoursAgo? ==> 1 <= r.hours < 24
    ensures r.DaysAgo? ==> 1 <= r.days < 7
  {
    var minutes := FloorDiv(elapsedMs, 60000);
    var hours := FloorDiv(minutes, 60);
    var days := FloorDiv(hours, 24);
    if minutes < 1 then JustNow
    else if minutes < 60 then MinutesAgo(minutes)
    else if hours < 24 then HoursAgo(hours)
    else if days < 7 then DaysAgo(days)
    else AsDate
  }

  /** The label's text; the date form is locale formatting and not modelled. */
  function RelativeText(r: Relative): Option<string> {
    match r
    case JustNow => Some("ora")
    case MinutesAgo(n) => if n >= 0 then Some(NatToString(n) + "min fa") else None
    case HoursAgo(n) => if n >= 0 then Some(NatToString(n) + "h fa") else None
    case DaysAgo(n) => if n >= 0 then Some(NatToString(n) + "gg fa") else None
    case AsDate => None
  }

  /** The chained floored divisions amount to fixed thresholds on the
      elapsed time: under a minute, an hour, a day, a week; each count is
      the elapsed time floored to its unit. */
  lemma {:induction false} RelativeBuckets(elapsedMs: int)
    ensures var r := RelativeBucket(elapsedMs);
      (r == JustNow <==> elapsedMs < 60_000)
      && (r.MinutesAgo? <==> 60_000 <= elapsedMs < 3_600_000)
      && (r.HoursAgo? <==> 3_600_000 <= elapsedMs < 86_400_000)
      && (r.DaysAgo? <==> 86_400_000 <= elapsedMs < 604_800_000)
      && (r == AsDate <==> elapsedMs >= 604_800_000)
      && (r.MinutesAgo? ==> r.minutes == elapsedMs / 60_000 && 1 <= r.minutes < 60)
      && (r.HoursAgo? ==> r.hours == elapsedMs / 3_600_000 && 1 <= r.hours < 24)
      && (r.DaysAgo? ==> r.days == elapsedMs / 86_400_000 && 1 <= r.days < 7)
  {
    NestedFloor(elapsedMs, 60000, 60);
    NestedFloor(FloorDiv(elapsedMs, 60000), 60, 24);
    NestedFloor(elapsedMs, 3_600_000, 24);
  }

  // ------------------------------------------------------------ sanitizeFilename

  /** The combining diacritical marks, U+0300 to U+036F, that NFD splits off
      accented letters. */
  predicate IsCombiningMark(c: char) {
    '̀' <= c <= 'ͯ'
  }

  predicate IsAsciiLetter(c: char) {
    ('a' <= c <= 'z') || ('A' <= c <= 'Z')
  }

  /** `[a-zA-Z0-9._-]`. */
  predicate IsNameChar(c: char) {
    IsAsciiLetter(c) || IsDigit(c) || c == '.' || c == '_' || c == '-'
  }

  /** The output alphabet: `[a-z0-9._-]`. */
  predicate IsSafeChar(c: char) {
    ('a' <= c <= 'z') || IsDigit(c) || c == '.' || c == '_' || c == '-'
  }

  function AsciiLower(c: char): (r: char)
    ensures 'A' <= c <= 'Z' ==> 'a' <= r <= 'z'
    ensures !('A' <= c <= 'Z') ==> r == c
  {
    if 'A' <= c <= 'Z' then (c as int + 32) as char else c
  }

  /** `.replace(/[̀-ͯ]/g, '')`. */
  function StripMarks(s: string): (r: string)
    ensures |r| <= |s|
    ensures forall i :: 0 <= i < |r| ==> !IsCombiningMark(r[i])
  {
    if |s| == 0 then ""
    else if IsCombiningMark(s[0]) then StripMarks(s[1..])
    else [s[0]] + StripMarks(s[1..])
  }

  lemma {:induction false} StripMarksNoop(s: string)
    requires forall i :: 0 <= i < |s| ==> !IsCombiningMark(s[i])
    ensures StripMarks(s) == s
  {
    if |s| > 0 {
      StripMarksNoop(s[1..]);
    }
  }

  /** One character of the last two steps: replace, then lower-case. */
  function SanitizeChar(c: char): char {
    if IsNameChar(c) then AsciiLower(c) else '_'
  }

  /** `sanitizeFilename` after the NFD normalisation. */
  function SanitizeFilename(name: string): (r: string)
    ensures |r| == |StripMarks(name)|
    ensures forall i :: 0 <= i < |r| ==> IsSafeChar(r[i])
  {
    var t := StripMarks(name);
    seq(|t|, i requires 0 <= i < |t| => SanitizeChar(t[i]))
  }

  /** A name already in the output alphabet is left as it is, so the
      function is idempotent; without marks, a character keeps its
      position: it is lower-cased when allowed and becomes `_` otherwise. */
  lemma SanitizeFixesSafeNames(name: string)
    requires forall i :: 0 <= i < |name| ==> IsSafeChar(name[i])
    ensures SanitizeFilename(name) == name
  {
    assert forall i :: 0 <= i < |name| ==> !IsCombiningMark(name[i]);
    StripMarksNoop(name);
  }

  lemma SanitizeIdempotent(name: string)
    ensures SanitizeFilename(SanitizeFilename(name)) == SanitizeFilename(name)
  {
    SanitizeFixesSafeNames(SanitizeFilename(name));
  }

  lemma SanitizePositions(name: string)
    requires forall i :: 0 <= i < |name| ==> !IsCombiningMark(name[i])
    ensures |SanitizeFilename(name)| == |name|
    ensures forall i :: 0 <= i < |name| ==>
      (SanitizeFilename(name)[i] == '_' <==> !IsNameChar(name[i]) || name[i] == '_')
  {
    StripMarksNoop(name);
  }

  // ------------------------------------------------------------ validateFile / isVideoFile

  const MaxFileSize: int := 50 * 1024 * 1024
  const AcceptedImageTypes: seq<string> := ["image/jpeg", "image/png", "image/webp", "image/gif"]
  const AcceptedVideoTypes: seq<string> := ["video/mp4", "video/quicktime"]
  const AcceptedMediaTypes: seq<string> := AcceptedImageTypes + AcceptedVideoTypes

  /** Why a file is refused; the message text carries a formatted size,
      which is floating-point formatting and not modelled. */
  datatype FileProblem = TooLarge(size: int) | UnsupportedType(mime: string)

  /** `validateFile`: None when the file may be uploaded. */
  function ValidateFile(size: int, mime: string): (r: Option<FileProblem>)
    ensures r.None? <==> size <= MaxFileSize && mime in AcceptedMediaTypes
    ensures size > MaxFileSize ==> r == Some(TooLarge(size))
    ensures size <= MaxFileSize && mime !in AcceptedMediaTypes ==> r == Some(UnsupportedType(mime))
  {
    if size > MaxFileSize then Some(TooLarge(size))
    else if mime !in AcceptedMediaTypes then Some(UnsupportedType(mime))
    else None
  }

  /** `isVideoFile`, a prefix test on the type; among the accepted types it
      picks out exactly the two video types. */
  function IsVideo(mime: string): (b: bool)
    ensures mime in AcceptedMediaTypes ==> (b <==> mime in AcceptedVideoTypes)
  {
    assert mime in AcceptedImageTypes ==> |mime| >= 6 && mime[..6][0] == 'i';
    StartsWith(mime, "video/")
  }

  // ------------------------------------------------------------ cn

  /** A `cn` argument: a string, or one of `false`, `null`, `undefined`. */
  type ClassArg = Option<string>

  /** `classes.filter(Boolean)`: the non-empty strings, in order. */
  function KeptClasses(classes: seq<ClassArg>): (r: seq<string>)
    ensures |r| <= |classes|
    ensures forall i :: 0 <= i < |r| ==> r[i] != "" && Some(r[i]) in classes
    ensures forall i :: 0 <= i < |classes| && classes[i].Some? && classes[i].value != "" ==>
      classes[i].value in r
  {
    if |classes| == 0 then []
    else if classes[0].Some? && classes[0].value != "" then [classes[0].value] + KeptClasses(classes[1..])
    else KeptClasses(classes[1..])
  }

  lemma {:induction false} KeptAppend(a: seq<ClassArg>, b: seq<ClassArg>)
    ensures KeptClasses(a + b) == KeptClasses(a) + KeptClasses(b)
  {
    if |a| > 0 {
      assert (a + b)[1..] == a[1..] + b;
      KeptAppend(a[1..], b);
    } else {
      assert a + b == b;
    }
  }

  /** `cn`: empty exactly when no class is kept. */
  function ClassNames(classes: seq<ClassArg>): (r: string)
    ensures r == "" <==> KeptClasses(classes) == []
  {
    var kept := KeptClasses(classes);
    assert kept != [] ==> |Join(kept, " ")| >= |kept[0]| > 0;
    Join(kept, " ")
  }

  /** When no class contains a space, splitting the joined string on spaces
      gives back exactly the kept classes, in their order; with nothing
      kept, the result is empty. */
  lemma ClassNamesSplit(classes: seq<ClassArg>)
    requires forall i :: 0 <= i < |classes| && classes[i].Some? ==> ' ' !in classes[i].value
    ensures KeptClasses(classes) == [] ==> ClassNames(classes) == ""
    ensures KeptClasses(classes) != [] ==> SplitOn(ClassNames(classes), ' ') == KeptClasses(classes)
  {
    var kept := KeptClasses(classes);
    if kept != [] {
      forall i | 0 <= i < |kept| ensures ' ' !in kept[i] {
        var j :| 0 <= j < |classes| && classes[j] == Some(kept[i]);
      }
      SplitJoin(kept, ' ');
    }
  }
}

=== FILE: validation.dfy ===
/**
 * The client-side form schemas, as acceptance conditions on lengths and
 * ranges. Each schema yields the set of fields that fail (empty when the
 * form is accepted), as a schema library reports issues by path.
 * Date parsing and the UUID format are parameters: `parseInstant` gives
 * the instant a date string denotes (None for an invalid date) and
 * `isUuid` decides the UUID format.
 */
module Validation {
  import opened Wrappers
  import opened Enums

  const AiMaxMessageLength: nat := 2000

  /** `.min(lo).max(hi)` on a string's length. */
  predicate LengthWithin(s: string, lo: nat, hi: nat) {
    lo <= |s| <= hi
  }

  /** `z.string().max(hi).optional().or(z.literal(''))`: absent, or at most `hi` long. */
  predicate OptionalUpTo(s: Option<string>, hi: nat) {
    s.None? || |s.value| <= hi
  }

  /** JavaScript truthiness of an optional string. */
  predicate Truthy(s: Option<string>) {
    s.Some? && s.value != ""
  }

  // ---------------------------------------------------------------- posts

  datatype PostForm = PostForm(
    title: string,
    caption: Option<string>,
    hashtags: Option<string>,
    platform: string,
    artistId: string,
    scheduledAt: string)

  datatype PostField = PTitle | PCaption | PHashtags | PPlatform | PArtist | PScheduledAt

  /** `new Date(val) > new Date()`: an invalid date compares false. */
  predicate InFuture(val: string, now: int, parseInstant: string -> Option<int>) {
    parseInstant(val).Some? && parseInstant(val).value > now
  }

  /** postSchema. */
  function PostIssues(f: PostForm, now: int, isUuid: string -> bool, parseInstant: string -> Option<int>)
    : (r: set<PostField>)
    ensures PTitle in r <==> !LengthWithin(f.title, 1, 200)
    ensures PCaption in r <==> !OptionalUpTo(f.caption, 2200)
    ensures PHashtags in r <==> !OptionalUpTo(f.hashtags, 500)
    ensures PPlatform in r <==> ParsePlatform(f.platform).None?
    ensures PArtist in r <==> !isUuid(f.artistId)
    ensures PScheduledAt in r <==> !(|f.scheduledAt| >= 1 && InFuture(f.scheduledAt, now, parseInstant))
  {
    (if LengthWithin(f.title, 1, 200) then {} else {PTitle})
    + (if OptionalUpTo(f.caption, 2200) then {} else {PCaption})
    + (if OptionalUpTo(f.hashtags, 500) then {} else {PHashtags})
    + (if ParsePlatform(f.platform).Some? then {} else {PPlatform})
    + (if isUuid(f.artistId) then {} else {PArtist})
    + (if |f.scheduledAt| >= 1 && InFuture(f.scheduledAt, now, parseInstant) then {} else {PScheduledAt})
  }

  /** A date that is not strictly after `now` is refused, however well formed
      the rest of the post is. */
  lemma PastScheduleRefused(f: PostForm, now: int, isUuid: string -> bool, parseInstant: string -> Option<int>)
    requires parseInstant(f.scheduledAt).Some? && parseInstant(f.scheduledAt).value <= now
    ensures PostIssues(f, now, isUuid, parseInstant) != {}
  {
    assert PScheduledAt in PostIssues(f, now, isUuid, parseInstant);
  }

  // ------------------------------------------------------ rejection, comments

  /** rejectSchema: a rejection reason of 1 to 500 characters. */
  predicate RejectReasonAccepted(reason: string) {
    LengthWithin(reason, 1, 500)
  }

  /** commentSchema: a comment of 1 to 1000 characters. */
  predicate CommentAccepted(content: string) {
    LengthWithin(content, 1, 1000)
  }

  // ------------------------------------------------------------ guidelines

  datatype GuidelineForm = GuidelineForm(
    title: string,
    content: string,
    itemType: string,
    priority: Option<int>,
    validFrom: Option<string>,
    validUntil: Option<string>)

  datatype GuidelineField = GTitle | GContent | GItemType | GPriority | GValidUntil

  /** The date-order refinement: only when both dates are given (non-empty)
      must the start be strictly before the end; an unparsable date
      compares false. */
  predicate DatesOrdered(f: GuidelineForm, parseInstant: string -> Option<int>) {
    Truthy(f.validFrom) && Truthy(f.validUntil) ==>
      parseInstant(f.validFrom.value).Some? && parseInstant(f.validUntil.value).Some?
      && parseInstant(f.validFrom.value).value < parseInstant(f.validUntil.value).value
  }

  /** The item type enum. */
  predicate KnownItemType(itemType: string) {
    itemType in {"permanent", "campaign"}
  }

  /** guidelineItemSchema; an absent priority defaults to 0. A length or
      range failure leaves the object parse going, but an enum failure
      aborts it, and an aborted object parse skips the refinement: the date
      order is only judged for a known item type. */
  function GuidelineIssues(f: GuidelineForm, parseInstant: string -> Option<int>): (r: set<GuidelineField>)
    ensures GTitle in r <==> !LengthWithin(f.title, 1, 200)
    ensures GContent in r <==> |f.content| < 1
    ensures GItemType in r <==> !KnownItemType(f.itemType)
    ensures GPriority in r <==> !(0 <= f.priority.GetOr(0) <= 2)
    ensures GValidUntil in r <==> KnownItemType(f.itemType) && !DatesOrdered(f, parseInstant)
  {
    (if LengthWithin(f.title, 1, 200) then {} else {GTitle})
    + (if |f.content| >= 1 then {} else {GContent})
    + (if KnownItemType(f.itemType) then {} else {GItemType})
    + (if 0 <= f.priority.GetOr(0) <= 2 then {} else {GPriority})
    + (if !KnownItemType(f.itemType) || DatesOrdered(f, parseInstant) then {} else {GValidUntil})
  }

  /** An unknown item type is the only issue reported for a form whose other
      members are valid, whatever order its dates are in. */
  lemma UnknownTypeHidesDateOrder(f: GuidelineForm, parseInstant: string -> Option<int>)
    requires !KnownItemType(f.itemType)
    requires LengthWithin(f.title, 1, 200) && |f.content| >= 1 && 0 <= f.priority.GetOr(0) <= 2
    ensures GuidelineIssues(f, parseInstant) == {GItemType}
  {
    var r := GuidelineIssues(f, parseInstant);
    assert forall g :: g in r <==> g == GItemType;
  }

  /** With at most one of the two dates given, the date order never refuses
      the item. */
  lemma SingleDateNeverRefused(f: GuidelineForm, parseInstant: string -> Option<int>)
    requires !Truthy(f.validFrom) || !Truthy(f.validUntil)
    ensures GValidUntil !in GuidelineIssues(f, parseInstant)
  {}

  // ---------------------------------------------------------------- AI chat

  /** aiMessageSchema: 1 to AI_MAX_MESSAGE_LENGTH characters, untrimmed. */
  predicate AiMessageAccepted(message: string) {
    LengthWithin(message, 1, AiMaxMessageLength)
  }

  datatype AgentConfigForm = AgentConfigForm(
    maxTokens: Option<int>,
    dailyMessageLimit: Option<int>,
    prompts: seq<Option<string>>)

  datatype AgentConfigField = AMaxTokens | ADailyLimit | APrompt(index: nat)

  /** agentConfigSchema, without the temperature bound; absent numbers take
      their defaults (1024 tokens, 20 messages). `prompts` are the six
      prompt fragments in declaration order. */
  function AgentConfigIssues(f: AgentConfigForm): (r: set<AgentConfigField>)
    ensures AMaxTokens in r <==> !(100 <= f.maxTokens.GetOr(1024) <= 4096)
    ensures ADailyLimit in r <==> !(1 <= f.dailyMessageLimit.GetOr(20) <= 100)
    ensures forall i: nat :: APrompt(i) in r <==> (i < |f.prompts| && !OptionalUpTo(f.prompts[i], 3000))
  {
    (if 100 <= f.maxTokens.GetOr(1024) <= 4096 then {} else {AMaxTokens})
    + (if 1 <= f.dailyMessageLimit.GetOr(20) <= 100 then {} else {ADailyLimit})
    + (set i: nat | i < |f.prompts| && !OptionalUpTo(f.prompts[i], 3000) :: APrompt(i))
  }
}

=== FILE: wrappers.dfy ===
/** Optional values, standing in for the source's `T | null` and `T | undefined`. */
module Wrappers {

  datatype Option<+T> = None | Some(value: T) {

    /** The value, or `default` when there is none: the source's `x ?? default`. */
    function GetOr(default: T): T {
      match this
      case Some(v) => v
      case None => default
    }
  }
}
